=== FILE: README.md ===
# wbook core, modelled in Dafny

wbook is a reading tracker. A signed-in reader does the following:

- keeps a collection of catalog books, each with a reading status and progress;
- writes quotes and flashcards against the books in that collection;
- reviews books, at most one review per book;
- studies flashcards in a small study-mode session.

This project models the logic under the React markup, in four parts.

- **Route handlers over an abstract store.**
  - `Store` holds users, catalog books, collection entries (`UserBook`, keyed by the pair user and book), quotes, flashcards and reviews.
  - Every handler is a pure function from the session, the request body, the store and a `down` flag to an `Outcome`: an HTTP status, a JSON body and the store afterwards.
  - `down` stands for the store throwing on its first call.
  - `Store.Valid` is the store invariant. It requires:
    - row ids issued in increasing order below a counter;
    - users unique by email and by username;
    - books unique by id, and by isbn when they have one;
    - collection entries and reviews unique by (user, book);
    - every entry and review points at an existing user and book.

  Every writing handler is proved to keep `Store.Valid`.
- **The client caches (zustand stores).** The quote and flashcard caches are per-book lists in a JavaScript object. They are modelled as an insertion-ordered association list (`JsRecord`). The collection cache is a plain list.
- **Small pure functions and state machines:**
  - the flashcard study session (`StudySession`);
  - the quote category chips and filter (`QuotesView`);
  - the page count and the row numbering (`Pagination`);
  - the route guard (`Middleware`);
  - ISBN hyphen stripping (`Isbn`).
- **Form submit validators.** Each form is modelled as a function from the form state to the new form state and the payload it forwards, if any:
  - `AddQuote` and `EditQuote`;
  - `AddFlashcard`;
  - `ReviewForm`.

  Lemmas connect each form to the handler that receives its payload.

The JavaScript semantics that the code leans on are written out:

- truthiness of optional fields (`Common.Truthy`, `JsNumber.JsonTruthy`);
- `String.prototype.trim` with the ECMAScript whitespace set;
- ASCII case folding for Prisma's `mode: "insensitive"`;
- `String(n)` and `parseInt` (`JsNumber`), over exact integers;
- `Array.prototype.filter` (`JsArray`);
- `Math.ceil` of a division, including the `NaN` and `Infinity` cases (`Pagination`).

Outside the model:

- the database: the `Db` datatype stands in for it;
- the auth provider: the session is an input;
- password hashing: `Bcrypt(secret, rounds)` is an opaque digest value;
- the clock: generated ids double as `createdAt`/`addedAt` stamps;
- the id generator for new catalog books: a parameter.

## Model

| member | source | states |
|---|---|---|
| Store.UserByEmail | src/app/api/register/route.ts:16 | a unique-email lookup finds a user with that email, or there is none |
| Store.UserBookByKey | src/app/api/user/books/userbook/route.ts:21-28 | the `userId_bookId` lookup finds a row with exactly that user and book, or no row has the pair |
| Store.ReviewByKey | src/app/api/review/route.ts:70-77 | the review lookup by (user, book) finds such a review, or none exists |
| Store.EmptyValid | src/app/api/register/route.ts:29-36 | the empty store satisfies every uniqueness and reference invariant |
| Store.UserBookKeyDetermines | src/app/api/user/books/userbook/route.ts:21-28 | in a store with unique (user, book) keys, the key lookup returns the one row with that key |
| Store.ValidWithNewUserBook | src/app/api/user/books/route.ts:103-108 | appending a fresh-id entry for an absent (user, book) pair with existing user and book keeps the invariant |
| Store.ValidWithNewBook | src/app/api/user/books/route.ts:65-83 | appending a book with a new id and an unused isbn keeps the invariant and changes no earlier id lookup |
| Store.ValidWithNewReview | src/app/api/review/route.ts:86-95 | appending a fresh-id review for an unreviewed (user, book) pair with existing user and book keeps the invariant |
| Store.ValidWithNewUser | src/app/api/register/route.ts:29-36 | appending a fresh-id user whose email and username are both unused keeps the invariant |
| Store.ValidWithNewQuote | src/app/api/user/quotes/route.ts:40-46 | appending a fresh-id quote keeps the invariant |
| Store.ValidWithNewFlashcard | src/app/api/user/flascards/route.ts:39-45 | appending a fresh-id flashcard keeps the invariant |
| Store.ValidWithUserBooks | src/app/api/user/books/route.ts:169-180 | replacing the entry table by one with issued ids, unique keys and valid references keeps the invariant |
| Store.IssueNext | src/app/api/user/books/route.ts:103-108 | issuing the counter value as the next id keeps ids increasing and below the new counter |
| Common.Trim | src/app/api/book/route.ts:8-10 | `trim` yields the slice after the leading whitespace with no whitespace at either end, and is empty iff the input is all whitespace |
| Common.TrimIdempotent | src/app/api/book/route.ts:8-10 | trimming twice is trimming once |
| Common.Lower | src/app/api/book/route.ts:14-27 | case folding keeps the length and maps each character, A-Z to a-z and all else to itself |
| Common.ContainsIffOccurs | src/app/api/book/route.ts:14-27 | `Contains(hay, needle)` is true exactly when `needle` equals the slice of `hay` that starts at some index and has the needle's length |
| BookApi.Param | src/app/api/book/route.ts:8-10 | a search parameter is its trimmed value, or "" when absent |
| BookApi.Conditions | src/app/api/book/route.ts:14-27 | a general query adds a title and an author condition, a title filter and an author filter one each, and nothing else is added |
| BookApi.Selection | src/app/api/book/route.ts:29-33 | without a query the catalog is kept whole; with one, a book is kept iff it meets some condition, the kept books stay in table order, and each appears as often as in the catalog |
| BookApi.SelectedIffSomeConditionHolds | src/app/api/book/route.ts:14-32 | with any parameter given, a book matches iff the general query is in its title or author, or the title filter in its title, or the author filter in its author, ignoring case |
| BookApi.Search | src/app/api/book/route.ts:6-37 | the search answers 200 with a prefix of the matching books, of length min(12, matches) |
| BookApi.NewBook | src/app/api/book/route.ts:67-80 | a created book takes the request's title, author and details, category "General" when none is given, and a cover only when truthy |
| BookApi.UpsertByIsbn | src/app/api/book/route.ts:64-81 | the upsert returns the stored book with that isbn unchanged, or inserts the new book |
| BookApi.InsertBook | src/app/api/book/route.ts:64-81 | the create branch of the upsert succeeds iff the new id is unused, and then only appends |
| BookApi.Attach | src/app/api/book/route.ts:84-104 | the entry (user, book) with status "want to read" and progress 0 is created only when absent; 201 returns the book |
| BookApi.CreateAsWritten | src/app/api/book/route.ts:41-110 | the handler as written: 400 without userId, title or authors; the upsert is keyed on the isbn, or "" when it is falsy, so any stored book with that key is returned unchanged |
| BookApi.Create | src/app/api/book/route.ts:41-110 | 400 and a store-down 500 change nothing; for a known user, a known isbn answers 201 with that book and a new book answers 201 with the created book, and either is put in the collection when not there yet; no 500 adds a collection entry, but an unknown user is found out only after the new catalog book is written, which stays; existing books are never modified; an isbn-less request gets a book of its own |
| BookApi.CreatePreservesValid | src/app/api/book/route.ts:64-102 | creating a book and its collection entry keeps the store invariant |
| BookApi.CreateAsWrittenPreservesValid | src/app/api/book/route.ts:64-102 | the handler as written also keeps the store invariant |
| BookApi.AttachPreservesValid | src/app/api/book/route.ts:84-102 | attaching the entry only when absent keeps (user, book) unique |
| BookApi.UpsertPreservesValid | src/app/api/book/route.ts:64-81 | the upsert keeps the invariant and leaves the returned book in the catalog |
| BookApi.CreateWithIsbnIdempotent | src/app/api/book/route.ts:64-102 | repeating a successful request with an isbn returns the same reply and adds nothing |
| BookApi.IsbnlessBooksMergedAsWritten | src/app/api/book/route.ts:64-65 | as written, a second isbn-less book is answered with the first one, and the catalog keeps one book |
| BookApi.IsbnlessRequestGetsOwnBook | src/app/api/book/route.ts:64-81 | corrected: an isbn-less request always creates its own book |
| BookApi.IsbnlessBooksKeptApart | src/app/api/book/route.ts:64-81 | corrected: two isbn-less books stay two books |
| UserBooksApi.Joined | src/app/api/user/books/route.ts:14-33 | the projection lists exactly the caller's entries whose book exists, each as id, title, author and cover, and each book as often as the caller has entries for it |
| UserBooksApi.List | src/app/api/user/books/route.ts:7-39 | 401 without a user id, 500 on a store failure; otherwise the caller's books, sorted by title, as a permutation of the projection |
| Common.Join | src/app/api/user/books/route.ts:70-71 | the joined text starts with the first item and its length is the items' lengths plus one separator between each pair of neighbours |
| Common.JoinAppend | src/app/api/user/books/route.ts:70-71 | joining one more item appends the separator and that item to the previous join |
| UserBooksApi.CoerceAuthor | src/app/api/user/books/route.ts:70-71 | an array author is joined with ", ", and a missing or empty author becomes "Tidak Diketahui" |
| UserBooksApi.FirstOrNull | src/app/api/user/books/route.ts:72-73 | an array isbn or publisher list gives its first element; a missing one gives null |
| UserBooksApi.NewCatalogBook | src/app/api/user/books/route.ts:65-83 | a book created from the payload has the coerced fields and no other details |
| UserBooksApi.EnsureCatalogBook | src/app/api/user/books/route.ts:61-83 | a book with that id is kept as it is; otherwise exactly one new book is appended and no other table changes; the step fails exactly when the book is new and has no title or an isbn already in use |
| UserBooksApi.Add | src/app/api/user/books/route.ts:41-115 | 401 without a session; 404 for an unknown user, checked before the book id is used; a known user, a book id the catalog has or can take and no existing entry give 200 and exactly one new entry for the caller and the book; an existing entry gives the "already in your collection" reply and adds none; an existing book is never modified; a failure adds nothing |
| UserBooksApi.AddPreservesValid | src/app/api/user/books/route.ts:41-115 | adding to the collection keeps the invariant |
| UserBooksApi.AddTwiceAddsOnce | src/app/api/user/books/route.ts:86-100 | repeating a successful add answers "already in your collection" and adds no second entry |
| UserBooksApi.WithoutKey | src/app/api/user/books/route.ts:139-146 | deleting by key keeps exactly the rows without that (user, book) pair |
| UserBooksApi.WithoutKeyIsFilter | src/app/api/user/books/route.ts:139-146 | the delete is a filter on the key: the other rows keep their order and each occurs as often as before, and no row with the key is left |
| UserBooksApi.Remove | src/app/api/user/books/route.ts:117-153 | 401 without a session and 400 without a book id, both changing nothing; the caller's existing row is removed with 200, and only that row; a missing row gives 500 |
| UserBooksApi.RemovePreservesValid | src/app/api/user/books/route.ts:117-153 | removing an entry keeps the invariant |
| UserBooksApi.RemoveTwiceFails | src/app/api/user/books/route.ts:139-151 | deleting the same entry a second time finds no row and answers 500 |
| UserBooksApi.Patched | src/app/api/user/books/route.ts:169-180 | a patch writes status only when truthy and progress only when a number; id, user and book never change |
| UserBooksApi.PatchRows | src/app/api/user/books/route.ts:169-180 | only the row with the caller's (user, book) key is patched; every other row is untouched |
| UserBooksApi.Update | src/app/api/user/books/route.ts:155-187 | 401 without a user id and 400 without a book id, both changing nothing; the caller's existing row is patched with 200 and returned; a missing row gives 500 |
| UserBooksApi.UpdatePreservesValid | src/app/api/user/books/route.ts:155-187 | patching keeps the invariant |
| UserBooksApi.PatchFieldsIndependent | src/app/api/user/books/route.ts:169-180 | a field the patch does not name keeps its value in every row |
| UserBooksApi.WithoutKeyKeepsKeys | src/app/api/user/books/route.ts:139-146 | removing rows keeps (user, book) keys unique |
| UserBooksApi.WithoutKeyAscending | src/app/api/user/books/route.ts:139-146 | removing rows keeps ids increasing and below the counter |
| UserBooksApi.PatchRowsKeepsKeys | src/app/api/user/books/route.ts:169-180 | patching keeps (user, book) keys unique |
| UserBooksApi.PatchRowsKeepsReferences | src/app/api/user/books/route.ts:169-180 | patched rows still point at existing users and books |
| QuotesApi.Entry | src/app/api/user/quotes/route.ts:26-33 | the lookup finds the caller's entry for the book, or the caller has none |
| QuotesApi.Add | src/app/api/user/quotes/route.ts:8-53 | 401 and 400 come before any store access; with the store up, 404 iff the caller has no entry for the book and 200 when there is one; success adds one quote on that entry, content verbatim and the parsed page |
| QuotesApi.AddPreservesValid | src/app/api/user/quotes/route.ts:40-46 | adding a quote keeps the invariant |
| QuotesApi.AddTargetsOnlyCallersEntry | src/app/api/user/quotes/route.ts:26-46 | the entry a new quote hangs off belongs to the caller and to the requested book |
| JsNumber.ParseInt | src/app/api/user/quotes/route.ts:22 | `parseInt` is NaN exactly when, after whitespace, a sign and a `0x` prefix, the next character is not a digit of the base |
| JsNumber.ParseSigned | src/app/api/user/quotes/route.ts:22 | once whitespace is skipped, the reading is NaN exactly when no digit of the base follows the sign and any hex prefix |
| JsNumber.ParseIntSkipsSpaces | src/app/api/user/quotes/route.ts:22 | leading whitespace does not change what `parseInt` reads |
| JsNumber.ParseIntOfPaddedNumber | src/app/api/user/quotes/route.ts:22 | `parseInt` returns `n` for the decimal text of any integer `n` with any whitespace before it and any text after it that does not continue the digits or form a hex prefix |
| JsNumber.ParseIntOfIntToString | src/app/api/user/quotes/route.ts:22 | `parseInt(String(n))` is `n` for every integer |
| JsNumber.NatToStringValue | src/app/api/user/quotes/route.ts:22 | reading back the decimal digits of a natural number gives the number |
| JsNumber.StoredPage | src/app/api/user/quotes/route.ts:22-44 | an absent, empty or falsy page, or one that parses to 0 or NaN, is not stored; a non-zero number is stored as it is; a non-empty text is stored as its `parseInt` reading unless that is 0 or NaN |
| JsNumber.NotANumberPage | src/app/api/user/quotes/route.ts:22 | the page text "N/A" stores no page |
| JsNumber.StoredPageOfPaddedNumber | src/app/api/user/quotes/route.ts:22-44 | a page text holding a number `n` after whitespace and before other text stores `n`, or nothing when `n` is 0 |
| JsNumber.ZeroPage | src/app/api/user/quotes/route.ts:44 | a page that parses to 0 is not stored |
| FlashcardsApi.Add | src/app/api/user/flascards/route.ts:9-52 | 401 and 400 come before any store access; with the store up, 404 iff the caller has no entry for the book and 200 with the card on that entry when there is one; success adds exactly one card, sides verbatim |
| FlashcardsApi.AddPreservesValid | src/app/api/user/flascards/route.ts:39-45 | adding a flashcard keeps the invariant |
| ReviewApi.ReviewerOf | src/app/api/review/route.ts:33-37 | a missing name becomes "Anonymous", and a missing avatar or email becomes "" |
| ReviewApi.View | src/app/api/review/route.ts:29-38 | a listed review exposes its id and rating, and its comment as `content` |
| ReviewApi.NewestFirst | src/app/api/review/route.ts:15-17 | the listing holds exactly the reviews of that book |
| ReviewApi.NewestFirstDescending | src/app/api/review/route.ts:17 | in a valid store, the listing is strictly newest first |
| ReviewApi.List | src/app/api/review/route.ts:6-45 | 400 without a book id, 500 on failure; otherwise exactly that book's reviews as views, in listing order |
| ReviewApi.ListNewestFirst | src/app/api/review/route.ts:15-40 | the returned views are strictly newest first |
| ReviewApi.Create | src/app/api/review/route.ts:48-100 | 401 without an email and 400 for a missing field or a rating outside 1..5, both before the store; 404 iff no such user; 409 iff already reviewed; a first review of an existing book gives 201, of an unknown book 500; success adds exactly one review with the comment as sent |
| ReviewApi.CreatePreservesValid | src/app/api/review/route.ts:70-95 | creating a review keeps (user, book) unique |
| ReviewApi.CreateTwiceConflicts | src/app/api/review/route.ts:70-84 | repeating a successful review answers 409 and adds nothing |
| HasReviewedApi.FirstReview | src/app/api/review/has-reviewed/route.ts:21-28 | the lookup finds a review on that book by a user with that email, and finds none iff no such review exists |
| HasReviewedApi.HasReviewed | src/app/api/review/has-reviewed/route.ts:10-34 | false without a session email; 400 without a book id; 500 with false on failure; otherwise true iff a review on the book belongs to the email's user |
| HasReviewedApi.ReviewedByIffAlreadyReviewed | src/app/api/review/has-reviewed/route.ts:21-28 | in a valid store, this check agrees with the duplicate check of the review handler |
| HasReviewedApi.ReviewedAfterCreate | src/app/api/review/has-reviewed/route.ts:21-28 | after a successful review, the check answers true |
| RegisterApi.Register | src/app/api/register/route.ts:9-43 | 400 when a field is missing; 409 for a used email, checked before the username; a complete request with an unused email and username gives 200; success adds exactly one user that stores the digest and not the raw password |
| RegisterApi.RegisterPreservesValid | src/app/api/register/route.ts:16-36 | registration keeps email and username unique |
| RegisterApi.RegisterTwiceConflicts | src/app/api/register/route.ts:16-19 | after a registration, any complete request with the same email answers 409 and adds nothing |
| UserbookApi.Get | src/app/api/user/books/userbook/route.ts:7-39 | 401 without a user id, 400 without a book id; 404 iff the caller has no row for the book; only the caller's own row is returned, as it is |
| UserbookApi.GetFindsTheRow | src/app/api/user/books/userbook/route.ts:21-34 | a caller asking for a book in their collection gets exactly their row |
| BookLib.GetBookById | src/lib/book.ts:3-9 | the book with that id, or null iff there is none |
| BookLib.GetUserBook | src/lib/book.ts:11-31 | null without a user id or on a store error; otherwise the row keyed by (user, book), or null iff there is none |
| BookLib.GetUserBookFindsRow | src/lib/book.ts:18-26 | in a valid store, every row is found by its own key |
| BookLib.GetBookByIdFindsBook | src/lib/book.ts:3-9 | in a valid store, every book is found by its own id |
| JsRecord.Get | src/stores/useQuoteStore.ts:88-91 | reading a key finds its entry, or nothing iff the key is absent |
| JsRecord.Put | src/stores/useQuoteStore.ts:27-34 | `setQuotesForBook` (and `setFlashcardsForBook`, src/stores/useFlascardStore.ts:26-33): the book's list becomes the given list, every other book's value and every earlier position stay, and a new book goes last |
| JsRecord.PutKeepsKeysUnique | src/stores/useQuoteStore.ts:27-34 | the spread update never duplicates a book key |
| JsRecord.PutSameValue | src/stores/useQuoteStore.ts:27-34 | writing a book's current list back is the identity |
| JsRecord.ListAt | src/stores/useQuoteStore.ts:88-91 | `getQuotesByBookId` (and `getFlashcardsByBookId`, src/stores/useFlascardStore.ts:60-63): the book's stored list, or [] for an unknown book |
| JsRecord.Append | src/stores/useQuoteStore.ts:36-43 | `addQuote` (and `addFlashcard`, src/stores/useFlascardStore.ts:34-41): the item goes at the end of the book's list, an absent book counting as empty; other books are untouched and the total grows by exactly one |
| JsRecord.MapAt | src/stores/useQuoteStore.ts:45-74 | an in-place `map` over one book's list keeps its length and replaces each item by its image; other books are untouched |
| JsRecord.FilterAt | src/stores/useQuoteStore.ts:56-63 | a `filter` of one book's list keeps, in order, exactly the accepted items, each as often as before, changes nothing when all are accepted, and leaves other books untouched |
| JsRecord.FilterAtIdempotent | src/stores/useFlascardStore.ts:52-59 | filtering a book's list twice by the same test is filtering it once |
| JsRecord.ListUpdatesKeepKeysUnique | src/stores/useFlascardStore.ts:26-59 | setting, appending, mapping and filtering a book's list never duplicate a book key |
| JsRecord.TotalIsFlatLength | src/stores/useQuoteStore.ts:77-86 | `getTotalQuotes` (and `getTotalFlashcards`, src/stores/useFlascardStore.ts:64-71): the sum of the per-book lengths is the length of all items |
| JsRecord.PutTotal | src/stores/useQuoteStore.ts:77-80 | replacing one book's list changes the total by the difference in lengths |
| JsRecord.FlatMembers | src/stores/useQuoteStore.ts:83-86 | with unique keys, an item is among all items iff it is in some book's list |
| QuoteStore.OperationsKeepKeysUnique | src/stores/useQuoteStore.ts:27-74 | every quote-cache operation keeps one entry per book |
| QuoteStore.Edited | src/stores/useQuoteStore.ts:45-54 | a matching quote gets the new content and page, even an absent page; others are unchanged |
| QuoteStore.Edit | src/stores/useQuoteStore.ts:45-54 | only content and page of the matching quotes of that book change |
| QuoteStore.Delete | src/stores/useQuoteStore.ts:56-63 | every quote with that id leaves the book's list, the rest keep their order and their number of copies, and an absent id changes nothing |
| QuoteStore.DeleteIdempotent | src/stores/useQuoteStore.ts:56-63 | deleting twice is deleting once |
| QuoteStore.Toggled | src/stores/useQuoteStore.ts:65-74 | a matching quote flips its favourite truth value, absent counting as false; nothing else changes |
| QuoteStore.ToggleFavorite | src/stores/useQuoteStore.ts:65-74 | toggling applies to each quote of that book in place; other books are untouched |
| QuoteStore.ToggleTwice | src/stores/useQuoteStore.ts:65-74 | toggling twice restores every quote's favourite truth value and every other field |
| QuoteStore.AllHoldsEveryBooksQuotes | src/stores/useQuoteStore.ts:83-86 | all quotes are exactly the quotes of some book |
| FlashcardStore.Edited | src/stores/useFlascardStore.ts:42-51 | a card with that id gets the new front and back; others are unchanged |
| FlashcardStore.Edit | src/stores/useFlascardStore.ts:42-51 | only front and back of matching cards change; difficulty, counters and all other cards are kept |
| FlashcardStore.Delete | src/stores/useFlascardStore.ts:52-59 | no card with that id remains in that book, the rest keep their order and their number of copies, an absent id changes nothing, and other books are untouched |
| FlashcardStore.DeleteIdempotent | src/stores/useFlascardStore.ts:52-59 | deleting twice is deleting once |
| UserBooksStore.SetUserBooks | src/stores/useUserBooksStore.ts:24 | the list is replaced whole |
| UserBooksStore.AddBook | src/stores/useUserBooksStore.ts:25 | the book is appended without a duplicate check, and earlier entries stay as they are |
| UserBooksStore.RemoveBook | src/stores/useUserBooksStore.ts:26-29 | no entry with that id remains, the others keep their order and their number of copies, and an absent id changes nothing |
| UserBooksStore.RemoveIdempotent | src/stores/useUserBooksStore.ts:26-29 | removing twice is removing once |
| JsArray.Filter | src/components/Quotes/Quotes.tsx:41-45 | `filter` keeps, in order, exactly the elements the callback accepts, each as many times as it occurs, and drops the rest |
| JsArray.FilterIdempotent | src/components/Quotes/Quotes.tsx:41-45 | filtering twice by the same callback is filtering once |
| StudySession.Initial | src/components/FlashCard/FlashCard.tsx:33-37 | the deck view starts at card 0, unflipped, outside study mode |
| StudySession.ShuffleCards | src/components/FlashCard/FlashCard.tsx:40-44 | a shuffle resets index and flip and keeps the stats |
| StudySession.StartStudyMode | src/components/FlashCard/FlashCard.tsx:46-52 | starting sets index 0, unflipped, stats 0/0 and no completed cards |
| StudySession.ExitStudyMode | src/components/FlashCard/FlashCard.tsx:54-58 | exiting resets index and flip and keeps the stats |
| StudySession.CardFlip | src/components/FlashCard/FlashCard.tsx:60-62 | a flip inverts the flip state and nothing else |
| StudySession.FlipTwice | src/components/FlashCard/FlashCard.tsx:60-62 | flipping twice is the identity |
| StudySession.HandleAnswer | src/components/FlashCard/FlashCard.tsx:64-93 | an answer adds one to exactly one counter and marks the card; before the last card it advances and unflips; on the last card it leaves both and schedules the exit |
| StudySession.Expire | src/components/FlashCard/FlashCard.tsx:81-91 | the scheduled exit leaves study mode and keeps the stats |
| StudySession.Step | src/components/FlashCard/FlashCard.tsx:117-273 | an event whose button is not on screen changes nothing |
| StudySession.StaleIndexAfterReload | src/components/FlashCard/FlashCard.tsx:117-118 | as written, loading a page shorter than the position reached keeps study mode and the index, which then lies outside the new deck |
| StudySession.SecondCardReached | src/components/FlashCard/FlashCard.tsx:64-78 | in a deck of two or more cards, start, flip and one answer put the study view on the second card |
| StudySession.RunKeepsIndexInRange | src/components/FlashCard/FlashCard.tsx:117-118 | as long as no page change replaces the deck, the index stays within the deck in study mode and is 0 outside it |
| StudySession.StudyModeNeedsCards | src/components/FlashCard/FlashCard.tsx:255-273 | while the deck and every page loaded are empty, study mode is never entered |
| StudySession.StatsCountAnswers | src/components/FlashCard/FlashCard.tsx:64-69 | correct plus incorrect equals the number of answers given |
| StudySession.LastCardAnsweredTwice | src/components/FlashCard/FlashCard.tsx:79-92 | as written, a one-card deck answered twice before the exit counts two answers |
| StudySession.FixedStep | src/components/FlashCard/FlashCard.tsx:64-93 | corrected: an answer after the last card's answer is ignored; a page change leaves study mode and keeps the stats; every other event steps as before |
| StudySession.FixedSessionNeverOvercounts | src/components/FlashCard/FlashCard.tsx:64-93 | corrected: across any clicks and page changes, the card shown is in the current deck and each card is answered at most once, so study mode never counts more answers than cards |
| Pagination.TotalPages | src/components/Pagination.tsx:12 | the page count is `ceil(total / limit)`, so (pages-1)*limit < total <= pages*limit; a limit of 0 gives NaN or Infinity |
| Pagination.ShownIffMoreThanOnePage | src/components/Pagination.tsx:12-13 | with a positive limit, the control is rendered iff total > limit |
| Pagination.DisplayNumber | src/components/Quotes/Quotes.tsx:171 | a row's number is at least 1 and falls within its page's range |
| Pagination.DisplayNumberInjective | src/components/FlashCard/FlashCard.tsx:343 | distinct rows, on the same or different pages, get distinct numbers |
| Pagination.PageBeforePage | src/components/FlashCard/FlashCard.tsx:343 | every number on an earlier page is below every number on a later page |
| QuotesView.Distinct | src/components/Quotes/Quotes.tsx:39 | `new Set` keeps each value once, in first-occurrence order |
| QuotesView.PresentCategories | src/components/Quotes/Quotes.tsx:39 | the truthy categories are exactly the non-empty categories some quote has |
| QuotesView.Categories | src/components/Quotes/Quotes.tsx:39 | the chips are "all", then each truthy category once |
| QuotesView.Filtered | src/components/Quotes/Quotes.tsx:41-45 | the shown quotes are an ordered subsequence; a quote is shown iff its category matches (or the filter is "all") and it is a favourite when only favourites are shown; a shown quote appears as often as in the list |
| QuotesView.UnfilteredShowsAll | src/components/Quotes/Quotes.tsx:41-45 | filter "all" with favourites off shows every quote |
| QuotesView.CategoryChipSelectsSome | src/components/Quotes/Quotes.tsx:39-45 | every category chip other than "all" selects at least one quote |
| Middleware.Guard | src/middleware.ts:5-18 | with a token, /signin and /signup redirect to /collection; without one, /collection paths redirect to /signin; everything else passes |
| Middleware.RedirectRulesExclusive | src/middleware.ts:9-15 | the two redirect rules never both apply |
| Middleware.SignedInReachesCollection | src/middleware.ts:9-17 | a signed-in request under /collection is never redirected |
| Middleware.RedirectTargetPasses | src/middleware.ts:9-17 | following a redirect never redirects again |
| Isbn.RemoveHyphens | src/utils/isbn.ts:7 | stripping leaves no hyphen and keeps every other character, as often as it occurs and in its order |
| Isbn.Normalize | src/utils/isbn.ts:6-8 | the result has no hyphen and no surrounding whitespace, and is the trimmed hyphen-free input |
| Isbn.NormalizeIdempotent | src/utils/isbn.ts:6-8 | normalizing twice is normalizing once |
| Isbn.NormalizeCleanIdentity | src/utils/isbn.ts:6-8 | an input without hyphens or surrounding whitespace is returned unchanged |
| AddQuote.Save | src/components/Quotes/AddQuote.tsx:35-52 | blank content forwards nothing and keeps the form; other content is forwarded untrimmed, with "N/A" for an empty page, and the form resets |
| AddQuote.SaveTwiceForwardsOnce | src/components/Quotes/AddQuote.tsx:44-51 | saving again right after a forwarded save forwards nothing |
| AddQuote.ForwardedQuoteAccepted | src/components/Quotes/AddQuote.tsx:44-47 | a forwarded quote passes the quote handler's validation, and its "N/A" page stores no page |
| EditQuote.Open | src/components/Quotes/EditQuote.tsx:26-31 | opening the modal loads the initial content and page; otherwise the fields are kept |
| EditQuote.Update | src/components/Quotes/EditQuote.tsx:33-46 | without a quote id or with blank content, nothing is forwarded and the modal stays open; otherwise trimmed content and the page, or 0, are forwarded, then it closes |
| EditQuote.ForwardedContentTrimmed | src/components/Quotes/EditQuote.tsx:41 | forwarded content is non-empty and has no surrounding whitespace |
| EditQuote.OpenThenUpdate | src/components/Quotes/EditQuote.tsx:26-46 | saving a freshly opened modal forwards the initial quote |
| AddFlashcard.Save | src/components/FlashCard/AddFlashCard.tsx:31-50 | a save is rejected iff both sides are blank; a rejected form is kept; otherwise both sides are forwarded untrimmed and the form resets |
| AddFlashcard.SaveTwiceForwardsOnce | src/components/FlashCard/AddFlashCard.tsx:40-47 | saving again right after a forwarded save forwards nothing |
| AddFlashcard.OneSidedCardPassesFormOnly | src/components/FlashCard/AddFlashCard.tsx:33-44 | a card with one blank side is forwarded by the form but fails the flashcard handler's validation |
| ReviewForm.Submit | src/app/books/ReviewForm.tsx:14-21 | submits iff the rating is positive and the content non-blank; forwards both verbatim and resets to 0 and ""; a rejection keeps the form |
| ReviewForm.SubmitTwiceForwardsOnce | src/app/books/ReviewForm.tsx:16-19 | submitting again right after a submit forwards nothing |
| ReviewForm.ForwardedReviewAccepted | src/app/books/ReviewForm.tsx:16-17 | a forwarded review with a rating of at most 5 passes the review handler's validation |

## Left out

- Concurrency. Handlers run one at a time, so the check-then-insert races of the real database do not arise. These are the duplicate entry, the duplicate review and the concurrent isbn upsert.
- Partial failures. `down` makes the first store call throw, which leaves the store unchanged. The only later failure a handler reaches is POST /api/book with an unknown user: the collection-entry insert throws after the catalog book is written, and `BookApi.Create` keeps that book. Other failures after a write are not modelled.
- The database schema. `src/lib/prisma.ts` and the schema file are not part of this model. The following are assumed rather than read:
  - the column defaults of a new collection entry (`DefaultStatus`, `DefaultProgress`);
  - the optional `name`, `image` and `password` of a user;
  - the unique constraints.
- Cascading deletes. Removing a collection entry leaves its quotes and flashcards in place. `Store.Valid` does not require quotes and flashcards to point at an existing entry, because the cascade rules are not visible.
- Generated ids. Ids are naturals from one counter and double as the creation time. A catalog book id is a string given by the client (POST /api/user/books) or a parameter (POST /api/book). A clash with an existing id makes the create throw, which is modelled.
- Search order. `BookApi.Search` keeps catalog order, since the query has no `orderBy`. GET /api/book has no try/catch, so it takes no `down` flag.
- `getBookById`. It propagates store errors, so `BookLib.GetBookById` takes no `down` flag.
- `formatISBN` (src/utils/isbn.ts:13-17). It depends on an external ISBN library.
- `Date` conversions of `publishYear`/`publishDate`. They are kept as a year or as the text sent.
- Floating-point values: the study progress percentage, accuracy, average ratings and pages read.
- Numbers are integers throughout.
  - A non-integer `rating`, `progress`, `pageCount` or page is not represented.
  - Numbers are exact, unbounded integers. See the `JsNumber.ParseInt` line below for the double-precision and column-width limits.
- JsNumber.ParseInt: reads a digit string as its exact value, while JavaScript rounds a value above 2^53 to the nearest double (`parseInt("9007199254740993")` is 9007199254740992). `JsNumber.IntToString` likewise writes every digit, while `String(n)` of a double above 2^53 keeps only the shortest digits that round-trip and switches to exponent notation from 10^21. So `JsNumber.ParseIntOfIntToString`, `JsNumber.ParseIntOfPaddedNumber` and `JsNumber.StoredPageOfPaddedNumber` hold in the model for every integer, but in JavaScript only for magnitudes up to 2^53.
- QuotesApi.Add: stores a parsed page of any size. If the `page` column is a Prisma `Int`, it is 32-bit, so a page of 2^31 or more makes the create throw and the handler answers 500 where the model answers 200. The column widths are in the schema file, which is not part of this model.
- UserBooksApi.Update: stores a numeric `progress` of any size; with a 32-bit `Int` column, 2^31 or more would give 500 instead of 200.
- BookApi.Create: stores a `pageCount` of any size; with a 32-bit `Int` column, 2^31 or more would give 500 instead of 200.
- `UserBooksApi.List` sorts by code-point order of titles. Database collation and locale-aware ordering are not modelled.
- `Common.Lower` folds only A-Z. Unicode case folding beyond ASCII is not modelled.
- JavaScript object key order. Integer-like keys enumerate first in real JavaScript; `JsRecord` keeps plain insertion order for every key.
- StudySession.RunKeepsIndexInRange: holds only while no page change replaces the deck. A shorter page loaded during a session leaves the index outside the deck; see Findings.
- StudySession.StudyModeNeedsCards: is stated for a deck that stays empty, that is, every page loaded is empty too.
- `StudySession.ShuffleCards` does not reorder the deck. Neither does the source, which only resets the position.
- `QuotesView.Categories` lists a quote category spelled "all" twice, once as the leading chip and once as a category, exactly as the source does.
- The rating widget. Its range is a property of the UI library. `ReviewForm.ForwardedReviewAccepted` therefore assumes a rating of at most 5.
- The handlers that are called but not shown. These are the quote and flashcard list, by-id edit/delete and progress endpoints. Their behaviour is not invented here.
- The fetch wrappers between the forms and the handlers (`src/lib/api/*.ts`, `src/hooks/*.ts`) are not part of this model. The forms and handlers are connected directly by lemmas.
- The middleware `matcher` configuration (src/middleware.ts:20-26). `Middleware.Guard` decides for any path.
- The password hash. bcrypt is an opaque value that records the secret and the cost factor 12. Salting and the one-way property are not modelled.
- The auth provider. The session is an input with an optional user id and email.
- UI markup, toasts, styling, the cover upload and the zod schemas. The schemas serve only as record shapes.

## Findings

| source | as written | input that shows it | evidently intended | confidence | as-written member | corrected member |
|---|---|---|---|---|---|---|
| src/app/api/book/route.ts:64-81 | the upsert is keyed on the isbn, or on "" when the isbn is falsy, and the add-book form (src/app/collection/add-book/page.tsx:36,179) sends `isbn: ""` when the field is left blank; the first isbn-less book is stored with isbn "", and every later isbn-less book matches it | create "Dune" with isbn "", then "Emma" with isbn "": the second reply is "Dune", and the catalog holds one book | a request without an isbn creates its own book | not executed | BookApi.IsbnlessBooksMergedAsWritten (on BookApi.CreateAsWritten) | BookApi.Create, with BookApi.IsbnlessRequestGetsOwnBook and BookApi.IsbnlessBooksKeptApart |
| src/components/FlashCard/FlashCard.tsx:79-92 | on the last card `handleAnswer` neither advances nor unflips, and exits only after a 500 ms timeout; the answer buttons (lines 201-211) stay on screen until then, so another click counts again | a one-card deck: start, flip, answer correct, answer correct before the timeout: two answers counted for one card | each card is answered once; the session ends with correct+incorrect equal to the number of cards | not executed | StudySession.LastCardAnsweredTwice | StudySession.FixedStep, with StudySession.FixedSessionNeverOvercounts |
| src/components/FlashCard/FlashCard.tsx:117-118 | the flashcard pager of the book page (`src/app/collection/books/[id]/UserBookDetailClient.tsx`, lines 116-118 and 208-220) stays on screen beside the study view, and a page change replaces the deck passed to the panel while the panel keeps study mode and its index; the study view then reads `flashcards[currentCardIndex]`, which is past the end of a shorter page | a deck of two cards: start, flip, answer; the index is 1; load a page of one card: study mode stays on, the index is 1, and there is no card 1 | a page change ends the session, so the card shown is always in the deck | not executed | StudySession.StaleIndexAfterReload, with StudySession.SecondCardReached | StudySession.FixedStep, with StudySession.FixedSessionNeverOvercounts |

=== FILE: add_flashcard.dfy ===
/** The add-flashcard modal's save handler. */
module AddFlashcard {
  import opened Common
  import FlashcardsApi

  datatype Form = Form(front: string, back: string)

  /** What `onAddFlashCard` receives. */
  datatype NewCard = NewCard(front: string, back: string)

  datatype Saved = Saved(form: Form, forwarded: Option<NewCard>)

  const Blank := Form("", "")

  function Save(f: Form): (s: Saved)
    ensures s.forwarded.None? <==> IsBlank(f.front) && IsBlank(f.back)
    ensures s.forwarded.None? ==> s.form == f
    ensures s.forwarded.Some? ==> s.form == Blank && s.forwarded.value == NewCard(f.front, f.back)
  {
    if IsBlank(f.front) && IsBlank(f.back) then Saved(f, None)
    else Saved(Blank, Some(NewCard(f.front, f.back)))
  }

  /** A second save right after a forwarded one hands nothing on. */
  lemma SaveTwiceForwardsOnce(f: Form)
    ensures Save(Save(f).form).forwarded.Some? ==> Save(f).forwarded.None?
  {
  }

  /** A card with one empty side passes the form but not the server's
      presence check, which wants both sides. */
  lemma OneSidedCardPassesFormOnly(front: string, bookId: string)
    requires !IsBlank(front)
    ensures Save(Form(front, "")).forwarded == Some(NewCard(front, ""))
    ensures !FlashcardsApi.WellFormed(FlashcardsApi.FlashcardBody(Some(bookId), Some(front), Some("")))
  {
  }
}

=== FILE: add_quote.dfy ===
/** The add-quote modal's save handler. */
module AddQuote {
  import opened Common
  import JsNumber
  import QuotesApi

  datatype Form = Form(content: string, page: string)

  /** What `onAddQuote` receives. */
  datatype NewQuote = NewQuote(content: string, page: string)

  /** The form after a save attempt, and the quote handed on if any. */
  datatype Saved = Saved(form: Form, forwarded: Option<NewQuote>)

  const Blank := Form("", "")

  function Save(f: Form): (s: Saved)
    ensures IsBlank(f.content) ==> s == Saved(f, None)
    ensures !IsBlank(f.content) ==> s.forwarded.Some? && s.form == Blank
    ensures s.forwarded.Some? ==> s.forwarded.value.content == f.content && !IsBlank(f.content)
    ensures s.forwarded.Some? ==> s.forwarded.value.page == (if f.page == "" then "N/A" else f.page)
  {
    if IsBlank(f.content) then Saved(f, None)
    else Saved(Blank, Some(NewQuote(f.content, if f.page == "" then "N/A" else f.page)))
  }

  /** A second save right after a forwarded one hands nothing on. */
  lemma SaveTwiceForwardsOnce(f: Form)
    ensures Save(Save(f).form).forwarded.Some? ==> Save(f).forwarded.None?
  {
  }

  /** A forwarded quote passes the server's presence check, and a page left
      empty reaches the store as no page at all. */
  lemma ForwardedQuoteAccepted(f: Form, bookId: string)
    requires Save(f).forwarded.Some? && bookId != ""
    ensures var q := Save(f).forwarded.value;
      QuotesApi.WellFormed(QuotesApi.QuoteBody(Some(bookId), Some(q.content), JString(q.page)))
    ensures f.page == "" ==> JsNumber.StoredPage(JString(Save(f).forwarded.value.page)) == None
  {
    if f.page == "" {
      JsNumber.NotANumberPage();
    }
  }
}

=== FILE: book_api.dfy ===
/** The catalog endpoint `/api/book`: GET searches the catalog by free text,
    POST creates (or finds) a catalog book and puts it in a user's collection. */
module BookApi {
  import opened Common
  import opened Store
  import opened JsArray

  /** GET returns at most this many books. */
  const SearchCap: nat := 12

  /** Query parameters of GET, as present or absent in the URL. */
  datatype SearchParams = SearchParams(q: Option<string>, title: Option<string>, author: Option<string>)

  datatype Field = TitleField | AuthorField

  /** One `contains`, case-insensitive, condition on a book field. */
  datatype Condition = Condition(field: Field, needle: string)

  /** `searchParams.get(name)?.trim() || ""`. */
  function Param(p: Option<string>): (r: string)
    ensures p.None? ==> r == ""
    ensures p.Some? ==> r == Trim(p.value)
  {
    if p.Some? then Trim(p.value) else ""
  }

  /** The conditions GET builds: a general query yields two (title, author),
      a title or an author filter one each, in that order. */
  function Conditions(general: string, title: string, author: string): (cs: seq<Condition>)
    ensures |cs| == (if general != "" then 2 else 0) + (if title != "" then 1 else 0) + (if author != "" then 1 else 0)
    ensures forall c :: c in cs <==>
      || (general != "" && c == Condition(TitleField, general))
      || (general != "" && c == Condition(AuthorField, general))
      || (title != "" && c == Condition(TitleField, title))
      || (author != "" && c == Condition(AuthorField, author))
  {
    (if general != "" then [Condition(TitleField, general), Condition(AuthorField, general)] else [])
    + (if title != "" then [Condition(TitleField, title)] else [])
    + (if author != "" then [Condition(AuthorField, author)] else [])
  }

  predicate Satisfies(b: Book, c: Condition) {
    match c.field
    case TitleField => ContainsInsensitive(b.title, c.needle)
    case AuthorField => ContainsInsensitive(b.author, c.needle)
  }

  /** The `where` clause: none without a query, otherwise `OR` of the conditions. */
  predicate Selected(b: Book, hasQuery: bool, cs: seq<Condition>) {
    !hasQuery || exists c :: c in cs && Satisfies(b, c)
  }

  /** The books of `books` the where clause selects, in table order. */
  function Selection(books: seq<Book>, hasQuery: bool, cs: seq<Condition>): (r: seq<Book>)
    ensures |r| <= |books|
    ensures forall b :: b in r <==> b in books && Selected(b, hasQuery, cs)
    ensures IsSubsequence(r, books)
    ensures forall b :: multiset(r)[b] == if Selected(b, hasQuery, cs) then multiset(books)[b] else 0
    ensures !hasQuery ==> r == books
  {
    Filter(books, b => Selected(b, hasQuery, cs))
  }

  /** GET: the first `SearchCap` catalog books the search selects. */
  function Search(params: SearchParams, db: Db): (r: Reply<seq<Book>>)
    ensures r.status == 200 && r.body.Ok?
    ensures |r.body.value| <= SearchCap
    ensures forall b :: b in r.body.value ==> b in db.books
    ensures var cs := Conditions(Param(params.q), Param(params.title), Param(params.author));
      var found := Selection(db.books, |cs| > 0, cs);
      r.body.value <= found && |r.body.value| == if |found| < SearchCap then |found| else SearchCap
    ensures Param(params.q) == "" && Param(params.title) == "" && Param(params.author) == "" ==>
      r.body.value <= db.books && |r.body.value| == if |db.books| < SearchCap then |db.books| else SearchCap
  {
    var general := Param(params.q);
    var title := Param(params.title);
    var author := Param(params.author);
    var cs := Conditions(general, title, author);
    var hasQuery := general != "" || title != "" || author != "";
    var found := Selection(db.books, hasQuery, cs);
    Reply(200, Ok(if |found| <= SearchCap then found else found[..SearchCap]))
  }

  /** A book is selected by a query exactly when its title or author contains
      the general query, its title contains the title filter, or its author
      contains the author filter (each only when non-empty). */
  lemma SelectedIffSomeConditionHolds(b: Book, params: SearchParams)
    ensures var g, t, a := Param(params.q), Param(params.title), Param(params.author);
      var cs := Conditions(g, t, a);
      (g != "" || t != "" || a != "") ==>
        (Selected(b, |cs| > 0, cs) <==>
          || (g != "" && (ContainsInsensitive(b.title, g) || ContainsInsensitive(b.author, g)))
          || (t != "" && ContainsInsensitive(b.title, t))
          || (a != "" && ContainsInsensitive(b.author, a)))
  {
    var g, t, a := Param(params.q), Param(params.title), Param(params.author);
    var cs := Conditions(g, t, a);
    if g != "" && ContainsInsensitive(b.title, g) {
      assert Condition(TitleField, g) in cs;
    }
    if g != "" && ContainsInsensitive(b.author, g) {
      assert Condition(AuthorField, g) in cs;
    }
    if t != "" && ContainsInsensitive(b.title, t) {
      assert Condition(TitleField, t) in cs;
    }
    if a != "" && ContainsInsensitive(b.author, a) {
      assert Condition(AuthorField, a) in cs;
    }
  }

  // ---------------------------------------------------------------------
  // POST

  const DefaultCategory: string := "General"
  const WantToRead: string := "want to read"

  /** The body of POST, as the manual add-book form sends it. */
  datatype CreateBody = CreateBody(
    title: Option<string>,
    category: Option<string>,
    authors: Option<string>,
    language: Option<string>,
    description: Option<string>,
    publisher: Option<string>,
    publishDate: Option<string>,
    pageCount: Option<int>,
    isbn: Option<string>,
    coverImageUrl: Option<string>,
    userId: Option<nat>)

  /** POST validates userId, title and authors before touching the store. */
  predicate ValidCreateBody(body: CreateBody) {
    body.userId.Some? && Truthy(body.title) && Truthy(body.authors)
  }

  /** The catalog row POST creates, with the stored isbn given. */
  function NewBook(id: string, body: CreateBody, isbn: Option<string>): (b: Book)
    requires ValidCreateBody(body)
    ensures b.id == id && b.title == body.title.value && b.author == body.authors.value && b.isbn == isbn
    ensures b.category == Some(if Truthy(body.category) then body.category.value else DefaultCategory)
    ensures b.coverUrl == (if Truthy(body.coverImageUrl) then body.coverImageUrl else None)
    ensures b.language == body.language && b.description == body.description
    ensures b.publisher == body.publisher && b.pageCount == body.pageCount
  {
    Book(
      id, body.title.value, body.authors.value,
      if Truthy(body.coverImageUrl) then body.coverImageUrl else None,
      isbn, body.publisher, body.description,
      Some(if Truthy(body.category) then body.category.value else DefaultCategory),
      body.language, body.pageCount,
      if Truthy(body.publishDate) then Some(DateText(body.publishDate.value)) else None)
  }

  /** The result of the catalog step: the book to attach and the store after it. */
  datatype Upserted = Upserted(book: Book, db: Db)

  /** Create `book`; `None` when its generated id is already taken and the
      insert throws. */
  function InsertBook(db: Db, book: Book): (r: Option<Upserted>)
    ensures r.Some? <==> BookById(db, book.id).None?
    ensures r.Some? ==> r.value == Upserted(book, db.(books := db.books + [book]))
  {
    if BookById(db, book.id).Some? then None
    else Some(Upserted(book, db.(books := db.books + [book])))
  }

  /** `upsert({ where: { isbn: key }, update: {}, create: book })`: an existing
      book with that isbn is returned unchanged; otherwise `book` is created. */
  function UpsertByIsbn(db: Db, key: string, book: Book): (r: Option<Upserted>)
    ensures BookByIsbn(db, key).Some? ==> r == Some(Upserted(BookByIsbn(db, key).value, db))
    ensures BookByIsbn(db, key).None? ==> r == InsertBook(db, book)
  {
    match BookByIsbn(db, key)
    case Some(existing) => Some(Upserted(existing, db))
    case None => InsertBook(db, book)
  }

  /** Step 2 of POST: put the book in the user's collection unless it is
      there already. The insert throws, after the catalog write, when the
      user does not exist. */
  function Attach(u: Upserted, userId: nat): (o: Outcome<Book>)
    ensures o.reply.status == 201 || o.reply.status == 500
    ensures o.reply.status == 201 <==> UserBookByKey(u.db, userId, u.book.id).Some? || HasUser(u.db, userId)
    ensures o.reply.status == 201 ==> o.reply.body == Ok(u.book)
    ensures UserBookByKey(u.db, userId, u.book.id).Some? ==> o.db == u.db
    ensures UserBookByKey(u.db, userId, u.book.id).None? && HasUser(u.db, userId) ==>
      o.db == u.db.(userBooks := u.db.userBooks + [UserBook(u.db.nextId, userId, u.book.id, WantToRead, 0)],
                    nextId := u.db.nextId + 1)
    ensures o.reply.status == 500 ==> o.db == u.db
  {
    if UserBookByKey(u.db, userId, u.book.id).Some? then Outcome(Reply(201, Ok(u.book)), u.db)
    else if !HasUser(u.db, userId) then Outcome(Reply(500, Fail("Failed to create book")), u.db)
    else
      var row := UserBook(u.db.nextId, userId, u.book.id, WantToRead, 0);
      Outcome(Reply(201, Ok(u.book)), u.db.(userBooks := u.db.userBooks + [row], nextId := u.db.nextId + 1))
  }

  /** POST as the source writes it: the upsert looks up `isbn || ""`, so a
      request without an isbn finds any catalog book stored with isbn "". */
  function CreateAsWritten(body: CreateBody, newBookId: string, db: Db, down: bool): (o: Outcome<Book>)
    ensures !ValidCreateBody(body) ==> o.reply.status == 400 && o.db == db
    ensures o.db.users == db.users && o.db.reviews == db.reviews
    ensures o.db.quotes == db.quotes && o.db.flashcards == db.flashcards
    ensures o.db.books == db.books || o.db.books == db.books + [NewBook(newBookId, body, body.isbn)]
    ensures ValidCreateBody(body) && !down ==>
      var key := if Truthy(body.isbn) then body.isbn.value else "";
      BookByIsbn(db, key).Some? ==>
        o.db.books == db.books && (o.reply.status == 201 ==> o.reply.body == Ok(BookByIsbn(db, key).value))
  {
    if !ValidCreateBody(body) then Outcome(Reply(400, Fail("Missing required fields")), db)
    else if down then Outcome(Reply(500, Fail("Failed to create book")), db)
    else
      var key := if Truthy(body.isbn) then body.isbn.value else "";
      match UpsertByIsbn(db, key, NewBook(newBookId, body, body.isbn))
      case None => Outcome(Reply(500, Fail("Failed to create book")), db)
      case Some(u) => Attach(u, body.userId.value)
  }

  /** POST as evidently intended: only a request that carries an isbn is
      upserted on it; one without an isbn always creates its own book, with
      no isbn stored. */
  function Create(body: CreateBody, newBookId: string, db: Db, down: bool): (o: Outcome<Book>)
    ensures !ValidCreateBody(body) ==> o.reply.status == 400 && o.db == db
    ensures ValidCreateBody(body) && down ==> o.reply.status == 500 && o.db == db
    ensures o.db.users == db.users && o.db.reviews == db.reviews
    ensures o.db.quotes == db.quotes && o.db.flashcards == db.flashcards
    // existing catalog books are never modified
    ensures o.db.books == db.books
         || (ValidCreateBody(body) && o.db.books == db.books + [NewBook(newBookId, body, if Truthy(body.isbn) then body.isbn else None)])
    // a known isbn returns that book unchanged and creates no duplicate
    ensures ValidCreateBody(body) && !down && Truthy(body.isbn) && BookByIsbn(db, body.isbn.value).Some? ==>
      o.db.books == db.books && (o.reply.status == 201 ==> o.reply.body == Ok(BookByIsbn(db, body.isbn.value).value))
    // a request without an isbn that succeeds gets a fresh book of its own
    ensures ValidCreateBody(body) && !Truthy(body.isbn) && o.reply.body.Ok? ==>
      o.reply.body.value == NewBook(newBookId, body, None) && BookById(db, newBookId).None?
    // a 500 never adds a collection entry ...
    ensures o.reply.status == 500 ==> o.db.userBooks == db.userBooks && o.db.nextId == db.nextId
    // ... but an unknown user is found out only after the catalog write, which stays
    ensures ValidCreateBody(body) && !down && !HasUser(db, body.userId.value)
            && (!Truthy(body.isbn) || BookByIsbn(db, body.isbn.value).None?)
            && BookById(db, newBookId).None? && UserBookByKey(db, body.userId.value, newBookId).None? ==>
      o.reply.status == 500
      && o.db.books == db.books + [NewBook(newBookId, body, if Truthy(body.isbn) then body.isbn else None)]
    // a known user and a known isbn: that book is answered with 201 and put in the collection
    ensures ValidCreateBody(body) && !down && HasUser(db, body.userId.value)
            && Truthy(body.isbn) && BookByIsbn(db, body.isbn.value).Some? ==>
      var b := BookByIsbn(db, body.isbn.value).value;
      && o.reply == Reply(201, Ok(b))
      && (UserBookByKey(db, body.userId.value, b.id).None? ==>
            o.db.userBooks == db.userBooks + [UserBook(db.nextId, body.userId.value, b.id, WantToRead, 0)])
    // a known user and a new book: it is created, answered with 201 and put in the collection
    ensures ValidCreateBody(body) && !down && HasUser(db, body.userId.value)
            && (!Truthy(body.isbn) || BookByIsbn(db, body.isbn.value).None?)
            && BookById(db, newBookId).None? ==>
      var b := NewBook(newBookId, body, if Truthy(body.isbn) then body.isbn else None);
      && o.reply == Reply(201, Ok(b))
      && o.db.books == db.books + [b]
      && (UserBookByKey(db, body.userId.value, newBookId).None? ==>
            o.db.userBooks == db.userBooks + [UserBook(db.nextId, body.userId.value, newBookId, WantToRead, 0)])
  {
    if !ValidCreateBody(body) then Outcome(Reply(400, Fail("Missing required fields")), db)
    else if down then Outcome(Reply(500, Fail("Failed to create book")), db)
    else
      var stored := if Truthy(body.isbn) then body.isbn else None;
      var step := if Truthy(body.isbn) then UpsertByIsbn(db, body.isbn.value, NewBook(newBookId, body, stored))
                  else InsertBook(db, NewBook(newBookId, body, stored));
      match step
      case None => Outcome(Reply(500, Fail("Failed to create book")), db)
      case Some(u) => Attach(u, body.userId.value)
  }

  // ---------------------------------------------------------------------
  // Invariant preservation

  /** Putting an existing catalog book in a collection keeps the store valid. */
  lemma AttachPreservesValid(u: Upserted, userId: nat)
    requires Valid(u.db) && BookById(u.db, u.book.id).Some?
    ensures Valid(Attach(u, userId).db)
  {
    if UserBookByKey(u.db, userId, u.book.id).None? && HasUser(u.db, userId) {
      ValidWithNewUserBook(u.db, UserBook(u.db.nextId, userId, u.book.id, WantToRead, 0));
    }
  }

  /** Inserting a book whose isbn is unused keeps the store valid and the book findable. */
  lemma InsertPreservesValid(db: Db, book: Book)
    requires Valid(db)
    requires book.isbn.Some? ==> BookByIsbn(db, book.isbn.value).None?
    ensures InsertBook(db, book).Some? ==>
      Valid(InsertBook(db, book).value.db) && BookById(InsertBook(db, book).value.db, book.id).Some?
  {
    if InsertBook(db, book).Some? {
      ValidWithNewBook(db, book);
    }
  }

  /** The upsert keeps the store valid and yields a book the catalog holds. */
  lemma UpsertPreservesValid(db: Db, key: string, book: Book)
    requires Valid(db) && (book.isbn.Some? ==> book.isbn.value == key)
    ensures UpsertByIsbn(db, key, book).Some? ==>
      Valid(UpsertByIsbn(db, key, book).value.db)
      && BookById(UpsertByIsbn(db, key, book).value.db, UpsertByIsbn(db, key, book).value.book.id).Some?
  {
    match BookByIsbn(db, key)
    case Some(existing) =>
      BookIdDetermines(db, existing);
    case None =>
      InsertPreservesValid(db, book);
  }

  lemma CreatePreservesValid(body: CreateBody, newBookId: string, db: Db, down: bool)
    requires Valid(db)
    ensures Valid(Create(body, newBookId, db, down).db)
  {
    if ValidCreateBody(body) && !down {
      var stored := if Truthy(body.isbn) then body.isbn else None;
      var book := NewBook(newBookId, body, stored);
      if Truthy(body.isbn) {
        UpsertPreservesValid(db, body.isbn.value, book);
        var step := UpsertByIsbn(db, body.isbn.value, book);
        if step.Some? {
          AttachPreservesValid(step.value, body.userId.value);
        }
      } else {
        InsertPreservesValid(db, book);
        var step := InsertBook(db, book);
        if step.Some? {
          AttachPreservesValid(step.value, body.userId.value);
        }
      }
    }
  }

  /** The source's version keeps the store valid too: the defect is in which
      book a request receives, not in the integrity of the tables. */
  lemma CreateAsWrittenPreservesValid(body: CreateBody, newBookId: string, db: Db, down: bool)
    requires Valid(db)
    ensures Valid(CreateAsWritten(body, newBookId, db, down).db)
  {
    if ValidCreateBody(body) && !down {
      var key := if Truthy(body.isbn) then body.isbn.value else "";
      var book := NewBook(newBookId, body, body.isbn);
      UpsertPreservesValid(db, key, book);
      var step := UpsertByIsbn(db, key, book);
      if step.Some? {
        AttachPreservesValid(step.value, body.userId.value);
      }
    }
  }

  /** Repeating a successful request with a known isbn changes nothing more:
      the second request finds the same book and the collection row. */
  lemma CreateWithIsbnIdempotent(body: CreateBody, id1: string, id2: string, db: Db)
    requires Valid(db) && ValidCreateBody(body) && Truthy(body.isbn)
    requires Create(body, id1, db, false).reply.status == 201
    ensures var o1 := Create(body, id1, db, false);
      var o2 := Create(body, id2, o1.db, false);
      o2.db == o1.db && o2.reply == o1.reply
  {
    var key := body.isbn.value;
    var o1 := Create(body, id1, db, false);
    var u := UpsertByIsbn(db, key, NewBook(id1, body, body.isbn)).value;
    UpsertPreservesValid(db, key, NewBook(id1, body, body.isbn));
    AttachPreservesValid(u, body.userId.value);
    assert u.book.isbn == Some(key);
    assert u.book in o1.db.books;
    BookIsbnDetermines(o1.db, u.book);
    var row := UserBookByKey(o1.db, body.userId.value, u.book.id);
    assert row.Some?;
  }

  lemma BookIsbnDetermines(db: Db, b: Book)
    requires BooksUnique(db.books) && b in db.books && b.isbn.Some?
    ensures BookByIsbn(db, b.isbn.value) == Some(b)
  {
    var i :| 0 <= i < |db.books| && db.books[i] == b;
    var r := BookByIsbn(db, b.isbn.value);
    var j :| 0 <= j < |db.books| && db.books[j] == r.value;
    assert i == j;
  }

  // ---------------------------------------------------------------------
  // Finding: a request without an isbn receives another book

  /** A store with one user and an empty catalog. */
  function OneReader(): (db: Db)
    ensures Valid(db) && HasUser(db, 0)
  {
    var db := Db([User(0, "reader@example.com", "reader", Some("Reader"), None, None)], [], [], [], [], [], 1);
    assert UserIds(db.users) == [0];
    db
  }

  /** Two add-book form submissions with a blank isbn field, for two different books. */
  function IsbnlessRequest(title: string, author: string): (body: CreateBody)
    requires title != "" && author != ""
    ensures ValidCreateBody(body) && !Truthy(body.isbn) && body.isbn == Some("")
    ensures body.title == Some(title) && body.authors == Some(author)
  {
    CreateBody(Some(title), None, Some(author), None, None, None, None, None, Some(""), None, Some(0))
  }

  /** As written, the second isbn-less book is never created: the request
      receives the first one, stored under isbn "". */
  lemma IsbnlessBooksMergedAsWritten()
    ensures var o1 := CreateAsWritten(IsbnlessRequest("Dune", "Herbert"), "b1", OneReader(), false);
      var o2 := CreateAsWritten(IsbnlessRequest("Emma", "Austen"), "b2", o1.db, false);
      o2.reply.status == 201 && o2.reply.body.Ok? && o2.reply.body.value.title == "Dune"
      && |o2.db.books| == 1
  {
    var db0 := OneReader();
    var o1 := CreateAsWritten(IsbnlessRequest("Dune", "Herbert"), "b1", db0, false);
    var book := NewBook("b1", IsbnlessRequest("Dune", "Herbert"), Some(""));
    assert BookByIsbn(db0, "").None?;
    assert BookById(db0, "b1").None?;
    assert o1.db.books == [book];
    assert BookByIsbn(o1.db, "") == Some(book);
  }

  /** Corrected: a successful request without an isbn always receives a new
      book carrying its own title, and the catalog grows by exactly that book. */
  lemma IsbnlessRequestGetsOwnBook(body: CreateBody, newBookId: string, db: Db)
    requires ValidCreateBody(body) && !Truthy(body.isbn)
    requires BookById(db, newBookId).None? && HasUser(db, body.userId.value)
    ensures var o := Create(body, newBookId, db, false);
      o.reply.status == 201 && o.reply.body.Ok?
      && o.reply.body.value.title == body.title.value && o.reply.body.value.id == newBookId
      && o.db.books == db.books + [o.reply.body.value]
  {
  }

  /** Corrected, on the same two requests: two books, each request gets its own. */
  lemma IsbnlessBooksKeptApart()
    ensures var o1 := Create(IsbnlessRequest("Dune", "Herbert"), "b1", OneReader(), false);
      var o2 := Create(IsbnlessRequest("Emma", "Austen"), "b2", o1.db, false);
      o2.reply.status == 201 && o2.reply.body.Ok? && o2.reply.body.value.title == "Emma"
      && |o2.db.books| == 2
  {
    var db0 := OneReader();
    var r1 := IsbnlessRequest("Dune", "Herbert");
    IsbnlessRequestGetsOwnBook(r1, "b1", db0);
    var o1 := Create(r1, "b1", db0, false);
    assert o1.db.books == [NewBook("b1", r1, None)];
    assert BookById(o1.db, "b2").None?;
    IsbnlessRequestGetsOwnBook(IsbnlessRequest("Emma", "Austen"), "b2", o1.db);
  }
}

=== FILE: book_lib.dfy ===
/** The server-side lookups of `lib/book.ts` used by the book pages. */
module BookLib {
  import opened Common
  import opened Store

  /** `getBookById`: the catalog book with that id, or null. */
  function GetBookById(id: string, db: Db): (r: Option<Book>)
    ensures r.Some? ==> r.value in db.books && r.value.id == id
    ensures r.None? <==> forall b :: b in db.books ==> b.id != id
  {
    BookById(db, id)
  }

  /** `getUserBook`: `userId` is `None` for the empty id, which returns null
      without a lookup; a failing lookup also yields null. */
  function GetUserBook(bookId: string, userId: Option<nat>, db: Db, down: bool): (r: Option<UserBook>)
    ensures userId.None? || down ==> r.None?
    ensures r.Some? ==> r.value in db.userBooks && Some(r.value.userId) == userId && r.value.bookId == bookId
    ensures userId.Some? && !down && r.None? ==>
      forall ub :: ub in db.userBooks ==> !(ub.userId == userId.value && ub.bookId == bookId)
  {
    if userId.None? then None
    else if down then None
    else UserBookByKey(db, userId.value, bookId)
  }

  /** Under the invariant, an existing row is found by its own key. */
  lemma GetUserBookFindsRow(db: Db, ub: UserBook)
    requires Valid(db) && ub in db.userBooks
    ensures GetUserBook(ub.bookId, Some(ub.userId), db, false) == Some(ub)
  {
    UserBookKeyDetermines(db, ub);
  }

  /** Under the invariant, a book is found by its own id. */
  lemma GetBookByIdFindsBook(db: Db, b: Book)
    requires Valid(db) && b in db.books
    ensures GetBookById(b.id, db) == Some(b)
  {
    BookIdDetermines(db, b);
  }
}

=== FILE: common.dfy ===
/** Shared vocabulary: optional values, JavaScript truthiness of form and JSON
    fields, JavaScript's `String.prototype.trim`, ASCII case folding and
    substring containment. */
module Common {

  datatype Option<T> = None | Some(value: T)

  /** A JSON scalar as it arrives in a request body. Numbers are integers here. */
  datatype JsonScalar = JNull | JBool(b: bool) | JNumber(n: int) | JString(s: string)

  /** A request field that the client may send as a string or as an array of strings. */
  datatype StringOrList = Missing | One(s: string) | Many(items: seq<string>)

  /** JavaScript truthiness of an optional string field (`!field` is false):
      the field is present and not the empty string. */
  predicate Truthy(s: Option<string>) {
    s.Some? && s.value != ""
  }

  /** The characters JavaScript's `trim` removes: WhiteSpace and LineTerminator. */
  predicate IsJsSpace(c: char) {
    || ('\U{0009}' <= c <= '\U{000D}') || c == ' ' || c == '\U{00A0}' || c == '\U{1680}'
    || ('\U{2000}' <= c <= '\U{200A}') || c == '\U{2028}' || c == '\U{2029}'
    || c == '\U{202F}' || c == '\U{205F}' || c == '\U{3000}' || c == '\U{FEFF}'
  }

  /** Number of leading whitespace characters of `s`. */
  function LeadingSpaces(s: string): (k: nat)
    ensures k <= |s|
    ensures forall i :: 0 <= i < k ==> IsJsSpace(s[i])
    ensures k < |s| ==> !IsJsSpace(s[k])
  {
    if |s| > 0 && IsJsSpace(s[0]) then 1 + LeadingSpaces(s[1..]) else 0
  }

  /** Number of trailing whitespace characters of `s`. */
  function TrailingSpaces(s: string): (k: nat)
    ensures k <= |s|
    ensures forall i :: |s| - k <= i < |s| ==> IsJsSpace(s[i])
    ensures k < |s| ==> !IsJsSpace(s[|s| - k - 1])
  {
    if |s| > 0 && IsJsSpace(s[|s| - 1]) then 1 + TrailingSpaces(s[..|s| - 1]) else 0
  }

  /** `s.trim()`: the slice of `s` between its leading and its trailing whitespace. */
  function Trim(s: string): (r: string)
    ensures |r| <= |s|
    ensures r == "" || (!IsJsSpace(r[0]) && !IsJsSpace(r[|r| - 1]))
    ensures r == "" <==> forall i :: 0 <= i < |s| ==> IsJsSpace(s[i])
    ensures LeadingSpaces(s) + |r| <= |s|
    ensures r == s[LeadingSpaces(s)..LeadingSpaces(s) + |r|]
  {
    var a := LeadingSpaces(s);
    var rest := s[a..];
    var b := TrailingSpaces(rest);
    assert a < |s| ==> !IsJsSpace(rest[0]);
    rest[..|rest| - b]
  }

  /** A string is blank when trimming leaves nothing (`!s.trim()`). */
  predicate IsBlank(s: string) {
    Trim(s) == ""
  }

  /** A string with no whitespace at either end is its own trim. */
  lemma TrimOfTrimmed(s: string)
    requires s == "" || (!IsJsSpace(s[0]) && !IsJsSpace(s[|s| - 1]))
    ensures Trim(s) == s
  {
    if s != "" {
      assert LeadingSpaces(s) == 0;
      assert TrailingSpaces(s) == 0;
    }
  }

  /** Trimming is idempotent. */
  lemma TrimIdempotent(s: string)
    ensures Trim(Trim(s)) == Trim(s)
  {
    TrimOfTrimmed(Trim(s));
  }

  /** ASCII lower-casing of one character. */
  function LowerChar(c: char): (d: char)
    ensures 'A' <= c <= 'Z' ==> 'a' <= d <= 'z'
    ensures !('A' <= c <= 'Z') ==> d == c
  {
    if 'A' <= c <= 'Z' then (c as int + 32) as char else c
  }

  function Lower(s: string): (r: string)
    ensures |r| == |s|
    ensures forall i :: 0 <= i < |s| ==> r[i] == LowerChar(s[i])
  {
    seq(|s|, i requires 0 <= i < |s| => LowerChar(s[i]))
  }

  /** `needle` occurs in `hay` at position `i`. */
  predicate OccursAt(hay: string, needle: string, i: nat) {
    i + |needle| <= |hay| && hay[i..i + |needle|] == needle
  }

  /** Substring containment, decided by scanning the positions of `hay`. */
  predicate Contains(hay: string, needle: string)
    decreases |hay|
  {
    OccursAt(hay, needle, 0) || (|hay| > 0 && Contains(hay[1..], needle))
  }

  /** `Contains` holds exactly when the needle occurs at some position. */
  lemma {:induction false} ContainsIffOccurs(hay: string, needle: string)
    ensures Contains(hay, needle) <==> exists i: nat :: OccursAt(hay, needle, i)
    decreases |hay|
  {
    if OccursAt(hay, needle, 0) {
    } else if |hay| == 0 {
      forall i: nat ensures !OccursAt(hay, needle, i) {
      }
    } else {
      ContainsIffOccurs(hay[1..], needle);
      if Contains(hay[1..], needle) {
        var i: nat :| OccursAt(hay[1..], needle, i);
        assert hay[1..][i..i + |needle|] == hay[i + 1..i + 1 + |needle|];
        assert OccursAt(hay, needle, i + 1);
      } else {
        forall i: nat | OccursAt(hay, needle, i) ensures false {
          assert i > 0;
          assert hay[1..][i - 1..i - 1 + |needle|] == hay[i..i + |needle|];
          assert OccursAt(hay[1..], needle, i - 1);
        }
      }
    }
  }

  /** Case-insensitive containment, as a SQL `ILIKE '%needle%'` on ASCII text. */
  predicate ContainsInsensitive(hay: string, needle: string) {
    Contains(Lower(hay), Lower(needle))
  }

  /** The summed length of the strings in `xs`. */
  function TotalLength(xs: seq<string>): (n: nat)
  {
    if |xs| == 0 then 0 else |xs[0]| + TotalLength(xs[1..])
  }

  /** `xs.join(sep)`: the items in order with `sep` between neighbours. */
  function Join(xs: seq<string>, sep: string): (r: string)
    ensures xs == [] ==> r == ""
    ensures |xs| == 1 ==> r == xs[0]
    ensures |xs| > 0 ==> xs[0] <= r
    ensures |xs| > 0 ==> |r| == TotalLength(xs) + (|xs| - 1) * |sep|
  {
    if |xs| == 0 then ""
    else if |xs| == 1 then xs[0]
    else xs[0] + sep + Join(xs[1..], sep)
  }

  /** Joining one more item adds a separator and the item at the end. */
  lemma {:induction false} JoinAppend(xs: seq<string>, x: string, sep: string)
    ensures Join(xs + [x], sep) == if xs == [] then x else Join(xs, sep) + sep + x
  {
    if |xs| == 0 {
      assert xs + [x] == [x];
    } else if |xs| == 1 {
      assert (xs + [x])[1..] == [x];
    } else {
      assert (xs + [x])[1..] == xs[1..] + [x];
      JoinAppend(xs[1..], x, sep);
      assert Join(xs + [x], sep) == xs[0] + sep + (Join(xs[1..], sep) + sep + x);
    }
  }
}

=== FILE: edit_quote.dfy ===
/** The edit-quote modal: its open-reset effect and its update handler. */
module EditQuote {
  import opened Common

  /** `page` is `undefined` until the modal has been opened once. */
  datatype Form = Form(content: string, page: Option<int>)

  /** What `onUpdateQuote` receives. */
  datatype QuoteUpdate = QuoteUpdate(id: string, content: string, page: int)

  /** The form after an update attempt, the update handed on if any, and
      whether `onClose` was called. */
  datatype Updated = Updated(form: Form, forwarded: Option<QuoteUpdate>, closed: bool)

  const Initial := Form("", None)

  /** The effect run when the modal opens with the given initial values. */
  function Open(f: Form, isOpen: bool, initialContent: string, initialPage: int): (f': Form)
    ensures isOpen ==> f'.content == initialContent && f'.page == Some(initialPage)
    ensures !isOpen ==> f' == f
  {
    if isOpen then Form(initialContent, Some(initialPage)) else f
  }

  function Update(f: Form, quoteId: Option<string>): (u: Updated)
    ensures u.form == f
    ensures u.closed <==> u.forwarded.Some?
    ensures u.forwarded.Some? <==> Truthy(quoteId) && !IsBlank(f.content)
    ensures u.forwarded.Some? ==>
      (u.forwarded.value.id == quoteId.value
       && u.forwarded.value.content == Trim(f.content)
       && u.forwarded.value.page == (if f.page.Some? then f.page.value else 0))
  {
    if !Truthy(quoteId) || IsBlank(f.content) then Updated(f, None, false)
    else Updated(f, Some(QuoteUpdate(quoteId.value, Trim(f.content), if f.page.Some? then f.page.value else 0)), true)
  }

  /** The forwarded content is non-empty and already trimmed. */
  lemma ForwardedContentTrimmed(f: Form, quoteId: Option<string>)
    requires Update(f, quoteId).forwarded.Some?
    ensures var c := Update(f, quoteId).forwarded.value.content;
      c != "" && Trim(c) == c
  {
    TrimIdempotent(f.content);
  }

  /** Opening and saving at once sends the initial values back, trimmed. */
  lemma OpenThenUpdate(f: Form, initialContent: string, initialPage: int, quoteId: string)
    requires quoteId != "" && !IsBlank(initialContent)
    ensures Update(Open(f, true, initialContent, initialPage), Some(quoteId))
      == Updated(Form(initialContent, Some(initialPage)),
                 Some(QuoteUpdate(quoteId, Trim(initialContent), initialPage)), true)
  {
  }
}

=== FILE: flashcard_store.dfy ===
/** The client-side flashcard cache (`useFlashcardStore`): each book's cards, by book id. */
module FlashcardStore {
  import opened Common
  import opened JsArray
  import opened JsRecord

  datatype Difficulty = Easy | Medium | Hard

  /** A cached card. A card may have no id yet; such a card matches no id. */
  datatype CardItem = CardItem(
    id: Option<string>,
    front: string,
    back: string,
    difficulty: Option<Difficulty>,
    lastReviewed: Option<int>,
    correctCount: Option<int>,
    incorrectCount: Option<int>)

  type Cache = seq<Entry<seq<CardItem>>>

  /** `f.id === flashcardId`. */
  predicate HasId(f: CardItem, flashcardId: string) {
    f.id == Some(flashcardId)
  }

  /** `setFlashcardsForBook`: the spread update `JsRecord.Put`. */
  function SetForBook(c: Cache, bookId: string, cards: seq<CardItem>): (c': Cache)
  {
    Put(c, bookId, cards)
  }

  /** `addFlashcard`: `JsRecord.Append` to the book's list. */
  function Add(c: Cache, bookId: string, f: CardItem): (c': Cache)
  {
    Append(c, bookId, f)
  }

  function Edited(f: CardItem, flashcardId: string, front: string, back: string): (f': CardItem)
    ensures HasId(f, flashcardId) ==> f' == f.(front := front, back := back)
    ensures !HasId(f, flashcardId) ==> f' == f
  {
    if HasId(f, flashcardId) then f.(front := front, back := back) else f
  }

  /** `editFlashcard`: front and back of matching cards; difficulty, review
      date and counters kept; every other card and book unchanged. */
  function Edit(c: Cache, bookId: string, flashcardId: string, front: string, back: string): (c': Cache)
    ensures |ListAt(c', bookId)| == |ListAt(c, bookId)|
    ensures forall i :: 0 <= i < |ListAt(c, bookId)| ==>
      var f, f' := ListAt(c, bookId)[i], ListAt(c', bookId)[i];
      && f'.id == f.id && f'.difficulty == f.difficulty && f'.lastReviewed == f.lastReviewed
      && f'.correctCount == f.correctCount && f'.incorrectCount == f.incorrectCount
      && (HasId(f, flashcardId) ==> f'.front == front && f'.back == back)
      && (!HasId(f, flashcardId) ==> f' == f)
    ensures forall b :: b != bookId ==> Get(c', b) == Get(c, b)
  {
    MapAt(c, bookId, (f: CardItem) => Edited(f, flashcardId, front, back))
  }

  /** `deleteFlashcard`: no card with that id is left in the book; the others keep their order. */
  function Delete(c: Cache, bookId: string, flashcardId: string): (c': Cache)
    ensures forall f :: f in ListAt(c', bookId) <==> f in ListAt(c, bookId) && !HasId(f, flashcardId)
    ensures IsSubsequence(ListAt(c', bookId), ListAt(c, bookId))
    ensures (forall f :: f in ListAt(c, bookId) ==> !HasId(f, flashcardId)) ==> ListAt(c', bookId) == ListAt(c, bookId)
    ensures forall f :: multiset(ListAt(c', bookId))[f] == if !HasId(f, flashcardId) then multiset(ListAt(c, bookId))[f] else 0
    ensures forall b :: b != bookId ==> Get(c', b) == Get(c, b)
  {
    FilterAt(c, bookId, (f: CardItem) => !HasId(f, flashcardId))
  }

  /** Deleting twice is deleting once. */
  lemma DeleteIdempotent(c: Cache, bookId: string, flashcardId: string)
    ensures Delete(Delete(c, bookId, flashcardId), bookId, flashcardId) == Delete(c, bookId, flashcardId)
  {
    FilterAtIdempotent(c, bookId, (f: CardItem) => !HasId(f, flashcardId));
  }

  /** `getFlashcardsByBookId`: `JsRecord.ListAt`. */
  function ByBookId(c: Cache, bookId: string): (fs: seq<CardItem>)
  {
    ListAt(c, bookId)
  }

  /** `getAllFlashcards`. */
  function All(c: Cache): (fs: seq<CardItem>)
  {
    Flat(c)
  }

  /** `getTotalFlashcards`: `JsRecord.Total`, which `TotalIsFlatLength` relates to `All`. */
  function TotalFlashcards(c: Cache): (n: nat)
  {
    Total(c)
  }
}

=== FILE: flashcards_api.dfy ===
/** POST `/api/user/flascards`: attach a flashcard to one of the caller's collection entries. */
module FlashcardsApi {
  import opened Common
  import opened Store

  datatype FlashcardBody = FlashcardBody(bookId: Option<string>, front: Option<string>, back: Option<string>)

  predicate Authorised(session: Option<Session>) {
    SessionUserId(session).Some?
  }

  predicate WellFormed(body: FlashcardBody) {
    Truthy(body.bookId) && Truthy(body.front) && Truthy(body.back)
  }

  function Add(session: Option<Session>, body: FlashcardBody, db: Db, down: bool): (o: Outcome<Flashcard>)
    ensures !Authorised(session) ==> o.reply.status == 401 && o.db == db
    ensures Authorised(session) && !WellFormed(body) ==> o.reply.status == 400 && o.db == db
    ensures Authorised(session) && WellFormed(body) && down ==> o.reply.status == 500 && o.db == db
    ensures Authorised(session) && WellFormed(body) && !down ==>
      (o.reply.status == 404 <==> forall ub :: ub in db.userBooks ==>
        !(ub.userId == SessionUserId(session).value && ub.bookId == body.bookId.value))
    ensures o.reply.status != 200 ==> o.db == db && o.reply.body.Fail?
    // the card hangs off an entry of the caller's for that book, sides kept as sent
    ensures o.reply.status == 200 ==>
      && Authorised(session) && WellFormed(body) && o.reply.body.Ok?
      && (exists ub :: ub in db.userBooks && ub.userId == SessionUserId(session).value
            && ub.bookId == body.bookId.value && ub.id == o.reply.body.value.userBookId)
      && o.reply.body.value.front == body.front.value && o.reply.body.value.back == body.back.value
      && o.reply.body.value.id == db.nextId
      && o.db == db.(flashcards := db.flashcards + [o.reply.body.value], nextId := db.nextId + 1)
    // an entry of the caller's for the book receives the card
    ensures Authorised(session) && WellFormed(body) && !down
         && UserBookByKey(db, SessionUserId(session).value, body.bookId.value).Some?
         ==> (o.reply.status == 200
              && o.reply.body.value.userBookId == UserBookByKey(db, SessionUserId(session).value, body.bookId.value).value.id)
  {
    if !Authorised(session) then Outcome(Reply(401, Fail("Unauthorized")), db)
    else if !WellFormed(body) then Outcome(Reply(400, Fail("bookId and content are required")), db)
    else if down then Outcome(Reply(500, Fail("Internal Server Error")), db)
    else match UserBookByKey(db, SessionUserId(session).value, body.bookId.value)
      case None => Outcome(Reply(404, Fail("Book not found in your collection")), db)
      case Some(ub) =>
        var card := Flashcard(db.nextId, ub.id, body.front.value, body.back.value);
        Outcome(Reply(200, Ok(card)), db.(flashcards := db.flashcards + [card], nextId := db.nextId + 1))
  }

  lemma AddPreservesValid(session: Option<Session>, body: FlashcardBody, db: Db, down: bool)
    requires Valid(db)
    ensures Valid(Add(session, body, db, down).db)
  {
    var o := Add(session, body, db, down);
    if o.reply.status == 200 {
      ValidWithNewFlashcard(db, o.reply.body.value);
    }
  }
}

=== FILE: has_reviewed_api.dfy ===
/** GET `/api/review/has-reviewed`: whether the caller has reviewed a book. */
module HasReviewedApi {
  import opened Common
  import opened Store
  import ReviewApi

  /** `findFirst` over reviews of the book whose author has the given email. */
  predicate ReviewedBy(db: Db, email: string, bookId: string) {
    exists rv, u :: rv in db.reviews && u in db.users && rv.bookId == bookId && u.id == rv.userId && u.email == email
  }

  function FirstReview(db: Db, email: string, bookId: string): (r: Option<Review>)
    ensures r.Some? ==> (r.value in db.reviews && r.value.bookId == bookId
      && exists u :: u in db.users && u.id == r.value.userId && u.email == email)
    ensures r.None? <==> !ReviewedBy(db, email, bookId)
  {
    match Find(db.reviews, (rv: Review) =>
        rv.bookId == bookId && exists u :: u in db.users && u.id == rv.userId && u.email == email)
    case None => None
    case Some(i) => Some(db.reviews[i])
  }

  /** The session check comes first, so without one the answer is `false`
      whatever the book id; a store failure answers `false` with 500. */
  function HasReviewed(session: Option<Session>, bookId: Option<string>, db: Db, down: bool): (r: Reply<bool>)
    ensures !Truthy(SessionEmail(session)) ==> r == Reply(200, Ok(false))
    ensures Truthy(SessionEmail(session)) && !Truthy(bookId) ==> r.status == 400 && r.body.Fail?
    ensures Truthy(SessionEmail(session)) && Truthy(bookId) && down ==> r == Reply(500, Ok(false))
    ensures Truthy(SessionEmail(session)) && Truthy(bookId) && !down ==>
      r == Reply(200, Ok(ReviewedBy(db, SessionEmail(session).value, bookId.value)))
  {
    if !Truthy(SessionEmail(session)) then Reply(200, Ok(false))
    else if !Truthy(bookId) then Reply(400, Fail("Book ID is required"))
    else if down then Reply(500, Ok(false))
    else Reply(200, Ok(FirstReview(db, SessionEmail(session).value, bookId.value).Some?))
  }

  /** Under the invariant, the has-reviewed answer is exactly the duplicate
      test POST `/api/review` applies: a review by the user with that email,
      on that book. */
  lemma ReviewedByIffAlreadyReviewed(db: Db, email: string, bookId: string)
    requires Valid(db)
    ensures ReviewedBy(db, email, bookId) <==> ReviewApi.AlreadyReviewed(db, email, bookId)
  {
    if ReviewedBy(db, email, bookId) {
      var rv, u :| rv in db.reviews && u in db.users && rv.bookId == bookId && u.id == rv.userId && u.email == email;
      var w := UserByEmail(db, email).value;
      SameEmailSameUser(db, u, w);
      assert ReviewByKey(db, u.id, bookId).Some?;
    }
    if ReviewApi.AlreadyReviewed(db, email, bookId) {
      var w := UserByEmail(db, email).value;
      var rv := ReviewByKey(db, w.id, bookId).value;
      assert rv in db.reviews && w in db.users;
    }
  }

  lemma SameEmailSameUser(db: Db, u: User, w: User)
    requires UsersUnique(db.users) && u in db.users && w in db.users && u.email == w.email
    ensures u == w
  {
    var i :| 0 <= i < |db.users| && db.users[i] == u;
    var j :| 0 <= j < |db.users| && db.users[j] == w;
    assert i == j;
  }

  /** After a review is created, asking whether the caller has reviewed that
      book answers true. */
  lemma ReviewedAfterCreate(session: Option<Session>, body: ReviewApi.ReviewBody, db: Db)
    requires ReviewApi.Create(session, body, db, false).reply.status == 201
    ensures HasReviewed(session, body.bookId, ReviewApi.Create(session, body, db, false).db, false) == Reply(200, Ok(true))
  {
    var o := ReviewApi.Create(session, body, db, false);
    var u := UserByEmail(db, SessionEmail(session).value).value;
    assert o.reply.body.value in o.db.reviews;
    assert u in o.db.users;
  }
}

=== FILE: isbn.dfy ===
/** `normalizeISBN`: remove every hyphen, then trim. */
module Isbn {
  import opened Common
  import opened JsArray

  /** `s.replace(/-/g, "")`. */
  function RemoveHyphens(s: string): (r: string)
    ensures |r| <= |s|
    ensures forall i :: 0 <= i < |r| ==> r[i] != '-'
    ensures (forall i :: 0 <= i < |s| ==> s[i] != '-') ==> r == s
    ensures multiset(r) == multiset(s)[ '-' := 0 ]
    // the other characters keep their order
    ensures IsSubsequence(r, s)
  {
    if |s| == 0 then ""
    else
      assert s == [s[0]] + s[1..];
      var rest := RemoveHyphens(s[1..]);
      if s[0] == '-' then
        assert rest == [] || rest[0] != s[0];
        rest
      else [s[0]] + rest
  }

  function Normalize(isbn: string): (r: string)
    ensures forall i :: 0 <= i < |r| ==> r[i] != '-'
    ensures r == "" || (!IsJsSpace(r[0]) && !IsJsSpace(r[|r| - 1]))
    ensures r == Trim(RemoveHyphens(isbn))
  {
    var h := RemoveHyphens(isbn);
    var r := Trim(h);
    assert forall i :: 0 <= i < |r| ==> r[i] == h[LeadingSpaces(h) + i];
    r
  }

  /** Normalising twice is normalising once. */
  lemma NormalizeIdempotent(isbn: string)
    ensures Normalize(Normalize(isbn)) == Normalize(isbn)
  {
    TrimIdempotent(RemoveHyphens(isbn));
  }

  /** An isbn with no hyphen and no surrounding whitespace is already normal. */
  lemma NormalizeCleanIdentity(isbn: string)
    requires forall i :: 0 <= i < |isbn| ==> isbn[i] != '-'
    requires isbn == "" || (!IsJsSpace(isbn[0]) && !IsJsSpace(isbn[|isbn| - 1]))
    ensures Normalize(isbn) == isbn
  {
    TrimOfTrimmed(isbn);
  }
}

=== FILE: js_array.dfy ===
/** The array operations the client caches and views rely on:
    `Array.prototype.filter`, and the order-preserving sublist it yields. */
module JsArray {

  /** `a` is `b` with some elements left out, the rest in their order. */
  predicate IsSubsequence<T(==,!new)>(a: seq<T>, b: seq<T>)
    decreases |b|
  {
    |a| == 0 || (|b| > 0 && if a[0] == b[0] then IsSubsequence(a[1..], b[1..]) else IsSubsequence(a, b[1..]))
  }

  /** `xs.filter(keep)`. */
  function Filter<T(==,!new)>(xs: seq<T>, keep: T -> bool): (r: seq<T>)
    ensures |r| <= |xs|
    ensures forall x :: x in r <==> x in xs && keep(x)
    ensures IsSubsequence(r, xs)
    ensures (forall i :: 0 <= i < |xs| ==> keep(xs[i])) ==> r == xs
    ensures forall x :: multiset(r)[x] == if keep(x) then multiset(xs)[x] else 0
  {
    if |xs| == 0 then []
    else
      var rest := Filter(xs[1..], keep);
      assert forall x :: x in xs <==> x == xs[0] || x in xs[1..];
      assert multiset(xs) == multiset{xs[0]} + multiset(xs[1..]) by {
        assert xs == [xs[0]] + xs[1..];
      }
      if keep(xs[0]) then [xs[0]] + rest
      else
        assert rest == [] || rest[0] != xs[0] by {
          if rest != [] {
            assert rest[0] in rest;
          }
        }
        rest
  }

  /** Filtering twice by the same test is filtering once. */
  lemma FilterIdempotent<T(!new)>(xs: seq<T>, keep: T -> bool)
    ensures Filter(Filter(xs, keep), keep) == Filter(xs, keep)
  {
    var r := Filter(xs, keep);
    assert forall i :: 0 <= i < |r| ==> keep(r[i]) by {
      forall i | 0 <= i < |r| ensures keep(r[i]) {
        assert r[i] in r;
      }
    }
  }
}

=== FILE: js_number.dfy ===
/** JavaScript's treatment of a JSON scalar where the code expects a number:
    its truthiness, its conversion to a string, and `parseInt` without a radix.
    A number is an exact integer of any size; double rounding is not modelled. */
module JsNumber {
  import opened Common

  /** `!!v` for a JSON scalar: null, false, 0 and "" are falsy. */
  predicate JsonTruthy(v: JsonScalar) {
    match v
    case JNull => false
    case JBool(b) => b
    case JNumber(n) => n != 0
    case JString(s) => s != ""
  }

  function DigitChar(d: nat): (c: char)
    requires d < 10
    ensures '0' <= c <= '9'
  {
    ['0', '1', '2', '3', '4', '5', '6', '7', '8', '9'][d]
  }

  predicate IsDigit(c: char) {
    '0' <= c <= '9'
  }

  predicate IsHexDigit(c: char) {
    IsDigit(c) || ('a' <= c <= 'f') || ('A' <= c <= 'F')
  }

  function DigitValue(c: char): (d: nat)
    requires IsHexDigit(c)
    ensures d < 16
    ensures IsDigit(c) ==> d < 10
  {
    if IsDigit(c) then c as int - '0' as int
    else if 'a' <= c <= 'f' then c as int - 'a' as int + 10
    else c as int - 'A' as int + 10
  }

  /** The decimal digits of `n`, most significant first, without leading zeros. */
  function NatToString(n: nat): (s: string)
    ensures |s| > 0
    ensures forall i :: 0 <= i < |s| ==> IsDigit(s[i])
    ensures |s| > 1 ==> s[0] != '0'
  {
    if n < 10 then [DigitChar(n)] else NatToString(n / 10) + [DigitChar(n % 10)]
  }

  /** The decimal text of an integer, as `String(n)` writes a safe integer
      (magnitude at most 2^53). Numbers here are exact integers, so the
      rounding JavaScript applies to wider values is not reproduced. */
  function IntToString(n: int): (s: string)
    ensures |s| > 0
  {
    if n < 0 then "-" + NatToString(-n) else NatToString(n)
  }

  /** `String(v)` for a JSON scalar. */
  function ToJsString(v: JsonScalar): (s: string)
    ensures v.JString? ==> s == v.s
  {
    match v
    case JNull => "null"
    case JBool(b) => if b then "true" else "false"
    case JNumber(n) => IntToString(n)
    case JString(t) => t
  }

  /** Length of the longest prefix of `s` made of digits of the given base. */
  function DigitPrefix(s: string, hex: bool): (k: nat)
    ensures k <= |s|
    ensures forall i :: 0 <= i < k ==> (if hex then IsHexDigit(s[i]) else IsDigit(s[i]))
    ensures k < |s| ==> !(if hex then IsHexDigit(s[k]) else IsDigit(s[k]))
  {
    if |s| > 0 && (if hex then IsHexDigit(s[0]) else IsDigit(s[0])) then 1 + DigitPrefix(s[1..], hex) else 0
  }

  /** The value of a digit string in the given base. */
  function DigitsValue(s: string, hex: bool): (v: nat)
    requires forall i :: 0 <= i < |s| ==> (if hex then IsHexDigit(s[i]) else IsDigit(s[i]))
  {
    if |s| == 0 then 0
    else DigitsValue(s[..|s| - 1], hex) * (if hex then 16 else 10) + DigitValue(s[|s| - 1])
  }

  /** `t` without an optional leading sign. */
  function Unsigned(t: string): (u: string)
    ensures |u| <= |t|
  {
    if |t| > 0 && (t[0] == '-' || t[0] == '+') then t[1..] else t
  }

  /** `u` starts with the hexadecimal prefix `0x` or `0X`. */
  predicate HexPrefixed(u: string) {
    |u| >= 2 && u[0] == '0' && (u[1] == 'x' || u[1] == 'X')
  }

  /** What `parseInt` reads once the leading whitespace is skipped: an
      optional sign, then a `0x`/`0X`-prefixed hexadecimal or a decimal digit
      run, ignoring what follows it. `None` stands for NaN. */
  function ParseSigned(t: string): (r: Option<int>)
    ensures (t == "" || (t[0] != '-' && t[0] != '+' && !IsDigit(t[0]))) ==> r.None?
    // NaN exactly when the first character after the sign and any hex
    // prefix is not a digit of the base
    ensures var u := Unsigned(t);
      r.None? <==> if HexPrefixed(u) then |u| == 2 || !IsHexDigit(u[2]) else |u| == 0 || !IsDigit(u[0])
  {
    var negative := |t| > 0 && t[0] == '-';
    var u := Unsigned(t);
    var digits := if HexPrefixed(u) then LeadingDigits(u[2..], true) else LeadingDigits(u, false);
    match digits
    case None => None
    case Some(m) => Some(if negative then -(m as int) else m)
  }

  /** The value of the longest run of digits of the base at the start of
      `s`; `None` when `s` does not start with one. */
  function LeadingDigits(s: string, hex: bool): (r: Option<nat>)
    ensures r.None? <==> |s| == 0 || !(if hex then IsHexDigit(s[0]) else IsDigit(s[0]))
  {
    var k := DigitPrefix(s, hex);
    if k == 0 then None else Some(DigitsValue(s[..k], hex))
  }

  /** `parseInt(s)` without a radix: skip leading whitespace and read the
      number that starts there. `None` stands for NaN. */
  function ParseInt(s: string): (r: Option<int>)
    ensures var t := s[LeadingSpaces(s)..];
      (t == "" || (t[0] != '-' && t[0] != '+' && !IsDigit(t[0]))) ==> r.None?
    ensures var u := Unsigned(s[LeadingSpaces(s)..]);
      r.None? <==> if HexPrefixed(u) then |u| == 2 || !IsHexDigit(u[2]) else |u| == 0 || !IsDigit(u[0])
  {
    ParseSigned(s[LeadingSpaces(s)..])
  }

  /** Reading back the decimal digits of a natural number gives the number. */
  lemma {:induction false} NatToStringValue(n: nat)
    ensures DigitsValue(NatToString(n), false) == n
  {
    if n >= 10 {
      var s := NatToString(n);
      NatToStringValue(n / 10);
      assert s[..|s| - 1] == NatToString(n / 10);
    }
  }

  /** `parseInt(String(n)) === n` for an integer `n`. */
  lemma ParseIntOfIntToString(n: int)
    ensures ParseInt(IntToString(n)) == Some(n)
  {
    ParseIntOfPaddedNumber("", n, "");
    assert "" + IntToString(n) + "" == IntToString(n);
  }

  /** Text that is all whitespace, followed by a non-space, has exactly that
      whitespace skipped. */
  lemma {:induction false} LeadingSpacesOfPadded(w: string, x: string)
    requires LeadingSpaces(w) == |w|
    requires x == "" || !IsJsSpace(x[0])
    ensures LeadingSpaces(w + x) == |w|
    ensures (w + x)[LeadingSpaces(w + x)..] == x
  {
    if |w| > 0 {
      assert (w + x)[1..] == w[1..] + x;
      LeadingSpacesOfPadded(w[1..], x);
    }
  }

  /** Leading whitespace does not change what `parseInt` reads. */
  lemma ParseIntSkipsSpaces(w: string, x: string)
    requires LeadingSpaces(w) == |w|
    requires x == "" || !IsJsSpace(x[0])
    ensures ParseInt(w + x) == ParseSigned(x)
  {
    LeadingSpacesOfPadded(w, x);
  }

  /** A digit run followed by a non-digit is read up to the non-digit. */
  lemma {:induction false} DigitRunThenStop(d: string, t: string)
    requires forall i :: 0 <= i < |d| ==> IsDigit(d[i])
    requires t == "" || !IsDigit(t[0])
    ensures DigitPrefix(d + t, false) == |d|
  {
    if |d| > 0 {
      assert (d + t)[1..] == d[1..] + t;
      DigitRunThenStop(d[1..], t);
    }
  }

  /** `parseInt` reads back any integer written in decimal, whatever
      whitespace precedes it and whatever text follows, as long as that text
      does not continue the digits (or, after a lone 0, make a hex prefix). */
  lemma ParseIntOfPaddedNumber(w: string, n: int, t: string)
    requires LeadingSpaces(w) == |w|
    requires t == "" || !(IsDigit(t[0]) || t[0] == 'x' || t[0] == 'X')
    ensures ParseInt(w + IntToString(n) + t) == Some(n)
  {
    IntToStringShape(n, t);
    assert w + IntToString(n) + t == w + (IntToString(n) + t);
    ParseIntSkipsSpaces(w, IntToString(n) + t);
    ParseSignedOfNumber(n, t);
  }

  /** The signed reading of `String(n)` followed by a stop character is `n`. */
  lemma ParseSignedOfNumber(n: int, t: string)
    requires t == "" || !(IsDigit(t[0]) || t[0] == 'x' || t[0] == 'X')
    ensures ParseSigned(IntToString(n) + t) == Some(n)
  {
    var m: nat := if n < 0 then -n else n;
    IntToStringShape(n, t);
    ParseSignedDigits(IntToString(n) + t, n < 0, NatToString(m), t);
    NatToStringValue(m);
  }

  /** `String(n)` is an optional minus and the digits of `|n|`; it never
      starts with whitespace. */
  lemma IntToStringShape(n: int, t: string)
    ensures IntToString(n) + t == (if n < 0 then "-" else "") + (NatToString(if n < 0 then -n else n) + t)
    ensures !IsJsSpace((IntToString(n) + t)[0])
  {
    var d := NatToString(if n < 0 then -n else n);
    assert (IntToString(n) + t)[0] == '-' || (IntToString(n) + t)[0] == d[0];
  }

  /** An optional minus and a decimal digit run without a leading zero,
      then a stop character, read as that signed number. */
  lemma ParseSignedDigits(x: string, negative: bool, d: string, t: string)
    requires x == (if negative then "-" else "") + (d + t)
    requires |d| > 0 && (|d| > 1 ==> d[0] != '0')
    requires forall i :: 0 <= i < |d| ==> IsDigit(d[i])
    requires t == "" || !(IsDigit(t[0]) || t[0] == 'x' || t[0] == 'X')
    ensures ParseSigned(x) == Some(if negative then -(DigitsValue(d, false) as int) else DigitsValue(d, false))
  {
    SignedDigitsParts(x, negative, d, t);
    ParseSignedDecimal(x, negative, d + t, DigitsValue(d, false));
  }

  /** The pieces `parseInt` takes apart in an optional minus followed by
      decimal digits and a stop character. */
  lemma SignedDigitsParts(x: string, negative: bool, d: string, t: string)
    requires x == (if negative then "-" else "") + (d + t)
    requires |d| > 0 && (|d| > 1 ==> d[0] != '0')
    requires forall i :: 0 <= i < |d| ==> IsDigit(d[i])
    requires t == "" || !(IsDigit(t[0]) || t[0] == 'x' || t[0] == 'X')
    ensures Unsigned(x) == d + t && (negative <==> |x| > 0 && x[0] == '-')
    ensures !HexPrefixed(d + t)
    ensures LeadingDigits(d + t, false) == Some(DigitsValue(d, false))
  {
    assert Unsigned(x) == d + t && (negative <==> |x| > 0 && x[0] == '-') by {
      assert (d + t)[0] == d[0];
      UnsignedOfSigned(negative, d + t);
    }
    assert !HexPrefixed(d + t) by {
      DecimalNotHexPrefixed(d, t);
    }
    assert LeadingDigits(d + t, false) == Some(DigitsValue(d, false)) by {
      DigitRunThenStop(d, t);
      assert (d + t)[..|d|] == d;
    }
  }

  /** A signed reading that is not hexadecimal is the sign applied to the
      leading decimal digits. */
  lemma ParseSignedDecimal(x: string, negative: bool, u: string, v: nat)
    requires Unsigned(x) == u && (negative <==> |x| > 0 && x[0] == '-')
    requires !HexPrefixed(u) && LeadingDigits(u, false) == Some(v)
    ensures ParseSigned(x) == Some(if negative then -(v as int) else v)
  {
  }

  /** The sign is stripped, and recognised, in front of a digit. */
  lemma UnsignedOfSigned(negative: bool, u: string)
    requires |u| > 0 && IsDigit(u[0])
    ensures var x := (if negative then "-" else "") + u;
      Unsigned(x) == u && (negative <==> |x| > 0 && x[0] == '-')
  {
    if negative {
      assert ("-" + u)[1..] == u;
    } else {
      assert "" + u == u;
    }
  }

  /** Decimal digits without a leading zero, then neither `x` nor `X`, never
      start a hexadecimal prefix. */
  lemma DecimalNotHexPrefixed(d: string, t: string)
    requires |d| > 0 && (|d| > 1 ==> d[0] != '0')
    requires t == "" || !(t[0] == 'x' || t[0] == 'X')
    ensures !HexPrefixed(d + t)
  {
    if |d| == 1 {
      assert |d + t| >= 2 ==> (d + t)[1] == t[0];
    } else {
      assert (d + t)[0] == d[0] && (d + t)[1] == d[1];
    }
  }

  /** The page a quote request stores: `page ? parseInt(page) : null`, then
      kept only when the parse gives a truthy number (not 0, not NaN). */
  function StoredPage(page: JsonScalar): (r: Option<int>)
    ensures r.Some? ==> r.value != 0
    ensures !JsonTruthy(page) ==> r.None?
    ensures page.JNumber? ==> r == if page.n == 0 then None else Some(page.n)
    ensures page.JBool? ==> r.None?
    ensures page.JString? && page.s != "" ==> r == NonZero(ParseInt(page.s))
  {
    if !JsonTruthy(page) then None
    else
      match page
      case JNumber(n) =>
        ParseIntOfIntToString(n);
        NonZero(ParseInt(ToJsString(page)))
      case _ => NonZero(ParseInt(ToJsString(page)))
  }

  /** `x ? x : undefined` for a parse result. */
  function NonZero(x: Option<int>): (r: Option<int>)
    ensures r.Some? <==> x.Some? && x.value != 0
    ensures r.Some? ==> r == x
  {
    if x.Some? && x.value != 0 then x else None
  }

  /** A form page text such as "N/A" stores no page. */
  lemma NotANumberPage()
    ensures StoredPage(JString("N/A")) == None
  {
    assert LeadingSpaces("N/A") == 0;
    assert "N/A"[0..] == "N/A";
    assert ParseInt("N/A") == None;
  }

  /** A page text holding a number, with whitespace before it and other
      text after it, stores that number unless it is 0. */
  lemma StoredPageOfPaddedNumber(w: string, n: int, t: string)
    requires LeadingSpaces(w) == |w|
    requires t == "" || !(IsDigit(t[0]) || t[0] == 'x' || t[0] == 'X')
    ensures StoredPage(JString(w + IntToString(n) + t)) == if n == 0 then None else Some(n)
  {
    ParseIntOfPaddedNumber(w, n, t);
  }

  /** A page that parses to 0 is not stored. */
  lemma ZeroPage()
    ensures StoredPage(JString("0")) == None
  {
    assert LeadingSpaces("0") == 0;
    assert "0"[0..] == "0";
    assert DigitPrefix("0", false) == 1;
    assert "0"[..1] == "0";
    assert ParseInt("0") == Some(0);
  }
}

=== FILE: js_record.dfy ===
/** A JavaScript object used as a dictionary (`Record<string, V>`): its own
    string keys in insertion order, each with one value. The spread update
    `{ ...o, [k]: v }` keeps an existing key where it is and appends a new one. */
module JsRecord {
  import opened Common
  import opened JsArray

  datatype Entry<V> = Entry(key: string, value: V)

  /** `k in o`. */
  predicate HasKey<V>(r: seq<Entry<V>>, k: string) {
    exists i :: 0 <= i < |r| && r[i].key == k
  }

  /** An object never holds a key twice. */
  predicate KeysUnique<V>(r: seq<Entry<V>>) {
    forall i, j :: 0 <= i < j < |r| ==> r[i].key != r[j].key
  }

  /** Past a first entry with another key, the key is present iff it is in the rest. */
  lemma HasKeyTail<V>(r: seq<Entry<V>>, k: string)
    requires |r| > 0 && r[0].key != k
    ensures HasKey(r, k) <==> HasKey(r[1..], k)
  {
    if HasKey(r, k) {
      var i :| 0 <= i < |r| && r[i].key == k;
      assert r[1..][i - 1].key == k;
    }
    if HasKey(r[1..], k) {
      var i :| 0 <= i < |r[1..]| && r[1..][i].key == k;
      assert r[i + 1].key == k;
    }
  }

  /** `o[k]`: `None` stands for `undefined`. */
  function Get<V>(r: seq<Entry<V>>, k: string): (v: Option<V>)
    ensures v.Some? <==> HasKey(r, k)
    ensures v.Some? ==> Entry(k, v.value) in r
  {
    if |r| == 0 then None
    else if r[0].key == k then Some(r[0].value)
    else
      var v := Get(r[1..], k);
      HasKeyTail(r, k);
      v
  }

  /** `{ ...o, [k]: v }`: an existing key keeps its place, a new one goes last. */
  function Put<V>(r: seq<Entry<V>>, k: string, v: V): (r': seq<Entry<V>>)
    ensures Get(r', k) == Some(v)
    ensures forall k2 :: k2 != k ==> Get(r', k2) == Get(r, k2)
    ensures |r'| == if HasKey(r, k) then |r| else |r| + 1
    ensures forall i :: 0 <= i < |r| ==> r'[i].key == r[i].key
    ensures !HasKey(r, k) ==> r'[|r|] == Entry(k, v)
  {
    if |r| == 0 then [Entry(k, v)]
    else if r[0].key == k then [Entry(k, v)] + r[1..]
    else
      var rest := Put(r[1..], k, v);
      HasKeyTail(r, k);
      [r[0]] + rest
  }

  /** The spread update never creates a second entry for a key. */
  lemma PutKeepsKeysUnique<V>(r: seq<Entry<V>>, k: string, v: V)
    requires KeysUnique(r)
    ensures KeysUnique(Put(r, k, v))
  {
    var r' := Put(r, k, v);
    forall i, j | 0 <= i < j < |r'| ensures r'[i].key != r'[j].key {
      if j == |r| {
        assert r'[i].key == r[i].key;
      } else {
        assert r'[i].key == r[i].key && r'[j].key == r[j].key;
      }
    }
  }

  /** Writing back the value a key already holds changes nothing. */
  lemma {:induction false} PutSameValue<V>(r: seq<Entry<V>>, k: string, v: V)
    requires Get(r, k) == Some(v)
    ensures Put(r, k, v) == r
  {
    if |r| > 0 && r[0].key != k {
      PutSameValue(r[1..], k, v);
    }
  }

  /** `Object.values(o)`. */
  function Values<V>(r: seq<Entry<V>>): (vs: seq<V>)
    ensures |vs| == |r| && forall i :: 0 <= i < |r| ==> vs[i] == r[i].value
  {
    seq(|r|, i requires 0 <= i < |r| => r[i].value)
  }

  /** `Object.values(o).flat()`. */
  function Flat<T>(r: seq<Entry<seq<T>>>): (xs: seq<T>)
  {
    if |r| == 0 then [] else r[0].value + Flat(r[1..])
  }

  /** `Object.values(o).reduce((t, l) => t + l.length, 0)`. */
  function Total<T>(r: seq<Entry<seq<T>>>): (n: nat)
  {
    if |r| == 0 then 0 else |r[0].value| + Total(r[1..])
  }

  /** `o[k] || []` for a record of lists. */
  function ListAt<T>(r: seq<Entry<seq<T>>>, k: string): (xs: seq<T>)
    ensures Get(r, k).Some? ==> xs == Get(r, k).value
    ensures Get(r, k).None? ==> xs == []
    ensures !HasKey(r, k) ==> xs == []
    ensures HasKey(r, k) ==> Entry(k, xs) in r
  {
    match Get(r, k)
    case Some(l) => l
    case None => []
  }

  /** `{ ...o, [k]: [...(o[k] || []), x] }`: append to one key's list, an
      absent key counting as empty. */
  function Append<T>(r: seq<Entry<seq<T>>>, k: string, x: T): (r': seq<Entry<seq<T>>>)
    ensures ListAt(r', k) == ListAt(r, k) + [x]
    ensures forall k2 :: k2 != k ==> Get(r', k2) == Get(r, k2)
    ensures Total(r') == Total(r) + 1
  {
    PutTotal(r, k, ListAt(r, k) + [x]);
    Put(r, k, ListAt(r, k) + [x])
  }

  /** `{ ...o, [k]: (o[k] || []).map(f) }`: every element of one key's list
      replaced by its image, in place. */
  function MapAt<T>(r: seq<Entry<seq<T>>>, k: string, f: T -> T): (r': seq<Entry<seq<T>>>)
    ensures |ListAt(r', k)| == |ListAt(r, k)|
    ensures forall i :: 0 <= i < |ListAt(r, k)| ==> ListAt(r', k)[i] == f(ListAt(r, k)[i])
    ensures forall k2 :: k2 != k ==> Get(r', k2) == Get(r, k2)
  {
    var l := ListAt(r, k);
    Put(r, k, seq(|l|, i requires 0 <= i < |l| => f(l[i])))
  }

  /** `{ ...o, [k]: (o[k] || []).filter(keep) }`. */
  function FilterAt<T(==,!new)>(r: seq<Entry<seq<T>>>, k: string, keep: T -> bool): (r': seq<Entry<seq<T>>>)
    ensures forall x :: x in ListAt(r', k) <==> x in ListAt(r, k) && keep(x)
    ensures IsSubsequence(ListAt(r', k), ListAt(r, k))
    ensures (forall x :: x in ListAt(r, k) ==> keep(x)) ==> ListAt(r', k) == ListAt(r, k)
    ensures forall x :: multiset(ListAt(r', k))[x] == if keep(x) then multiset(ListAt(r, k))[x] else 0
    ensures forall k2 :: k2 != k ==> Get(r', k2) == Get(r, k2)
  {
    var l := ListAt(r, k);
    assert (forall x :: x in l ==> keep(x)) ==> forall i :: 0 <= i < |l| ==> keep(l[i]);
    Put(r, k, Filter(l, keep))
  }

  /** Filtering one key's list twice by the same test is filtering it once. */
  lemma FilterAtIdempotent<T(!new)>(r: seq<Entry<seq<T>>>, k: string, keep: T -> bool)
    ensures FilterAt(FilterAt(r, k, keep), k, keep) == FilterAt(r, k, keep)
  {
    var r1 := FilterAt(r, k, keep);
    var l := ListAt(r1, k);
    assert forall x :: x in l ==> keep(x);
    PutSameValue(r1, k, l);
  }

  /** None of the per-key list updates creates a second entry for a key. */
  lemma ListUpdatesKeepKeysUnique<T(!new)>(r: seq<Entry<seq<T>>>, k: string, xs: seq<T>, x: T,
                                              f: T -> T, keep: T -> bool)
    requires KeysUnique(r)
    ensures KeysUnique(Put(r, k, xs)) && KeysUnique(Append(r, k, x))
    ensures KeysUnique(MapAt(r, k, f)) && KeysUnique(FilterAt(r, k, keep))
  {
    var l := ListAt(r, k);
    PutKeepsKeysUnique(r, k, xs);
    PutKeepsKeysUnique(r, k, l + [x]);
    PutKeepsKeysUnique(r, k, seq(|l|, i requires 0 <= i < |l| => f(l[i])));
    PutKeepsKeysUnique(r, k, Filter(l, keep));
  }

  /** The running total counts exactly the elements of the flattened lists. */
  lemma {:induction false} TotalIsFlatLength<T>(r: seq<Entry<seq<T>>>)
    ensures Total(r) == |Flat(r)|
  {
    if |r| > 0 {
      TotalIsFlatLength(r[1..]);
    }
  }

  /** Replacing one list changes the total by the difference of the lengths. */
  lemma {:induction false} PutTotal<T>(r: seq<Entry<seq<T>>>, k: string, xs: seq<T>)
    ensures Total(Put(r, k, xs)) + |ListAt(r, k)| == Total(r) + |xs|
  {
    if |r| > 0 && r[0].key != k {
      PutTotal(r[1..], k, xs);
      assert Put(r, k, xs) == [r[0]] + Put(r[1..], k, xs);
    } else if |r| > 0 {
      assert Put(r, k, xs)[1..] == r[1..];
    }
  }

  /** Every element of the flattened lists lives in the list of some key. */
  lemma {:induction false} FlatMembers<T>(r: seq<Entry<seq<T>>>, x: T)
    requires KeysUnique(r)
    ensures x in Flat(r) <==> exists k :: HasKey(r, k) && x in ListAt(r, k)
  {
    if |r| == 0 {
      assert forall k :: !HasKey(r, k);
    } else {
      var tail := r[1..];
      assert KeysUnique(tail) by {
        forall i, j | 0 <= i < j < |tail| ensures tail[i].key != tail[j].key {
          assert tail[i] == r[i + 1] && tail[j] == r[j + 1];
        }
      }
      FlatMembers(tail, x);
      assert Flat(r) == r[0].value + Flat(tail);
      assert HasKey(r, r[0].key);
      if x in Flat(r) && x !in r[0].value {
        var k :| HasKey(tail, k) && x in ListAt(tail, k);
        var m :| 0 <= m < |tail| && tail[m].key == k;
        assert r[m + 1].key == k;
        assert HasKey(r, k);
      }
      if exists k :: HasKey(r, k) && x in ListAt(r, k) {
        var k :| HasKey(r, k) && x in ListAt(r, k);
        if k != r[0].key {
          var m :| 0 <= m < |r| && r[m].key == k;
          assert tail[m - 1].key == k;
        }
      }
    }
  }
}

=== FILE: middleware.dfy ===
/** The route guard run before `/collection/…`, `/signin` and `/signup`. */
module Middleware {

  datatype Decision = Next | Redirect(to: string)

  predicate StartsWith(s: string, prefix: string) {
    |prefix| <= |s| && s[..|prefix|] == prefix
  }

  predicate AuthPage(path: string) {
    path == "/signin" || path == "/signup"
  }

  /** `hasToken` stands for a valid session token in the request. */
  function Guard(hasToken: bool, path: string): (d: Decision)
    ensures hasToken && AuthPage(path) ==> d == Redirect("/collection")
    ensures !hasToken && StartsWith(path, "/collection") ==> d == Redirect("/signin")
    ensures d.Redirect? <==> (hasToken && AuthPage(path)) || (!hasToken && StartsWith(path, "/collection"))
  {
    if hasToken && AuthPage(path) then Redirect("/collection")
    else if !hasToken && StartsWith(path, "/collection") then Redirect("/signin")
    else Next
  }

  /** The two redirect rules never both apply: the sign-in pages are not under `/collection`. */
  lemma RedirectRulesExclusive(hasToken: bool, path: string)
    ensures !((hasToken && AuthPage(path)) && (!hasToken && StartsWith(path, "/collection")))
    ensures AuthPage(path) ==> !StartsWith(path, "/collection")
  {
  }

  /** A signed-in reader is never turned away from the collection pages. */
  lemma SignedInReachesCollection(path: string)
    requires StartsWith(path, "/collection")
    ensures Guard(true, path) == Next
  {
    RedirectRulesExclusive(true, path);
  }

  /** Following a redirect does not redirect again. */
  lemma RedirectTargetPasses(hasToken: bool, path: string)
    requires Guard(hasToken, path).Redirect?
    ensures Guard(hasToken, Guard(hasToken, path).to) == Next
  {
    assert StartsWith("/collection", "/collection");
    assert !StartsWith("/signin", "/collection");
  }
}

=== FILE: ordering.dfy ===
/** Lexicographic order on strings, compared character by character (code
    point order), and an insertion sort of keyed items by that order. */
module Ordering {

  /** `a` sorts at or before `b`. */
  predicate LessEq(a: string, b: string) {
    if |a| == 0 then true
    else if |b| == 0 then false
    else if a[0] < b[0] then true
    else if a[0] > b[0] then false
    else LessEq(a[1..], b[1..])
  }

  lemma {:induction false} LessEqTotal(a: string, b: string)
    ensures LessEq(a, b) || LessEq(b, a)
    decreases |a|
  {
    if |a| > 0 && |b| > 0 && a[0] == b[0] {
      LessEqTotal(a[1..], b[1..]);
    }
  }

  lemma {:induction false} LessEqTransitive(a: string, b: string, c: string)
    requires LessEq(a, b) && LessEq(b, c)
    ensures LessEq(a, c)
    decreases |a|
  {
    if |a| > 0 && |b| > 0 && |c| > 0 && a[0] == b[0] && b[0] == c[0] {
      LessEqTransitive(a[1..], b[1..], c[1..]);
    }
  }

  lemma {:induction false} LessEqReflexive(a: string)
    ensures LessEq(a, a)
    decreases |a|
  {
    if |a| > 0 {
      LessEqReflexive(a[1..]);
    }
  }

  /** `xs` is in ascending order of `key`. */
  predicate Sorted<T>(xs: seq<T>, key: T -> string) {
    forall i, j :: 0 <= i < j < |xs| ==> LessEq(key(xs[i]), key(xs[j]))
  }

  /** Insert `x` after every element whose key sorts at or before its own. */
  function Insert<T>(x: T, xs: seq<T>, key: T -> string): (r: seq<T>)
    requires Sorted(xs, key)
    ensures Sorted(r, key)
    ensures multiset(r) == multiset(xs) + multiset{x}
    ensures |r| == |xs| + 1
  {
    if |xs| == 0 then [x]
    else if LessEq(key(x), key(xs[0])) && !LessEq(key(xs[0]), key(x)) then
      BelowHeadBelowAll(x, xs, key);
      [x] + xs
    else
      var rest := Insert(x, xs[1..], key);
      LessEqTotal(key(x), key(xs[0]));
      HeadBoundsInsert(x, xs, key, rest);
      assert xs == [xs[0]] + xs[1..];
      [xs[0]] + rest
  }

  /** Whatever sorts at or before the head of a sorted sequence sorts at or before all of it. */
  lemma BelowHeadBelowAll<T>(x: T, xs: seq<T>, key: T -> string)
    requires |xs| > 0 && Sorted(xs, key) && LessEq(key(x), key(xs[0]))
    ensures forall j :: 0 <= j < |xs| ==> LessEq(key(x), key(xs[j]))
  {
    forall j | 0 <= j < |xs|
      ensures LessEq(key(x), key(xs[j]))
    {
      if j > 0 {
        LessEqTransitive(key(x), key(xs[0]), key(xs[j]));
      }
    }
  }

  /** A head at or before `x` and before the rest of `xs` is at or before
      everything in `rest`, which holds the rest of `xs` and `x`. */
  lemma HeadBoundsInsert<T>(x: T, xs: seq<T>, key: T -> string, rest: seq<T>)
    requires |xs| > 0 && Sorted(xs, key) && LessEq(key(xs[0]), key(x))
    requires multiset(rest) == multiset(xs[1..]) + multiset{x}
    ensures forall k :: 0 <= k < |rest| ==> LessEq(key(xs[0]), key(rest[k]))
  {
    forall k | 0 <= k < |rest|
      ensures LessEq(key(xs[0]), key(rest[k]))
    {
      assert rest[k] in multiset(rest);
      if rest[k] != x {
        assert rest[k] in multiset(xs[1..]);
        var m :| 0 <= m < |xs[1..]| && xs[1..][m] == rest[k];
        assert xs[m + 1] == rest[k];
      }
    }
  }

  /** `xs` sorted by ascending `key`. The order among equal keys is not part
      of the contract: a database `orderBy` leaves it unspecified. */
  function SortBy<T>(xs: seq<T>, key: T -> string): (r: seq<T>)
    ensures Sorted(r, key)
    ensures multiset(r) == multiset(xs)
    ensures |r| == |xs|
  {
    if |xs| == 0 then []
    else
      assert xs == xs[..|xs| - 1] + [xs[|xs| - 1]];
      Insert(xs[|xs| - 1], SortBy(xs[..|xs| - 1], key), key)
  }
}

=== FILE: pagination.dfy ===
/** Page arithmetic shared by the paginated quote and flashcard lists: the
    page count of the pager, whether the pager shows, and the running number
    printed on each item. */
module Pagination {

  /** `Math.ceil(total / limit)` as a JavaScript number: dividing by a zero
      limit gives Infinity, or NaN when the total is zero too. */
  datatype PageCount = Finite(pages: nat) | Infinity | NaN

  function TotalPages(total: nat, limit: nat): (p: PageCount)
    ensures limit > 0 ==> p.Finite?
    ensures limit > 0 && total == 0 ==> p == Finite(0)
    ensures limit > 0 && total > 0 ==> (p.pages - 1) * limit < total <= p.pages * limit
    ensures limit == 0 ==> p == if total == 0 then NaN else Infinity
  {
    if limit == 0 then (if total == 0 then NaN else Infinity)
    else Finite((total + limit - 1) / limit)
  }

  /** `totalPages <= 1` is false for Infinity and NaN, so the pager shows then. */
  predicate Shown(total: nat, limit: nat) {
    match TotalPages(total, limit)
    case Finite(p) => p > 1
    case Infinity => true
    case NaN => true
  }

  /** Multiplying by the same factor keeps the order. */
  lemma {:induction false} MulMonotone(a: nat, b: nat, c: nat)
    requires a <= b
    ensures a * c <= b * c
    decreases b - a
  {
    if a < b {
      MulMonotone(a, b - 1, c);
      assert b * c == (b - 1) * c + c;
    }
  }

  /** With a positive limit the pager shows exactly when the items do not fit on one page. */
  lemma {:induction false} ShownIffMoreThanOnePage(total: nat, limit: nat)
    requires limit > 0
    ensures Shown(total, limit) <==> total > limit
  {
    var p := TotalPages(total, limit).pages;
    if total > limit {
      if p <= 1 {
        MulMonotone(p, 1, limit);
        assert false;
      }
    } else if total > 0 {
      if p >= 2 {
        MulMonotone(1, p - 1, limit);
        assert false;
      }
    }
  }

  /** The running number of the item at `index` on page `currentPage`. */
  function DisplayNumber(currentPage: nat, limit: nat, index: nat): (k: int)
    requires currentPage >= 1
    ensures k >= 1
    ensures index < limit ==> (currentPage - 1) * limit < k <= currentPage * limit
  {
    (currentPage - 1) * limit + index + 1
  }

  /** Two slots of a page size get different numbers unless they are the same slot. */
  lemma {:induction false} DisplayNumberInjective(p1: nat, i1: nat, p2: nat, i2: nat, limit: nat)
    requires p1 >= 1 && p2 >= 1 && i1 < limit && i2 < limit
    requires DisplayNumber(p1, limit, i1) == DisplayNumber(p2, limit, i2)
    ensures p1 == p2 && i1 == i2
  {
    if p1 < p2 {
      PageBeforePage(p1, i1, p2, i2, limit);
    } else if p2 < p1 {
      PageBeforePage(p2, i2, p1, i1, limit);
    }
  }

  /** Every number on an earlier page is below every number on a later one. */
  lemma PageBeforePage(p1: nat, i1: nat, p2: nat, i2: nat, limit: nat)
    requires 1 <= p1 < p2 && i1 < limit
    ensures DisplayNumber(p1, limit, i1) < DisplayNumber(p2, limit, i2)
  {
    MulMonotone(p1, p2 - 1, limit);
    assert (p1 - 1) * limit + limit == p1 * limit;
  }
}

=== FILE: quote_store.dfy ===
/** The client-side quote cache (`useQuotesStore`): each book's quotes, by book id. */
module QuoteStore {
  import opened Common
  import opened JsArray
  import opened JsRecord

  /** A cached quote; optional fields may be absent. `dateAdded` is a timestamp. */
  datatype QuoteItem = QuoteItem(
    id: string,
    content: string,
    page: Option<string>,
    category: Option<string>,
    isFavorite: Option<bool>,
    dateAdded: Option<int>)

  type Cache = seq<Entry<seq<QuoteItem>>>

  /** The favourite flag as JavaScript reads it: absent is false. */
  predicate Favourite(q: QuoteItem) {
    q.isFavorite == Some(true)
  }

  /** `setQuotesForBook`: the spread update `JsRecord.Put`. */
  function SetForBook(c: Cache, bookId: string, quotes: seq<QuoteItem>): (c': Cache)
  {
    Put(c, bookId, quotes)
  }

  /** `addQuote`: `JsRecord.Append` to the book's list. */
  function Add(c: Cache, bookId: string, q: QuoteItem): (c': Cache)
  {
    Append(c, bookId, q)
  }

  /** One quote after `editQuote`: content and page replaced (page even when
      absent) on a matching id. */
  function Edited(q: QuoteItem, quoteId: string, content: string, page: Option<string>): (q': QuoteItem)
    ensures q.id != quoteId ==> q' == q
    ensures q.id == quoteId ==> q' == q.(content := content, page := page)
  {
    if q.id == quoteId then q.(content := content, page := page) else q
  }

  function Edit(c: Cache, bookId: string, quoteId: string, content: string, page: Option<string>): (c': Cache)
    ensures |ListAt(c', bookId)| == |ListAt(c, bookId)|
    ensures forall i :: 0 <= i < |ListAt(c, bookId)| ==>
      var q, q' := ListAt(c, bookId)[i], ListAt(c', bookId)[i];
      && q'.id == q.id && q'.category == q.category && q'.isFavorite == q.isFavorite && q'.dateAdded == q.dateAdded
      && (q.id == quoteId ==> q'.content == content && q'.page == page)
      && (q.id != quoteId ==> q' == q)
    ensures forall b :: b != bookId ==> Get(c', b) == Get(c, b)
  {
    MapAt(c, bookId, (q: QuoteItem) => Edited(q, quoteId, content, page))
  }

  /** `deleteQuote`: drop every quote with that id from that book. */
  function Delete(c: Cache, bookId: string, quoteId: string): (c': Cache)
    ensures forall q :: q in ListAt(c', bookId) <==> q in ListAt(c, bookId) && q.id != quoteId
    ensures IsSubsequence(ListAt(c', bookId), ListAt(c, bookId))
    ensures (forall q :: q in ListAt(c, bookId) ==> q.id != quoteId) ==> ListAt(c', bookId) == ListAt(c, bookId)
    ensures forall q :: multiset(ListAt(c', bookId))[q] == if q.id != quoteId then multiset(ListAt(c, bookId))[q] else 0
    ensures forall b :: b != bookId ==> Get(c', b) == Get(c, b)
  {
    FilterAt(c, bookId, (q: QuoteItem) => q.id != quoteId)
  }

  /** One quote after `toggleFavorite`: `isFavorite: !q.isFavorite`. */
  function Toggled(q: QuoteItem, quoteId: string): (q': QuoteItem)
    ensures q.id == quoteId ==> Favourite(q') == !Favourite(q) && q' == q.(isFavorite := q'.isFavorite)
    ensures q.id != quoteId ==> q' == q
  {
    if q.id == quoteId then q.(isFavorite := Some(!Favourite(q))) else q
  }

  function ToggleFavorite(c: Cache, bookId: string, quoteId: string): (c': Cache)
    ensures |ListAt(c', bookId)| == |ListAt(c, bookId)|
    ensures forall i :: 0 <= i < |ListAt(c, bookId)| ==>
      ListAt(c', bookId)[i] == Toggled(ListAt(c, bookId)[i], quoteId)
    ensures forall b :: b != bookId ==> Get(c', b) == Get(c, b)
  {
    MapAt(c, bookId, (q: QuoteItem) => Toggled(q, quoteId))
  }

  /** `getQuotesByBookId`: `JsRecord.ListAt`. */
  function ByBookId(c: Cache, bookId: string): (qs: seq<QuoteItem>)
  {
    ListAt(c, bookId)
  }

  /** `getAllQuotes`: every book's quotes, books in key order. */
  function All(c: Cache): (qs: seq<QuoteItem>)
  {
    Flat(c)
  }

  /** The quotes `getAllQuotes` returns are exactly those of some book. */
  lemma AllHoldsEveryBooksQuotes(c: Cache)
    requires KeysUnique(c)
    ensures forall q :: q in All(c) <==> exists b :: HasKey(c, b) && q in ByBookId(c, b)
  {
    forall q ensures q in Flat(c) <==> exists b :: HasKey(c, b) && q in ListAt(c, b) {
      FlatMembers(c, q);
    }
  }

  /** `getTotalQuotes`: `JsRecord.Total`, which `TotalIsFlatLength` relates to `All`. */
  function TotalQuotes(c: Cache): (n: nat)
  {
    Total(c)
  }

  /** Toggling a quote twice restores its favourite truth value and
      leaves every other field as it was. */
  lemma {:induction false} ToggleTwice(c: Cache, bookId: string, quoteId: string)
    ensures var l, l' := ListAt(c, bookId), ListAt(ToggleFavorite(ToggleFavorite(c, bookId, quoteId), bookId, quoteId), bookId);
      |l'| == |l| && forall i :: 0 <= i < |l| ==>
        Favourite(l'[i]) == Favourite(l[i]) && l'[i] == l[i].(isFavorite := l'[i].isFavorite)
  {
    var c1 := ToggleFavorite(c, bookId, quoteId);
    var l, l1 := ListAt(c, bookId), ListAt(c1, bookId);
    var l2 := ListAt(ToggleFavorite(c1, bookId, quoteId), bookId);
    forall i | 0 <= i < |l|
      ensures Favourite(l2[i]) == Favourite(l[i]) && l2[i] == l[i].(isFavorite := l2[i].isFavorite)
    {
      assert l1[i] == Toggled(l[i], quoteId);
      assert l2[i] == Toggled(l1[i], quoteId);
    }
  }

  /** Deleting twice is deleting once. */
  lemma DeleteIdempotent(c: Cache, bookId: string, quoteId: string)
    ensures Delete(Delete(c, bookId, quoteId), bookId, quoteId) == Delete(c, bookId, quoteId)
  {
    FilterAtIdempotent(c, bookId, (q: QuoteItem) => q.id != quoteId);
  }

  /** Every cache operation keeps one entry per book. */
  lemma OperationsKeepKeysUnique(c: Cache, bookId: string, quoteId: string, q: QuoteItem, qs: seq<QuoteItem>,
                                 content: string, page: Option<string>)
    requires KeysUnique(c)
    ensures KeysUnique(SetForBook(c, bookId, qs)) && KeysUnique(Add(c, bookId, q))
    ensures KeysUnique(Delete(c, bookId, quoteId))
    ensures KeysUnique(Edit(c, bookId, quoteId, content, page))
    ensures KeysUnique(ToggleFavorite(c, bookId, quoteId))
  {
    var keep := (x: QuoteItem) => x.id != quoteId;
    ListUpdatesKeepKeysUnique(c, bookId, qs, q, (x: QuoteItem) => Edited(x, quoteId, content, page), keep);
    ListUpdatesKeepKeysUnique(c, bookId, qs, q, (x: QuoteItem) => Toggled(x, quoteId), keep);
  }
}

=== FILE: quotes_api.dfy ===
/** POST `/api/user/quotes`: attach a quote to one of the caller's collection entries. */
module QuotesApi {
  import opened Common
  import opened Store
  import opened JsNumber

  /** The request body; an absent `page` arrives as `JNull`. */
  datatype QuoteBody = QuoteBody(bookId: Option<string>, content: Option<string>, page: JsonScalar)

  predicate Authorised(session: Option<Session>) {
    SessionUserId(session).Some?
  }

  predicate WellFormed(body: QuoteBody) {
    Truthy(body.bookId) && Truthy(body.content)
  }

  /** The caller's collection entry for the requested book, if any. */
  function Entry(session: Option<Session>, body: QuoteBody, db: Db): (r: Option<UserBook>)
    requires Authorised(session) && WellFormed(body)
    ensures r.Some? ==> (r.value in db.userBooks
      && r.value.userId == SessionUserId(session).value && r.value.bookId == body.bookId.value)
    ensures r.None? ==> forall ub :: ub in db.userBooks ==>
      !(ub.userId == SessionUserId(session).value && ub.bookId == body.bookId.value)
  {
    UserBookByKey(db, SessionUserId(session).value, body.bookId.value)
  }

  function Add(session: Option<Session>, body: QuoteBody, db: Db, down: bool): (o: Outcome<Quote>)
    // authentication and validation come before any store access
    ensures !Authorised(session) ==> o.reply.status == 401 && o.db == db
    ensures Authorised(session) && !WellFormed(body) ==> o.reply.status == 400 && o.db == db
    ensures Authorised(session) && WellFormed(body) && down ==> o.reply.status == 500 && o.db == db
    ensures Authorised(session) && WellFormed(body) && !down ==>
      (o.reply.status == 404 <==> Entry(session, body, db).None?)
    ensures o.reply.status != 200 ==> o.db == db && o.reply.body.Fail?
    // the quote hangs off the caller's own entry and keeps the content as sent
    ensures o.reply.status == 200 ==>
      && Authorised(session) && WellFormed(body) && Entry(session, body, db).Some?
      && o.reply.body.Ok?
      && o.reply.body.value == Quote(db.nextId, Entry(session, body, db).value.id, body.content.value, StoredPage(body.page))
      && o.db == db.(quotes := db.quotes + [o.reply.body.value], nextId := db.nextId + 1)
    // an entry of the caller's for the book receives the quote
    ensures Authorised(session) && WellFormed(body) && !down && Entry(session, body, db).Some?
         ==> o.reply.status == 200
  {
    if !Authorised(session) then Outcome(Reply(401, Fail("Unauthorized")), db)
    else if !WellFormed(body) then Outcome(Reply(400, Fail("bookId and content are required")), db)
    else
      var page := StoredPage(body.page);
      if down then Outcome(Reply(500, Fail("Internal Server Error")), db)
      else match Entry(session, body, db)
        case None => Outcome(Reply(404, Fail("Book not found in your collection")), db)
        case Some(ub) =>
          var q := Quote(db.nextId, ub.id, body.content.value, page);
          Outcome(Reply(200, Ok(q)), db.(quotes := db.quotes + [q], nextId := db.nextId + 1))
  }

  lemma AddPreservesValid(session: Option<Session>, body: QuoteBody, db: Db, down: bool)
    requires Valid(db)
    ensures Valid(Add(session, body, db, down).db)
  {
    var o := Add(session, body, db, down);
    if o.reply.status == 200 {
      ValidWithNewQuote(db, o.reply.body.value);
    }
  }

  /** Under the invariant the entry a quote is attached to is the only one
      with the caller's id and that book, so no other user's entry can
      receive it. */
  lemma AddTargetsOnlyCallersEntry(session: Option<Session>, body: QuoteBody, db: Db, down: bool, ub: UserBook)
    requires Valid(db) && ub in db.userBooks
    requires Add(session, body, db, down).reply.status == 200
    requires Add(session, body, db, down).reply.body.value.userBookId == ub.id
    ensures ub.userId == SessionUserId(session).value && ub.bookId == body.bookId.value
  {
    var e := Entry(session, body, db).value;
    var i :| 0 <= i < |db.userBooks| && db.userBooks[i] == ub;
    var j :| 0 <= j < |db.userBooks| && db.userBooks[j] == e;
    assert UserBookIds(db.userBooks)[i] == ub.id && UserBookIds(db.userBooks)[j] == e.id;
    assert i == j;
  }
}

=== FILE: quotes_view.dfy ===
/** The quote list's derived views: the category chips and the
    category/favourite filter. */
module QuotesView {
  import opened Common
  import opened JsArray
  import opened QuoteStore

  /** Index of the first occurrence of `x` in `xs`. */
  function FirstIndex<T(==)>(xs: seq<T>, x: T): (i: nat)
    requires x in xs
    ensures i < |xs| && xs[i] == x
    ensures forall j :: 0 <= j < i ==> xs[j] != x
  {
    if xs[0] == x then 0 else 1 + FirstIndex(xs[1..], x)
  }

  predicate NoDuplicates<T(==)>(xs: seq<T>) {
    forall i, j :: 0 <= i < j < |xs| ==> xs[i] != xs[j]
  }

  /** `Array.from(new Set(xs))`: each value once, in first-occurrence order. */
  function Distinct<T(==,!new)>(xs: seq<T>): (r: seq<T>)
    ensures NoDuplicates(r)
    ensures forall x :: x in r <==> x in xs
    ensures forall i, j :: 0 <= i < j < |r| ==> FirstIndex(xs, r[i]) < FirstIndex(xs, r[j])
  {
    if |xs| == 0 then []
    else
      var init := xs[..|xs| - 1];
      var last := xs[|xs| - 1];
      var d := Distinct(init);
      assert forall x :: x in xs <==> x in init || x == last by {
        assert xs == init + [last];
      }
      FirstIndexOfPrefix(init, last, d);
      if last in d then d else d + [last]
  }

  /** First occurrences within a prefix are first occurrences in the whole
      sequence, and a value new to the prefix comes first at its end. */
  lemma FirstIndexOfPrefix<T>(init: seq<T>, last: T, d: seq<T>)
    requires forall x :: x in d ==> x in init
    ensures forall x :: x in d ==> FirstIndex(init + [last], x) == FirstIndex(init, x)
    ensures last !in init ==> FirstIndex(init + [last], last) == |init|
  {
    var xs := init + [last];
    forall x | x in d
      ensures FirstIndex(xs, x) == FirstIndex(init, x)
    {
      var i := FirstIndex(init, x);
      assert xs[i] == x;
    }
    if last !in init {
      assert xs[|init|] == last;
    }
  }

  /** `quotes.map(q => q.category).filter(Boolean)`. */
  function PresentCategories(quotes: seq<QuoteItem>): (r: seq<string>)
    ensures forall c :: c in r <==> c != "" && exists q :: q in quotes && q.category == Some(c)
  {
    if |quotes| == 0 then []
    else
      var rest := PresentCategories(quotes[1..]);
      assert forall q :: q in quotes <==> q == quotes[0] || q in quotes[1..];
      if Truthy(quotes[0].category) then [quotes[0].category.value] + rest else rest
  }

  /** The filter chips: "all", then every category in use. */
  function Categories(quotes: seq<QuoteItem>): (r: seq<string>)
    ensures |r| >= 1 && r[0] == "all"
    ensures forall c :: c in r[1..] <==> c != "" && exists q :: q in quotes && q.category == Some(c)
    ensures NoDuplicates(r[1..])
  {
    ["all"] + Distinct(PresentCategories(quotes))
  }

  /** Whether one quote passes the chosen category and the favourites switch. */
  predicate Shown(filterCategory: string, favouritesOnly: bool, q: QuoteItem) {
    (filterCategory == "all" || q.category == Some(filterCategory)) && (!favouritesOnly || Favourite(q))
  }

  /** `filteredQuotes`. */
  function Filtered(quotes: seq<QuoteItem>, filterCategory: string, favouritesOnly: bool): (r: seq<QuoteItem>)
    ensures IsSubsequence(r, quotes)
    ensures forall q :: q in r <==>
      (q in quotes
       && (filterCategory == "all" || q.category == Some(filterCategory))
       && (!favouritesOnly || q.isFavorite == Some(true)))
    ensures forall q :: multiset(r)[q] == if Shown(filterCategory, favouritesOnly, q) then multiset(quotes)[q] else 0
  {
    Filter(quotes, q => Shown(filterCategory, favouritesOnly, q))
  }

  /** With "all" chosen and the switch off, the whole list shows. */
  lemma UnfilteredShowsAll(quotes: seq<QuoteItem>)
    ensures Filtered(quotes, "all", false) == quotes
  {
  }

  /** Every chip after "all" selects at least one quote. */
  lemma {:induction false} CategoryChipSelectsSome(quotes: seq<QuoteItem>, c: string)
    requires c in Categories(quotes)[1..]
    ensures Filtered(quotes, c, false) != []
  {
    var q :| q in quotes && q.category == Some(c);
    assert q in Filtered(quotes, c, false);
  }
}

=== FILE: register_api.dfy ===
/** POST `/api/register`: create an account with a unique email and username. */
module RegisterApi {
  import opened Common
  import opened Store

  /** bcrypt cost factor used for new accounts. */
  const HashRounds: nat := 12

  datatype RegisterBody = RegisterBody(email: Option<string>, username: Option<string>, name: Option<string>, password: Option<string>)

  predicate Complete(body: RegisterBody) {
    Truthy(body.email) && Truthy(body.username) && Truthy(body.password) && Truthy(body.name)
  }

  function Register(body: RegisterBody, db: Db, down: bool): (o: Outcome<User>)
    ensures !Complete(body) ==> o.reply.status == 400 && o.db == db
    ensures Complete(body) && down ==> o.reply.status == 500 && o.db == db
    // the email is checked before the username
    ensures Complete(body) && !down ==>
      && (UserByEmail(db, body.email.value).Some? ==> o.reply == Reply(409, Fail("Email sudah digunakan")))
      && (UserByEmail(db, body.email.value).None? && UserByUsername(db, body.username.value).Some? ==>
            o.reply == Reply(409, Fail("Username sudah digunakan")))
    ensures o.reply.status != 200 ==> o.db == db && o.reply.body.Fail?
    // exactly one account added; it stores the digest, never the raw password
    ensures o.reply.status == 200 ==>
      && Complete(body) && o.reply.body.Ok?
      && UserByEmail(db, body.email.value).None? && UserByUsername(db, body.username.value).None?
      && o.reply.body.value == User(db.nextId, body.email.value, body.username.value, body.name,
                                    Some(Bcrypt(body.password.value, HashRounds)), None)
      && o.db == db.(users := db.users + [o.reply.body.value], nextId := db.nextId + 1)
    // a complete request with an unused email and username creates the account
    ensures Complete(body) && !down && UserByEmail(db, body.email.value).None?
         && UserByUsername(db, body.username.value).None?
         ==> o.reply.status == 200
  {
    if !Complete(body) then Outcome(Reply(400, Fail("Data tidak lengkap")), db)
    else if down then Outcome(Reply(500, Fail("Internal Server Error")), db)
    else if UserByEmail(db, body.email.value).Some? then Outcome(Reply(409, Fail("Email sudah digunakan")), db)
    else if UserByUsername(db, body.username.value).Some? then Outcome(Reply(409, Fail("Username sudah digunakan")), db)
    else
      var user := User(db.nextId, body.email.value, body.username.value, body.name,
                       Some(Bcrypt(body.password.value, HashRounds)), None);
      Outcome(Reply(200, Ok(user)), db.(users := db.users + [user], nextId := db.nextId + 1))
  }

  lemma RegisterPreservesValid(body: RegisterBody, db: Db, down: bool)
    requires Valid(db)
    ensures Valid(Register(body, db, down).db)
  {
    var o := Register(body, db, down);
    if o.reply.status == 200 {
      ValidWithNewUser(db, o.reply.body.value);
    }
  }

  /** Registering the same email twice: the second attempt is refused with
      409 and nothing is added. */
  lemma RegisterTwiceConflicts(body: RegisterBody, other: RegisterBody, db: Db)
    requires Register(body, db, false).reply.status == 200
    requires Complete(other) && other.email == body.email
    ensures var o1 := Register(body, db, false);
      var o2 := Register(other, o1.db, false);
      o2.reply.status == 409 && o2.db == o1.db
  {
    var o1 := Register(body, db, false);
    assert o1.reply.body.value in o1.db.users;
  }
}

=== FILE: review_api.dfy ===
/** `/api/review`: GET lists a book's reviews newest first, POST adds the
    caller's one review of a book. */
module ReviewApi {
  import opened Common
  import opened Store

  /** The reviewer as the listing shows it. */
  datatype Reviewer = Reviewer(name: string, avatarUrl: string, email: string)

  /** One listed review: the stored `comment` is exposed as `content`. */
  datatype ReviewView = ReviewView(id: nat, rating: int, content: string, user: Reviewer)

  const Anonymous: string := "Anonymous"

  /** The included user relation, each missing value replaced by its default (`??`). */
  function ReviewerOf(db: Db, userId: nat): (r: Reviewer)
    ensures UserById(db, userId).None? ==> r == Reviewer(Anonymous, "", "")
    ensures UserById(db, userId).Some? ==>
      var u := UserById(db, userId).value;
      && r.name == (if u.name.Some? then u.name.value else Anonymous)
      && r.avatarUrl == (if u.image.Some? then u.image.value else "")
      && r.email == u.email
  {
    match UserById(db, userId)
    case None => Reviewer(Anonymous, "", "")
    case Some(u) =>
      Reviewer(if u.name.Some? then u.name.value else Anonymous,
               if u.image.Some? then u.image.value else "",
               u.email)
  }

  function View(db: Db, rv: Review): (v: ReviewView)
    ensures v.id == rv.id && v.rating == rv.rating && v.content == rv.comment
  {
    ReviewView(rv.id, rv.rating, rv.comment, ReviewerOf(db, rv.userId))
  }

  /** The reviews of one book, in table order. */
  function OfBook(rows: seq<Review>, bookId: string): (r: seq<Review>)
    ensures forall rv :: rv in r <==> rv in rows && rv.bookId == bookId
  {
    if |rows| == 0 then []
    else
      var rest := OfBook(rows[1..], bookId);
      assert forall rv :: rv in rows <==> rv == rows[0] || rv in rows[1..];
      if rows[0].bookId == bookId then [rows[0]] + rest else rest
  }

  /** Ids strictly increase along `rows`. */
  predicate Ascending(rows: seq<Review>) {
    forall i, j :: 0 <= i < j < |rows| ==> rows[i].id < rows[j].id
  }

  /** Selecting one book's reviews keeps ascending ids ascending. */
  lemma {:induction false} OfBookAscending(rows: seq<Review>, bookId: string)
    requires Ascending(rows)
    ensures Ascending(OfBook(rows, bookId))
  {
    if |rows| > 0 {
      var rest := OfBook(rows[1..], bookId);
      assert Ascending(rows[1..]) by {
        forall i, j | 0 <= i < j < |rows[1..]| ensures rows[1..][i].id < rows[1..][j].id {
          assert rows[1..][i] == rows[i + 1] && rows[1..][j] == rows[j + 1];
        }
      }
      OfBookAscending(rows[1..], bookId);
      if rows[0].bookId == bookId {
        forall k | 0 <= k < |rest| ensures rows[0].id < rest[k].id {
          assert rest[k] in rows[1..];
          var m :| 0 <= m < |rows[1..]| && rows[1..][m] == rest[k];
          assert rows[m + 1] == rest[k];
        }
        ConsAscending(rows[0], rest);
      }
    }
  }

  lemma ConsAscending(x: Review, rest: seq<Review>)
    requires Ascending(rest)
    requires forall k :: 0 <= k < |rest| ==> x.id < rest[k].id
    ensures Ascending([x] + rest)
  {
    var r := [x] + rest;
    forall i, j | 0 <= i < j < |r| ensures r[i].id < r[j].id {
      assert r[j] == rest[j - 1];
      if i > 0 {
        assert r[i] == rest[i - 1];
      }
    }
  }

  /** The reviews of one book in listing order: the reverse of table order. */
  function NewestFirst(db: Db, bookId: string): (r: seq<Review>)
    ensures forall rv :: rv in r <==> rv in db.reviews && rv.bookId == bookId
  {
    var fwd := OfBook(db.reviews, bookId);
    var rows := Reverse(fwd);
    assert forall rv :: rv in rows <==> rv in fwd by {
      forall rv | rv in fwd ensures rv in rows {
        var i :| 0 <= i < |fwd| && fwd[i] == rv;
        assert rows[|fwd| - 1 - i] == rv;
      }
      forall rv | rv in rows ensures rv in fwd {
        var i :| 0 <= i < |rows| && rows[i] == rv;
        assert fwd[|fwd| - 1 - i] == rv;
      }
    }
    rows
  }

  /** Under the invariant, ids (which double as creation stamps) strictly
      decrease along the listing order. */
  lemma NewestFirstDescending(db: Db, bookId: string)
    requires Valid(db)
    ensures var r := NewestFirst(db, bookId);
      forall i, j :: 0 <= i < j < |r| ==> r[i].id > r[j].id
  {
    TableAscending(db);
    OfBookAscending(db.reviews, bookId);
    ReverseDescends(OfBook(db.reviews, bookId));
  }

  /** The review table is in ascending id order. */
  lemma TableAscending(db: Db)
    requires Valid(db)
    ensures Ascending(db.reviews)
  {
    var ids := ReviewIds(db.reviews);
    assert IdsIssued(ids, db.nextId);
    forall i, j | 0 <= i < j < |db.reviews| ensures db.reviews[i].id < db.reviews[j].id {
      assert ids[i] < ids[j];
    }
  }

  /** Reversing an ascending sequence makes it strictly descending. */
  lemma ReverseDescends(fwd: seq<Review>)
    requires Ascending(fwd)
    ensures var r := Reverse(fwd);
      forall i, j :: 0 <= i < j < |r| ==> r[i].id > r[j].id
  {
    var r := Reverse(fwd);
    forall i, j | 0 <= i < j < |r| ensures r[i].id > r[j].id {
      assert r[i] == fwd[|fwd| - 1 - i] && r[j] == fwd[|fwd| - 1 - j];
    }
  }

  function Reverse<T>(xs: seq<T>): (r: seq<T>)
    ensures |r| == |xs|
    ensures forall i :: 0 <= i < |xs| ==> r[i] == xs[|xs| - 1 - i]
  {
    if |xs| == 0 then [] else Reverse(xs[1..]) + [xs[0]]
  }

  /** GET: 400 without a book id; otherwise that book's reviews, mapped, newest first. */
  function List(bookId: Option<string>, db: Db, down: bool): (r: Reply<seq<ReviewView>>)
    ensures !Truthy(bookId) ==> r.status == 400 && r.body.Fail?
    ensures Truthy(bookId) && down ==> r.status == 500 && r.body.Fail?
    ensures Truthy(bookId) && !down ==> r.status == 200 && r.body.Ok?
    ensures r.body.Ok? ==> forall v :: v in r.body.value <==>
      exists rv :: rv in db.reviews && rv.bookId == bookId.value && v == View(db, rv)
    ensures r.body.Ok? ==>
      |r.body.value| == |NewestFirst(db, bookId.value)|
      && forall i :: 0 <= i < |r.body.value| ==> r.body.value[i].id == NewestFirst(db, bookId.value)[i].id
  {
    if !Truthy(bookId) then Reply(400, Fail("Book ID is required"))
    else if down then Reply(500, Fail("Failed to fetch reviews"))
    else
      var rows := NewestFirst(db, bookId.value);
      var views := seq(|rows|, i requires 0 <= i < |rows| => View(db, rows[i]));
      assert forall v :: v in views <==> exists rv :: rv in rows && v == View(db, rv) by {
        forall v | v in views ensures exists rv :: rv in rows && v == View(db, rv) {
          var i :| 0 <= i < |views| && views[i] == v;
          assert rows[i] in rows;
        }
        forall v, rv | rv in rows && v == View(db, rv) ensures v in views {
          var i :| 0 <= i < |rows| && rows[i] == rv;
          assert views[i] == v;
        }
      }
      Reply(200, Ok(views))
  }

  /** Under the invariant the listing is newest first. */
  lemma ListNewestFirst(bookId: Option<string>, db: Db)
    requires Valid(db) && Truthy(bookId)
    ensures var vs := List(bookId, db, false).body.value;
      forall i, j :: 0 <= i < j < |vs| ==> vs[i].id > vs[j].id
  {
    NewestFirstDescending(db, bookId.value);
  }

  // ---------------------------------------------------------------------
  // POST

  /** The request body; `rating` is the JSON number sent, when there is one. */
  datatype ReviewBody = ReviewBody(bookId: Option<string>, rating: Option<int>, content: Option<string>)

  predicate Authorised(session: Option<Session>) {
    Truthy(SessionEmail(session))
  }

  /** bookId and content present, rating a number from 1 to 5 (0 is falsy). */
  predicate WellFormed(body: ReviewBody) {
    Truthy(body.bookId) && body.rating.Some? && 1 <= body.rating.value <= 5 && Truthy(body.content)
  }

  /** The caller has already reviewed the book. */
  predicate AlreadyReviewed(db: Db, email: string, bookId: string) {
    UserByEmail(db, email).Some? && ReviewByKey(db, UserByEmail(db, email).value.id, bookId).Some?
  }

  function Create(session: Option<Session>, body: ReviewBody, db: Db, down: bool): (o: Outcome<Review>)
    ensures !Authorised(session) ==> o.reply.status == 401 && o.db == db
    ensures Authorised(session) && !WellFormed(body) ==> o.reply.status == 400 && o.db == db
    ensures Authorised(session) && WellFormed(body) && down ==> o.reply.status == 500 && o.db == db
    ensures Authorised(session) && WellFormed(body) && !down ==>
      && (o.reply.status == 404 <==> UserByEmail(db, SessionEmail(session).value).None?)
      && (o.reply.status == 409 <==> AlreadyReviewed(db, SessionEmail(session).value, body.bookId.value))
    ensures o.reply.status != 201 ==> o.db == db && o.reply.body.Fail?
    // exactly one review added, by the caller, with the comment as sent
    ensures o.reply.status == 201 ==>
      && Authorised(session) && WellFormed(body) && o.reply.body.Ok?
      && UserByEmail(db, SessionEmail(session).value).Some?
      && !AlreadyReviewed(db, SessionEmail(session).value, body.bookId.value)
      && BookById(db, body.bookId.value).Some?
      && o.reply.body.value == Review(db.nextId, UserByEmail(db, SessionEmail(session).value).value.id,
                                     body.bookId.value, body.rating.value, body.content.value)
      && o.db == db.(reviews := db.reviews + [o.reply.body.value], nextId := db.nextId + 1)
    // a known caller reviewing an existing book for the first time succeeds
    ensures Authorised(session) && WellFormed(body) && !down
         && UserByEmail(db, SessionEmail(session).value).Some?
         && !AlreadyReviewed(db, SessionEmail(session).value, body.bookId.value)
         && BookById(db, body.bookId.value).Some?
         ==> o.reply.status == 201
    // the catalog book's foreign key rejects a review of an unknown book
    ensures Authorised(session) && WellFormed(body) && !down
         && UserByEmail(db, SessionEmail(session).value).Some?
         && !AlreadyReviewed(db, SessionEmail(session).value, body.bookId.value)
         && BookById(db, body.bookId.value).None?
         ==> o.reply.status == 500
  {
    if !Authorised(session) then Outcome(Reply(401, Fail("Unauthorized")), db)
    else if !WellFormed(body) then Outcome(Reply(400, Fail("Invalid input")), db)
    else if down then Outcome(Reply(500, Fail("Server error")), db)
    else match UserByEmail(db, SessionEmail(session).value)
      case None => Outcome(Reply(404, Fail("User not found")), db)
      case Some(user) =>
        if ReviewByKey(db, user.id, body.bookId.value).Some? then
          Outcome(Reply(409, Fail("You have already reviewed this book.")), db)
        else if BookById(db, body.bookId.value).None? then
          // the foreign key to the catalog book rejects the insert
          Outcome(Reply(500, Fail("Server error")), db)
        else
          var rv := Review(db.nextId, user.id, body.bookId.value, body.rating.value, body.content.value);
          Outcome(Reply(201, Ok(rv)), db.(reviews := db.reviews + [rv], nextId := db.nextId + 1))
  }

  lemma CreatePreservesValid(session: Option<Session>, body: ReviewBody, db: Db, down: bool)
    requires Valid(db)
    ensures Valid(Create(session, body, db, down).db)
  {
    var o := Create(session, body, db, down);
    if o.reply.status == 201 {
      var user := UserByEmail(db, SessionEmail(session).value).value;
      assert HasUser(db, user.id);
      ValidWithNewReview(db, o.reply.body.value);
    }
  }

  /** A second identical request after a successful one is refused with 409
      and adds nothing: one review per user per book. */
  lemma CreateTwiceConflicts(session: Option<Session>, body: ReviewBody, db: Db)
    requires Create(session, body, db, false).reply.status == 201
    ensures var o1 := Create(session, body, db, false);
      var o2 := Create(session, body, o1.db, false);
      o2.reply.status == 409 && o2.db == o1.db
  {
    var o1 := Create(session, body, db, false);
    var email := SessionEmail(session).value;
    var user := UserByEmail(db, email).value;
    assert o1.db.users == db.users;
    assert UserByEmail(o1.db, email) == UserByEmail(db, email);
    assert o1.reply.body.value in o1.db.reviews;
  }
}

=== FILE: review_form.dfy ===
/** The review form's submit handler. */
module ReviewForm {
  import opened Common
  import ReviewApi

  /** `rating` is the star widget's value, 0 when no star is chosen. */
  datatype Form = Form(rating: int, content: string)

  /** What `onSubmit` receives. */
  datatype NewReview = NewReview(rating: int, content: string)

  datatype Submitted = Submitted(form: Form, forwarded: Option<NewReview>)

  const Empty := Form(0, "")

  function Submit(f: Form): (s: Submitted)
    ensures s.forwarded.Some? <==> f.rating > 0 && !IsBlank(f.content)
    ensures s.forwarded.None? ==> s.form == f
    ensures s.forwarded.Some? ==> s.form == Empty && s.forwarded.value == NewReview(f.rating, f.content)
  {
    if f.rating > 0 && !IsBlank(f.content) then Submitted(Empty, Some(NewReview(f.rating, f.content)))
    else Submitted(f, None)
  }

  /** A second submit right after a forwarded one hands nothing on. */
  lemma SubmitTwiceForwardsOnce(f: Form)
    ensures Submit(Submit(f).form).forwarded.Some? ==> Submit(f).forwarded.None?
  {
  }

  /** A forwarded review with at most five stars passes the server's validation. */
  lemma ForwardedReviewAccepted(f: Form, bookId: string)
    requires Submit(f).forwarded.Some? && f.rating <= 5 && bookId != ""
    ensures var r := Submit(f).forwarded.value;
      ReviewApi.WellFormed(ReviewApi.ReviewBody(Some(bookId), Some(r.rating), Some(r.content)))
  {
  }
}

=== FILE: store.dfy ===
/** The abstract relational store behind the route handlers: one table per
    entity, each a sequence of rows in insertion order, plus the counter that
    stands for the database's id and timestamp generator. Also the session
    record the handlers receive and the HTTP reply they produce. */
module Store {
  import opened Common

  /** A bcrypt digest, kept symbolic: the secret it was computed from and its
      cost factor. It is a different type from a plain string, so a stored
      digest can never be mistaken for the raw password. */
  datatype PasswordHash = Bcrypt(secret: string, rounds: nat)

  datatype User = User(
    id: nat,
    email: string,
    username: string,
    name: Option<string>,
    password: Option<PasswordHash>,
    image: Option<string>)

  /** The publication date of a catalog book, before it becomes a `Date`:
      January 1st of a year, or a date text as the client sent it. */
  datatype PublishedAt = YearStart(year: int) | DateText(text: string)

  /** A catalog book, shared by every user. */
  datatype Book = Book(
    id: string,
    title: string,
    author: string,
    coverUrl: Option<string>,
    isbn: Option<string>,
    publisher: Option<string>,
    description: Option<string>,
    category: Option<string>,
    language: Option<string>,
    pageCount: Option<int>,
    publishedAt: Option<PublishedAt>)

  /** A user's entry for a catalog book; `id` doubles as its `addedAt` stamp. */
  datatype UserBook = UserBook(id: nat, userId: nat, bookId: string, status: string, progress: int)

  datatype Quote = Quote(id: nat, userBookId: nat, content: string, page: Option<int>)

  datatype Flashcard = Flashcard(id: nat, userBookId: nat, front: string, back: string)

  /** A review; `id` doubles as its `createdAt` stamp. */
  datatype Review = Review(id: nat, userId: nat, bookId: string, rating: int, comment: string)

  datatype Db = Db(
    users: seq<User>,
    books: seq<Book>,
    userBooks: seq<UserBook>,
    quotes: seq<Quote>,
    flashcards: seq<Flashcard>,
    reviews: seq<Review>,
    nextId: nat)

  /** Column defaults of a UserBook row created without status or progress. */
  const DefaultStatus: string := "want to read"
  const DefaultProgress: int := 0

  /** What the auth provider reports about the caller. */
  datatype Session = Session(userId: Option<nat>, email: Option<string>)

  /** A JSON reply: either the success payload or an error message. */
  datatype Body<T> = Ok(value: T) | Fail(message: string)
  datatype Reply<T> = Reply(status: nat, body: Body<T>)

  /** What a handler returns: its reply and the store after the request. */
  datatype Outcome<T> = Outcome(reply: Reply<T>, db: Db)

  /** `session.user.id`, when there is a session carrying one. */
  function SessionUserId(session: Option<Session>): (r: Option<nat>)
    ensures r.Some? <==> session.Some? && session.value.userId.Some?
  {
    if session.Some? then session.value.userId else None
  }

  /** `session.user?.email`: the email field of the session, when there is one. */
  function SessionEmail(session: Option<Session>): (r: Option<string>)
    ensures r.Some? <==> session.Some? && session.value.email.Some?
    ensures r.Some? ==> r == session.value.email
  {
    if session.Some? then session.value.email else None
  }

  // ---------------------------------------------------------------------
  // Lookups

  /** Index of the first row satisfying `p`, if any. */
  function Find<T>(rows: seq<T>, p: T -> bool): (r: Option<nat>)
    ensures r.Some? ==> r.value < |rows| && p(rows[r.value])
    ensures r.Some? ==> forall j :: 0 <= j < r.value ==> !p(rows[j])
    ensures r.None? ==> forall j :: 0 <= j < |rows| ==> !p(rows[j])
  {
    if |rows| == 0 then None
    else if p(rows[0]) then Some(0)
    else match Find(rows[1..], p)
      case None => None
      case Some(k) => Some(k + 1)
  }

  function UserByEmail(db: Db, email: string): (r: Option<User>)
    ensures r.Some? ==> r.value in db.users && r.value.email == email
    ensures r.None? ==> forall u :: u in db.users ==> u.email != email
  {
    match Find(db.users, (u: User) => u.email == email)
    case None => None
    case Some(i) => Some(db.users[i])
  }

  function UserByUsername(db: Db, username: string): (r: Option<User>)
    ensures r.Some? ==> r.value in db.users && r.value.username == username
    ensures r.None? ==> forall u :: u in db.users ==> u.username != username
  {
    match Find(db.users, (u: User) => u.username == username)
    case None => None
    case Some(i) => Some(db.users[i])
  }

  function BookById(db: Db, id: string): (r: Option<Book>)
    ensures r.Some? ==> r.value in db.books && r.value.id == id
    ensures r.None? ==> forall b :: b in db.books ==> b.id != id
  {
    match Find(db.books, (b: Book) => b.id == id)
    case None => None
    case Some(i) => Some(db.books[i])
  }

  function BookByIsbn(db: Db, isbn: string): (r: Option<Book>)
    ensures r.Some? ==> r.value in db.books && r.value.isbn == Some(isbn)
    ensures r.None? ==> forall b :: b in db.books ==> b.isbn != Some(isbn)
  {
    match Find(db.books, (b: Book) => b.isbn == Some(isbn))
    case None => None
    case Some(i) => Some(db.books[i])
  }

  function UserById(db: Db, id: nat): (r: Option<User>)
    ensures r.Some? ==> r.value in db.users && r.value.id == id
    ensures r.None? ==> forall u :: u in db.users ==> u.id != id
  {
    match Find(db.users, (u: User) => u.id == id)
    case None => None
    case Some(i) => Some(db.users[i])
  }

  predicate HasUser(db: Db, id: nat) {
    exists u :: u in db.users && u.id == id
  }

  /** The `userId_bookId` composite-key lookup on UserBook. */
  function UserBookByKey(db: Db, userId: nat, bookId: string): (r: Option<UserBook>)
    ensures r.Some? ==> r.value in db.userBooks && r.value.userId == userId && r.value.bookId == bookId
    ensures r.None? ==> forall ub :: ub in db.userBooks ==> !(ub.userId == userId && ub.bookId == bookId)
  {
    match Find(db.userBooks, (ub: UserBook) => ub.userId == userId && ub.bookId == bookId)
    case None => None
    case Some(i) => Some(db.userBooks[i])
  }

  /** The `userId_bookId` composite-key lookup on Review. */
  function ReviewByKey(db: Db, userId: nat, bookId: string): (r: Option<Review>)
    ensures r.Some? ==> r.value in db.reviews && r.value.userId == userId && r.value.bookId == bookId
    ensures r.None? ==> forall rv :: rv in db.reviews ==> !(rv.userId == userId && rv.bookId == bookId)
  {
    match Find(db.reviews, (rv: Review) => rv.userId == userId && rv.bookId == bookId)
    case None => None
    case Some(i) => Some(db.reviews[i])
  }

  // ---------------------------------------------------------------------
  // Store invariants

  /** Generated ids along a table are strictly increasing and already issued. */
  predicate IdsIssued(ids: seq<nat>, nextId: nat) {
    && (forall i, j :: 0 <= i < j < |ids| ==> ids[i] < ids[j])
    && (forall i :: 0 <= i < |ids| ==> ids[i] < nextId)
  }

  function UserIds(rows: seq<User>): (ids: seq<nat>)
    ensures |ids| == |rows| && forall i :: 0 <= i < |rows| ==> ids[i] == rows[i].id
  {
    seq(|rows|, i requires 0 <= i < |rows| => rows[i].id)
  }

  function UserBookIds(rows: seq<UserBook>): (ids: seq<nat>)
    ensures |ids| == |rows| && forall i :: 0 <= i < |rows| ==> ids[i] == rows[i].id
  {
    seq(|rows|, i requires 0 <= i < |rows| => rows[i].id)
  }

  function QuoteIds(rows: seq<Quote>): (ids: seq<nat>)
    ensures |ids| == |rows| && forall i :: 0 <= i < |rows| ==> ids[i] == rows[i].id
  {
    seq(|rows|, i requires 0 <= i < |rows| => rows[i].id)
  }

  function FlashcardIds(rows: seq<Flashcard>): (ids: seq<nat>)
    ensures |ids| == |rows| && forall i :: 0 <= i < |rows| ==> ids[i] == rows[i].id
  {
    seq(|rows|, i requires 0 <= i < |rows| => rows[i].id)
  }

  function ReviewIds(rows: seq<Review>): (ids: seq<nat>)
    ensures |ids| == |rows| && forall i :: 0 <= i < |rows| ==> ids[i] == rows[i].id
  {
    seq(|rows|, i requires 0 <= i < |rows| => rows[i].id)
  }

  /** Users are unique by email and by username. */
  predicate UsersUnique(users: seq<User>) {
    forall i, j :: 0 <= i < j < |users| ==>
      users[i].email != users[j].email && users[i].username != users[j].username
  }

  /** Catalog books are unique by id, and by isbn when they have one. */
  predicate BooksUnique(books: seq<Book>) {
    forall i, j :: 0 <= i < j < |books| ==>
      books[i].id != books[j].id && (books[i].isbn.Some? ==> books[i].isbn != books[j].isbn)
  }

  /** No two UserBook rows share the pair (userId, bookId). */
  predicate UserBookKeysUnique(rows: seq<UserBook>) {
    forall i, j :: 0 <= i < j < |rows| ==>
      !(rows[i].userId == rows[j].userId && rows[i].bookId == rows[j].bookId)
  }

  /** No two Review rows share the pair (userId, bookId). */
  predicate ReviewKeysUnique(rows: seq<Review>) {
    forall i, j :: 0 <= i < j < |rows| ==>
      !(rows[i].userId == rows[j].userId && rows[i].bookId == rows[j].bookId)
  }

  /** Every UserBook and Review row points at an existing user and book. */
  predicate ForeignKeysHold(db: Db) {
    && (forall ub :: ub in db.userBooks ==> HasUser(db, ub.userId) && BookById(db, ub.bookId).Some?)
    && (forall rv :: rv in db.reviews ==> HasUser(db, rv.userId) && BookById(db, rv.bookId).Some?)
  }

  /** The invariant every handler preserves. */
  predicate Valid(db: Db) {
    && IdsIssued(UserIds(db.users), db.nextId)
    && IdsIssued(UserBookIds(db.userBooks), db.nextId)
    && IdsIssued(QuoteIds(db.quotes), db.nextId)
    && IdsIssued(FlashcardIds(db.flashcards), db.nextId)
    && IdsIssued(ReviewIds(db.reviews), db.nextId)
    && UsersUnique(db.users)
    && BooksUnique(db.books)
    && UserBookKeysUnique(db.userBooks)
    && ReviewKeysUnique(db.reviews)
    && ForeignKeysHold(db)
  }

  /** The empty store is valid. */
  lemma EmptyValid()
    ensures Valid(Db([], [], [], [], [], [], 0))
  {
  }

  /** Under the invariant a composite-key lookup finds THE row with that key:
      any row carrying the key is the one returned. */
  lemma UserBookKeyDetermines(db: Db, ub: UserBook)
    requires UserBookKeysUnique(db.userBooks)
    requires ub in db.userBooks
    ensures UserBookByKey(db, ub.userId, ub.bookId) == Some(ub)
  {
    var r := UserBookByKey(db, ub.userId, ub.bookId);
    var i :| 0 <= i < |db.userBooks| && db.userBooks[i] == ub;
    var j :| 0 <= j < |db.userBooks| && db.userBooks[j] == r.value;
    assert i == j;
  }

  /** Appending a row with a fresh id keeps a table's ids issued and ascending. */
  lemma IssueNext(ids: seq<nat>, nextId: nat)
    requires IdsIssued(ids, nextId)
    ensures IdsIssued(ids + [nextId], nextId + 1)
  {
  }

  /** Issuing more ids keeps earlier ids issued. */
  lemma IssuedMonotone(ids: seq<nat>, nextId: nat, later: nat)
    requires IdsIssued(ids, nextId) && nextId <= later
    ensures IdsIssued(ids, later)
  {
  }

  /** Replacing the UserBook table (and advancing the counter) keeps the
      invariant when the new table keeps its own part of it. */
  lemma ValidWithUserBooks(db: Db, rows: seq<UserBook>, nextId: nat)
    requires Valid(db) && db.nextId <= nextId
    requires IdsIssued(UserBookIds(rows), nextId)
    requires UserBookKeysUnique(rows)
    requires forall ub :: ub in rows ==> HasUser(db, ub.userId) && BookById(db, ub.bookId).Some?
    ensures Valid(db.(userBooks := rows, nextId := nextId))
  {
    IssuedMonotone(UserIds(db.users), db.nextId, nextId);
    IssuedMonotone(QuoteIds(db.quotes), db.nextId, nextId);
    IssuedMonotone(FlashcardIds(db.flashcards), db.nextId, nextId);
    IssuedMonotone(ReviewIds(db.reviews), db.nextId, nextId);
  }

  /** Appending a catalog book with a new id and, if it has one, a new isbn
      keeps the invariant and every earlier id lookup. */
  lemma ValidWithNewBook(db: Db, book: Book)
    requires Valid(db)
    requires BookById(db, book.id).None?
    requires book.isbn.Some? ==> BookByIsbn(db, book.isbn.value).None?
    ensures Valid(db.(books := db.books + [book]))
    ensures forall x :: BookById(db, x).Some? ==> BookById(db.(books := db.books + [book]), x) == BookById(db, x)
    ensures BookById(db.(books := db.books + [book]), book.id) == Some(book)
  {
    var db' := db.(books := db.books + [book]);
    assert BooksUnique(db'.books) by {
      forall i, j | 0 <= i < j < |db'.books|
        ensures db'.books[i].id != db'.books[j].id
        ensures db'.books[i].isbn.Some? ==> db'.books[i].isbn != db'.books[j].isbn
      {
        if j == |db.books| {
          assert db'.books[i] in db.books;
        }
      }
    }
    forall x | BookById(db, x).Some?
      ensures BookById(db', x) == BookById(db, x)
    {
      BookIdDetermines(db', BookById(db, x).value);
    }
    BookIdDetermines(db', book);
  }

  /** Under unique ids, the id lookup returns the one book with that id. */
  lemma BookIdDetermines(db: Db, b: Book)
    requires BooksUnique(db.books) && b in db.books
    ensures BookById(db, b.id) == Some(b)
  {
    var r := BookById(db, b.id);
    var i :| 0 <= i < |db.books| && db.books[i] == b;
    var j :| 0 <= j < |db.books| && db.books[j] == r.value;
    assert i == j;
  }

  /** Appending a UserBook row with the next id and an unused key keeps the
      invariant. */
  lemma ValidWithNewUserBook(db: Db, row: UserBook)
    requires Valid(db)
    requires row.id == db.nextId
    requires UserBookByKey(db, row.userId, row.bookId).None?
    requires HasUser(db, row.userId) && BookById(db, row.bookId).Some?
    ensures Valid(db.(userBooks := db.userBooks + [row], nextId := db.nextId + 1))
  {
    var rows := db.userBooks + [row];
    AppendKeepsIds(db.userBooks, row, db.nextId);
    AppendKeepsKeys(db, row);
    forall ub | ub in rows ensures HasUser(db, ub.userId) && BookById(db, ub.bookId).Some? {
      if ub != row {
        assert ub in db.userBooks;
      }
    }
    ValidWithUserBooks(db, rows, db.nextId + 1);
  }

  lemma AppendKeepsIds(rows: seq<UserBook>, row: UserBook, nextId: nat)
    requires IdsIssued(UserBookIds(rows), nextId) && row.id == nextId
    ensures IdsIssued(UserBookIds(rows + [row]), nextId + 1)
  {
    assert UserBookIds(rows + [row]) == UserBookIds(rows) + [nextId];
    IssueNext(UserBookIds(rows), nextId);
  }

  lemma AppendKeepsKeys(db: Db, row: UserBook)
    requires UserBookKeysUnique(db.userBooks)
    requires UserBookByKey(db, row.userId, row.bookId).None?
    ensures UserBookKeysUnique(db.userBooks + [row])
  {
    var rows := db.userBooks + [row];
    forall i, j | 0 <= i < j < |rows|
      ensures !(rows[i].userId == rows[j].userId && rows[i].bookId == rows[j].bookId)
    {
      if j == |db.userBooks| {
        assert rows[i] in db.userBooks;
      }
    }
  }

  /** Appending a quote with the next id keeps the invariant. */
  lemma ValidWithNewQuote(db: Db, q: Quote)
    requires Valid(db) && q.id == db.nextId
    ensures Valid(db.(quotes := db.quotes + [q], nextId := db.nextId + 1))
  {
    assert QuoteIds(db.quotes + [q]) == QuoteIds(db.quotes) + [q.id];
    IssueNext(QuoteIds(db.quotes), db.nextId);
    OthersStayIssued(db, db.nextId + 1);
  }

  /** Appending a flashcard with the next id keeps the invariant. */
  lemma ValidWithNewFlashcard(db: Db, f: Flashcard)
    requires Valid(db) && f.id == db.nextId
    ensures Valid(db.(flashcards := db.flashcards + [f], nextId := db.nextId + 1))
  {
    assert FlashcardIds(db.flashcards + [f]) == FlashcardIds(db.flashcards) + [f.id];
    IssueNext(FlashcardIds(db.flashcards), db.nextId);
    OthersStayIssued(db, db.nextId + 1);
  }

  /** Appending a review with the next id, an unused (userId, bookId) key and
      existing user and book keeps the invariant. */
  lemma ValidWithNewReview(db: Db, rv: Review)
    requires Valid(db) && rv.id == db.nextId
    requires ReviewByKey(db, rv.userId, rv.bookId).None?
    requires HasUser(db, rv.userId) && BookById(db, rv.bookId).Some?
    ensures Valid(db.(reviews := db.reviews + [rv], nextId := db.nextId + 1))
  {
    var rows := db.reviews + [rv];
    assert ReviewIds(rows) == ReviewIds(db.reviews) + [rv.id];
    IssueNext(ReviewIds(db.reviews), db.nextId);
    OthersStayIssued(db, db.nextId + 1);
    AppendKeepsReviewKeys(db, rv);
    forall x | x in rows ensures HasUser(db, x.userId) && BookById(db, x.bookId).Some? {
      if x != rv {
        assert x in db.reviews;
      }
    }
  }

  lemma AppendKeepsReviewKeys(db: Db, rv: Review)
    requires ReviewKeysUnique(db.reviews)
    requires ReviewByKey(db, rv.userId, rv.bookId).None?
    ensures ReviewKeysUnique(db.reviews + [rv])
  {
    var rows := db.reviews + [rv];
    forall i, j | 0 <= i < j < |rows|
      ensures !(rows[i].userId == rows[j].userId && rows[i].bookId == rows[j].bookId)
    {
      if j == |db.reviews| {
        assert rows[i] in db.reviews;
      }
    }
  }

  /** Appending a user with the next id and an unused email and username
      keeps the invariant, and every earlier user is still there. */
  lemma ValidWithNewUser(db: Db, u: User)
    requires Valid(db) && u.id == db.nextId
    requires UserByEmail(db, u.email).None? && UserByUsername(db, u.username).None?
    ensures Valid(db.(users := db.users + [u], nextId := db.nextId + 1))
  {
    var db' := db.(users := db.users + [u], nextId := db.nextId + 1);
    assert UserIds(db.users + [u]) == UserIds(db.users) + [u.id];
    IssueNext(UserIds(db.users), db.nextId);
    OthersStayIssued(db, db.nextId + 1);
    forall i, j | 0 <= i < j < |db'.users|
      ensures db'.users[i].email != db'.users[j].email && db'.users[i].username != db'.users[j].username
    {
      if j == |db.users| {
        assert db'.users[i] in db.users;
      }
    }
    forall x | HasUser(db, x) ensures HasUser(db', x) {
      var w :| w in db.users && w.id == x;
      assert w in db'.users;
    }
  }

  /** Advancing the counter keeps the ids of the untouched tables issued. */
  lemma OthersStayIssued(db: Db, later: nat)
    requires Valid(db) && db.nextId <= later
    ensures IdsIssued(UserIds(db.users), later)
    ensures IdsIssued(UserBookIds(db.userBooks), later)
    ensures IdsIssued(QuoteIds(db.quotes), later)
    ensures IdsIssued(FlashcardIds(db.flashcards), later)
    ensures IdsIssued(ReviewIds(db.reviews), later)
  {
    IssuedMonotone(UserIds(db.users), db.nextId, later);
    IssuedMonotone(UserBookIds(db.userBooks), db.nextId, later);
    IssuedMonotone(QuoteIds(db.quotes), db.nextId, later);
    IssuedMonotone(FlashcardIds(db.flashcards), db.nextId, later);
    IssuedMonotone(ReviewIds(db.reviews), db.nextId, later);
  }
}

=== FILE: study_session.dfy ===
/** The flashcard study mode of the flashcard panel, as a state machine over
    the component's state and the user's clicks. The deck is the page of `n`
    cards the panel was given; `Reload(size)` is the pager beside the panel
    loading another page, which replaces the deck by one of `size` cards
    while the component keeps its own state. The 500 ms completion timer is
    an event of its own, `Timeout`, enabled while a timer is pending. */
module StudySession {

  datatype Stats = Stats(correct: nat, incorrect: nat)

  datatype State = State(
    studyMode: bool,
    index: nat,
    flipped: bool,
    stats: Stats,
    completed: set<nat>,
    pendingExits: nat)

  datatype Event = Shuffle | Start | Exit | Flip | Answer(correct: bool) | Timeout | Reload(size: nat)

  function Initial(): (s: State)
    ensures !s.studyMode && s.index == 0 && !s.flipped && s.pendingExits == 0
  {
    State(false, 0, false, Stats(0, 0), {}, 0)
  }

  function Answered(s: Stats): nat {
    s.correct + s.incorrect
  }

  /** The study view renders only in study mode with a non-empty deck. */
  predicate StudyView(s: State, n: nat) {
    s.studyMode && n > 0
  }

  /** Which controls are on screen: shuffle and study buttons in the deck
      view when there are cards; exit and the card in the study view; the
      answer buttons only once the card is flipped. The pager is rendered
      next to the panel in both views. */
  predicate Enabled(s: State, n: nat, e: Event) {
    match e
    case Shuffle => !StudyView(s, n) && n > 0
    case Start => !StudyView(s, n) && n > 0
    case Exit => StudyView(s, n)
    case Flip => StudyView(s, n)
    case Answer(_) => StudyView(s, n) && s.flipped
    case Timeout => s.pendingExits > 0
    case Reload(_) => true
  }

  /** `shuffleCards`: back to the first card, face down; nothing else changes. */
  function ShuffleCards(s: State): (s': State)
    ensures s'.index == 0 && !s'.flipped
    ensures s'.studyMode == s.studyMode && s'.stats == s.stats && s'.completed == s.completed
    ensures s'.pendingExits == s.pendingExits
  {
    s.(index := 0, flipped := false)
  }

  /** `startStudyMode`: a fresh session. */
  function StartStudyMode(s: State): (s': State)
    ensures s'.studyMode && s'.index == 0 && !s'.flipped
    ensures s'.stats == Stats(0, 0) && s'.completed == {}
    ensures s'.pendingExits == s.pendingExits
  {
    s.(studyMode := true, index := 0, flipped := false, stats := Stats(0, 0), completed := {})
  }

  /** `exitStudyMode`: leave study mode; the stats of the session are kept. */
  function ExitStudyMode(s: State): (s': State)
    ensures !s'.studyMode && s'.index == 0 && !s'.flipped
    ensures s'.stats == s.stats && s'.completed == s.completed && s'.pendingExits == s.pendingExits
  {
    s.(studyMode := false, index := 0, flipped := false)
  }

  /** `handleCardFlip`. */
  function CardFlip(s: State): (s': State)
    ensures s'.flipped == !s.flipped && s' == s.(flipped := s'.flipped)
  {
    s.(flipped := !s.flipped)
  }

  /** `handleAnswer`: count the answer, mark the card done, then move on or,
      on the last card, schedule the end of the session. */
  function HandleAnswer(s: State, n: nat, correct: bool): (s': State)
    ensures Answered(s'.stats) == Answered(s.stats) + 1
    ensures correct ==> s'.stats == Stats(s.stats.correct + 1, s.stats.incorrect)
    ensures !correct ==> s'.stats == Stats(s.stats.correct, s.stats.incorrect + 1)
    ensures s'.completed == s.completed + {s.index}
    ensures s'.studyMode == s.studyMode
    ensures s.index + 1 < n ==> s'.index == s.index + 1 && !s'.flipped && s'.pendingExits == s.pendingExits
    ensures s.index + 1 >= n ==> s'.index == s.index && s'.flipped == s.flipped && s'.pendingExits == s.pendingExits + 1
  {
    var stats := if correct then Stats(s.stats.correct + 1, s.stats.incorrect)
                 else Stats(s.stats.correct, s.stats.incorrect + 1);
    var s1 := s.(stats := stats, completed := s.completed + {s.index});
    if s.index + 1 < n then s1.(index := s.index + 1, flipped := false)
    else s1.(pendingExits := s.pendingExits + 1)
  }

  /** The completion timer fires: exit study mode. */
  function Expire(s: State): (s': State)
    requires s.pendingExits > 0
    ensures s'.pendingExits == s.pendingExits - 1
    ensures !s'.studyMode && s'.index == 0 && !s'.flipped && s'.stats == s.stats
  {
    ExitStudyMode(s).(pendingExits := s.pendingExits - 1)
  }

  /** One user action or timer tick; a control that is not on screen does
      nothing. A page change reaches the component only as a new deck: its
      own state is left as it was. */
  function Step(s: State, n: nat, e: Event): (s': State)
    ensures !Enabled(s, n, e) ==> s' == s
  {
    if !Enabled(s, n, e) then s
    else match e
      case Shuffle => ShuffleCards(s)
      case Start => StartStudyMode(s)
      case Exit => ExitStudyMode(s)
      case Flip => CardFlip(s)
      case Answer(c) => HandleAnswer(s, n, c)
      case Timeout => Expire(s)
      case Reload(_) => s
  }

  /** The size of the deck after an event: a page change brings its own. */
  function DeckAfter(n: nat, e: Event): nat {
    if e.Reload? then e.size else n
  }

  function Run(s: State, n: nat, events: seq<Event>): (s': State)
    decreases |events|
  {
    if |events| == 0 then s else Run(Step(s, n, events[0]), DeckAfter(n, events[0]), events[1..])
  }

  /** The size of the deck once all the events have happened. */
  function FinalDeck(n: nat, events: seq<Event>): nat
    decreases |events|
  {
    if |events| == 0 then n else FinalDeck(DeckAfter(n, events[0]), events[1..])
  }

  /** No page change happens: the deck stays the one the panel started with. */
  predicate FixedDeck(events: seq<Event>) {
    forall i :: 0 <= i < |events| ==> !events[i].Reload?
  }

  /** The card shown is always a card of the deck: outside study mode the
      index is 0, inside it is below `n`. */
  predicate IndexInRange(s: State, n: nat) {
    (s.studyMode ==> s.index < n) && (!s.studyMode ==> s.index == 0)
  }

  lemma StepKeepsIndexInRange(s: State, n: nat, e: Event)
    requires IndexInRange(s, n)
    ensures IndexInRange(Step(s, n, e), n)
  {
  }

  lemma {:induction false} RunKeepsIndexInRange(s: State, n: nat, events: seq<Event>)
    requires IndexInRange(s, n) && FixedDeck(events)
    ensures IndexInRange(Run(s, n, events), n)
    decreases |events|
  {
    if |events| > 0 {
      StepKeepsIndexInRange(s, n, events[0]);
      assert DeckAfter(n, events[0]) == n;
      assert forall i :: 1 <= i < |events| ==> events[1..][i - 1] == events[i];
      RunKeepsIndexInRange(Step(s, n, events[0]), n, events[1..]);
    }
  }

  /** Study mode is only ever entered with a non-empty deck: while every
      page the pager brings is empty, the panel never leaves the deck view. */
  lemma {:induction false} StudyModeNeedsCards(s: State, n: nat, events: seq<Event>)
    requires !s.studyMode && n == 0
    requires forall i :: 0 <= i < |events| && events[i].Reload? ==> events[i].size == 0
    ensures !Run(s, n, events).studyMode
    decreases |events|
  {
    if |events| > 0 {
      assert forall i :: 1 <= i < |events| ==> events[1..][i - 1] == events[i];
      StudyModeNeedsCards(Step(s, n, events[0]), DeckAfter(n, events[0]), events[1..]);
    }
  }

  /** An independent tally of the answer clicks that took effect since the
      last session start, read off the event sequence. */
  function AnswersGiven(s: State, n: nat, events: seq<Event>, acc: nat): (k: nat)
    decreases |events|
  {
    if |events| == 0 then acc
    else
      var e := events[0];
      var acc' := if !Enabled(s, n, e) then acc else if e.Start? then 0 else if e.Answer? then acc + 1 else acc;
      AnswersGiven(Step(s, n, e), DeckAfter(n, e), events[1..], acc')
  }

  /** correct + incorrect always equals the number of answers given. */
  lemma {:induction false} StatsCountAnswers(s: State, n: nat, events: seq<Event>)
    ensures Answered(Run(s, n, events).stats) == AnswersGiven(s, n, events, Answered(s.stats))
    decreases |events|
  {
    if |events| > 0 {
      StatsCountAnswers(Step(s, n, events[0]), DeckAfter(n, events[0]), events[1..]);
    }
  }

  /** Flipping twice shows the card as it was. */
  lemma FlipTwice(s: State)
    ensures CardFlip(CardFlip(s)) == s
  {
  }

  // ---------------------------------------------------------------------
  // Finding: the last card can be answered more than once

  /** As written: a one-card session in which the answer button is clicked
      twice before the completion timer fires counts two answers. */
  lemma LastCardAnsweredTwice()
    ensures var s := Run(Initial(), 1, [Start, Flip, Answer(true), Answer(true)]);
      s.studyMode && Answered(s.stats) == 2 && s.pendingExits == 2
  {
    var s1 := Step(Initial(), 1, Start);
    var s2 := Step(s1, 1, Flip);
    var s3 := Step(s2, 1, Answer(true));
    assert s3.flipped && s3.studyMode;
    var s4 := Step(s3, 1, Answer(true));
    assert Run(s4, 1, []) == s4;
    assert Run(Initial(), 1, [Start, Flip, Answer(true), Answer(true)]) == s4 by {
      assert [Start, Flip, Answer(true), Answer(true)][1..] == [Flip, Answer(true), Answer(true)];
      assert [Flip, Answer(true), Answer(true)][1..] == [Answer(true), Answer(true)];
      assert [Answer(true), Answer(true)][1..] == [Answer(true)];
      assert [Answer(true)][1..] == [];
    }
  }

  /** As written: a page change in the middle of a session keeps study mode
      and the index, so once the new page is shorter than the position
      reached, the study view reads past the end of the new deck. */
  lemma StaleIndexAfterReload(s: State, n: nat, m: nat)
    requires StudyView(s, n) && 0 < m <= s.index
    ensures var s' := Run(s, n, [Reload(m)]);
      StudyView(s', m) && s'.index == s.index && !IndexInRange(s', m)
  {
    assert Run(s, n, [Reload(m)]) == Run(s, m, []) by {
      assert [Reload(m)][1..] == [];
    }
  }

  /** Such a position is reached: in a deck of two or more cards, one answer
      moves the study view to the second card. */
  lemma SecondCardReached(n: nat)
    requires n >= 2
    ensures var s := Run(Initial(), n, [Start, Flip, Answer(true)]);
      StudyView(s, n) && s.index == 1
  {
    var s1 := Step(Initial(), n, Start);
    var s2 := Step(s1, n, Flip);
    var s3 := Step(s2, n, Answer(true));
    assert s3.studyMode && s3.index == 1;
    assert Run(s2, n, [Answer(true)]) == s3 by {
      assert Run(s3, n, []) == s3;
      assert [Answer(true)][1..] == [];
    }
    assert Run(s1, n, [Flip, Answer(true)]) == s3 by {
      assert [Flip, Answer(true)][1..] == [Answer(true)];
    }
    assert Run(Initial(), n, [Start, Flip, Answer(true)]) == s3 by {
      assert [Start, Flip, Answer(true)][1..] == [Flip, Answer(true)];
    }
  }

  /** Corrected: the session remembers that its last card was answered and
      then takes no further answers, and a page change ends the session, as
      leaving study mode does. */
  datatype Session = Session(s: State, finished: bool)

  function FixedStep(c: Session, n: nat, e: Event): (c': Session)
    ensures e.Answer? && c.finished ==> c' == c
    ensures e.Reload? ==> !c'.s.studyMode && c'.s.stats == c.s.stats && c'.s.pendingExits == c.s.pendingExits
    ensures !(e.Answer? && c.finished) && !e.Reload? ==> c'.s == Step(c.s, n, e)
  {
    if e.Answer? && c.finished then c
    else if e.Reload? then Session(ExitStudyMode(c.s), false)
    else
      var finished :=
        if !Enabled(c.s, n, e) then c.finished
        else if e.Start? then false
        else if e.Answer? then c.s.index + 1 >= n
        else c.finished;
      Session(Step(c.s, n, e), finished)
  }

  function FixedRun(c: Session, n: nat, events: seq<Event>): (c': Session)
    decreases |events|
  {
    if |events| == 0 then c else FixedRun(FixedStep(c, n, events[0]), DeckAfter(n, events[0]), events[1..])
  }

  /** In study mode each card is answered at most once: the answers given
      equal the cards passed, never more than the deck. */
  predicate OneAnswerPerCard(c: Session, n: nat) {
    && IndexInRange(c.s, n)
    && (c.s.studyMode ==> Answered(c.s.stats) == c.s.index + (if c.finished then 1 else 0))
    && (c.s.studyMode && c.finished ==> c.s.index + 1 == n)
  }

  lemma FixedStepKeepsOneAnswerPerCard(c: Session, n: nat, e: Event)
    requires OneAnswerPerCard(c, n)
    ensures OneAnswerPerCard(FixedStep(c, n, e), DeckAfter(n, e))
  {
    var c' := FixedStep(c, n, e);
    if e.Reload? {
      assert c'.s == ExitStudyMode(c.s);
    } else if e.Answer? && !c.finished && Enabled(c.s, n, e) {
      AnswerKeepsOneAnswerPerCard(c, n, e.correct);
    } else if e.Answer? || !Enabled(c.s, n, e) {
      assert c'.s == c.s;
    } else {
      StepKeepsIndexInRange(c.s, n, e);
      if e.Start? {
        StartKeepsOneAnswerPerCard(c, n);
      } else if e.Shuffle? {
        assert c'.s == ShuffleCards(c.s) && c'.finished == c.finished;
      } else if e.Flip? {
        assert c'.s == CardFlip(c.s) && c'.finished == c.finished;
      } else {
        assert !c'.s.studyMode;
      }
    }
  }

  /** A new session starts with no answers on the first card. */
  lemma StartKeepsOneAnswerPerCard(c: Session, n: nat)
    requires Enabled(c.s, n, Start)
    ensures OneAnswerPerCard(FixedStep(c, n, Start), n)
  {
    assert FixedStep(c, n, Start) == Session(StartStudyMode(c.s), false);
  }

  /** An answer taken by the corrected session counts the card it was given on. */
  lemma AnswerKeepsOneAnswerPerCard(c: Session, n: nat, correct: bool)
    requires OneAnswerPerCard(c, n) && !c.finished && Enabled(c.s, n, Answer(correct))
    ensures OneAnswerPerCard(FixedStep(c, n, Answer(correct)), n)
  {
    var s' := HandleAnswer(c.s, n, correct);
    assert FixedStep(c, n, Answer(correct)) == Session(s', c.s.index + 1 >= n);
    assert Answered(s'.stats) == c.s.index + 1;
  }

  /** Whatever the clicks and page changes, the corrected session shows a
      card of the current deck and never counts more answers than it has. */
  lemma {:induction false} FixedSessionNeverOvercounts(c: Session, n: nat, events: seq<Event>)
    requires OneAnswerPerCard(c, n)
    ensures OneAnswerPerCard(FixedRun(c, n, events), FinalDeck(n, events))
    ensures IndexInRange(FixedRun(c, n, events).s, FinalDeck(n, events))
    ensures FixedRun(c, n, events).s.studyMode ==> Answered(FixedRun(c, n, events).s.stats) <= FinalDeck(n, events)
    decreases |events|
  {
    if |events| > 0 {
      FixedStepKeepsOneAnswerPerCard(c, n, events[0]);
      FixedSessionNeverOvercounts(FixedStep(c, n, events[0]), DeckAfter(n, events[0]), events[1..]);
    }
  }
}

=== FILE: user_books_api.dfy ===
/** The caller's collection endpoint `/api/user/books`: list, add, remove and
    patch the caller's UserBook rows. Each handler is a function from the
    session, the request body and the store to a reply and the new store.
    `down` stands for a store that throws on its first call. */
module UserBooksApi {
  import opened Common
  import opened Store
  import opened Ordering
  import opened JsArray

  const UnknownAuthor: string := "Tidak Diketahui"
  const AlreadyCollected: string := "Buku sudah ada di koleksi kamu"

  /** One entry of the collection listing. */
  datatype BookSummary = BookSummary(id: string, title: string, author: string, coverUrl: Option<string>)

  function Summary(b: Book): BookSummary {
    BookSummary(b.id, b.title, b.author, b.coverUrl)
  }

  function TitleOf(s: BookSummary): string {
    s.title
  }

  /** The user `userId` holds book `bookId` in `rows`. */
  predicate Holds(rows: seq<UserBook>, userId: nat, bookId: string) {
    exists ub :: ub in rows && ub.userId == userId && ub.bookId == bookId
  }

  /** How many of `rows` put book `bookId` in user `userId`'s collection. */
  function HeldCount(rows: seq<UserBook>, userId: nat, bookId: string): nat
    decreases |rows|
  {
    if |rows| == 0 then 0
    else (if rows[0].userId == userId && rows[0].bookId == bookId then 1 else 0) + HeldCount(rows[1..], userId, bookId)
  }

  /** The caller's rows joined with their catalog books, in table order. */
  function Joined(db: Db, rows: seq<UserBook>, userId: nat): (r: seq<BookSummary>)
    ensures |r| <= |rows|
    ensures forall s :: s in r ==>
      BookById(db, s.id).Some? && s == Summary(BookById(db, s.id).value) && Holds(rows, userId, s.id)
    ensures forall ub :: ub in rows && ub.userId == userId && BookById(db, ub.bookId).Some? ==>
      Summary(BookById(db, ub.bookId).value) in r
    ensures forall id :: BookById(db, id).Some? ==>
      multiset(r)[Summary(BookById(db, id).value)] == HeldCount(rows, userId, id)
  {
    if |rows| == 0 then []
    else
      var rest := Joined(db, rows[1..], userId);
      var ub := rows[0];
      assert forall x :: x in rows[1..] ==> x in rows;
      if ub.userId == userId && BookById(db, ub.bookId).Some? then
        [Summary(BookById(db, ub.bookId).value)] + rest
      else rest
  }

  /** GET: the caller's books ordered by title, projected to id, title,
      author and cover. */
  function List(session: Option<Session>, db: Db, down: bool): (r: Reply<seq<BookSummary>>)
    ensures SessionUserId(session).None? <==> r.status == 401
    ensures r.status == 200 <==> SessionUserId(session).Some? && !down
    ensures r.status == 200 ==> r.body.Ok?
    ensures r.body.Ok? ==> Sorted(r.body.value, TitleOf)
    ensures r.body.Ok? ==> (SessionUserId(session).Some? &&
      multiset(r.body.value) == multiset(Joined(db, db.userBooks, SessionUserId(session).value)))
  {
    match SessionUserId(session)
    case None => Reply(401, Fail("Unauthorized"))
    case Some(userId) =>
      if down then Reply(500, Fail("Error fetching books"))
      else Reply(200, Ok(SortBy(Joined(db, db.userBooks, userId), TitleOf)))
  }

  /** The body of POST: a book as the search results describe it. */
  datatype AddBody = AddBody(
    id: Option<string>,
    title: Option<string>,
    author: StringOrList,
    coverUrl: Option<string>,
    isbn: StringOrList,
    publishers: StringOrList,
    publishYear: Option<int>)

  /** An array author is joined with ", "; a missing or empty one is unknown. */
  function CoerceAuthor(a: StringOrList): (r: string)
    ensures a.Many? ==> r == Join(a.items, ", ")
    ensures a.One? && a.s != "" ==> r == a.s
    ensures a.Missing? || a == One("") ==> r == UnknownAuthor
  {
    match a
    case Many(xs) => Join(xs, ", ")
    case One(s) => if s != "" then s else UnknownAuthor
    case Missing => UnknownAuthor
  }

  /** An array takes its first element; a missing or empty value is null. */
  function FirstOrNull(a: StringOrList): (r: Option<string>)
    ensures a.Many? && |a.items| > 0 ==> r == Some(a.items[0])
    ensures a.One? && a.s != "" ==> r == Some(a.s)
    ensures a.Missing? || a == One("") || a == Many([]) ==> r.None?
  {
    match a
    case Many(xs) => if |xs| > 0 then Some(xs[0]) else None
    case One(s) => if s != "" then Some(s) else None
    case Missing => None
  }

  /** The catalog row POST creates when `body.id` is unknown. */
  function NewCatalogBook(id: string, title: string, body: AddBody): (b: Book)
    ensures b.id == id && b.title == title
    ensures b.author == CoerceAuthor(body.author)
    ensures b.isbn == FirstOrNull(body.isbn) && b.publisher == FirstOrNull(body.publishers)
    ensures b.coverUrl == (if Truthy(body.coverUrl) then body.coverUrl else None)
    ensures b.description.None? && b.category.None? && b.language.None? && b.pageCount.None?
  {
    Book(
      id, title, CoerceAuthor(body.author),
      if Truthy(body.coverUrl) then body.coverUrl else None,
      FirstOrNull(body.isbn), FirstOrNull(body.publishers),
      None, None, None, None,
      if body.publishYear.Some? && body.publishYear.value != 0
      then Some(YearStart(body.publishYear.value)) else None)
  }

  /** Step 1 of POST: make sure the catalog has `body.id`. `None` when the
      create throws: no title, or an isbn another catalog book already has. */
  function EnsureCatalogBook(db: Db, id: string, body: AddBody): (r: Option<Db>)
    ensures BookById(db, id).Some? ==> r == Some(db)
    // the create fails exactly without a title or on an isbn already in use
    ensures r.None? <==>
      (BookById(db, id).None? && (body.title.None?
        || (FirstOrNull(body.isbn).Some? && BookByIsbn(db, FirstOrNull(body.isbn).value).Some?)))
    ensures r.Some? ==> r.value.users == db.users && r.value.userBooks == db.userBooks
    ensures r.Some? ==> r.value.reviews == db.reviews && r.value.nextId == db.nextId
    ensures r.Some? ==> r.value.quotes == db.quotes && r.value.flashcards == db.flashcards
    ensures r.Some? && BookById(db, id).None? ==> (body.title.Some? &&
      r.value.books == db.books + [NewCatalogBook(id, body.title.value, body)])
  {
    if BookById(db, id).Some? then Some(db)
    else if body.title.None? then None
    else
      var book := NewCatalogBook(id, body.title.value, body);
      if book.isbn.Some? && BookByIsbn(db, book.isbn.value).Some? then None
      else Some(db.(books := db.books + [book]))
  }

  /** POST: add `body.id` to the caller's collection, creating the catalog
      book first when it is unknown. */
  function Add(session: Option<Session>, body: AddBody, db: Db, down: bool): (o: Outcome<()>)
    ensures session.None? ==> o.reply.status == 401 && o.db == db
    // the caller is looked up before the book id is used
    ensures (session.Some? && !down && SessionEmail(session).Some?
             && UserByEmail(db, SessionEmail(session).value).None?) ==> o.reply.status == 404
    ensures o.reply.status != 200 ==> o.db == db
    // an existing catalog book is never modified; at most the new one is appended
    ensures o.db.books == db.books
         || (body.id.Some? && BookById(db, body.id.value).None? && body.title.Some?
             && o.db.books == db.books + [NewCatalogBook(body.id.value, body.title.value, body)])
    ensures o.db.users == db.users && o.db.reviews == db.reviews
    ensures o.db.quotes == db.quotes && o.db.flashcards == db.flashcards
    // success adds exactly one row, for the caller and this book
    ensures o.reply.body.Ok? ==>
      && o.reply.status == 200
      && body.id.Some? && session.Some? && SessionEmail(session).Some?
      && UserByEmail(db, SessionEmail(session).value).Some?
      && var u := UserByEmail(db, SessionEmail(session).value).value;
      && UserBookByKey(db, u.id, body.id.value).None?
      && o.db.userBooks == db.userBooks
           + [UserBook(db.nextId, u.id, body.id.value, DefaultStatus, DefaultProgress)]
      && o.db.nextId == db.nextId + 1
    // otherwise no row is added
    ensures o.reply.body.Fail? ==> o.db.userBooks == db.userBooks && o.db.nextId == db.nextId
    // a known caller, a book the catalog has or can take, and no row yet: the row is added
    ensures session.Some? && !down && SessionEmail(session).Some?
         && UserByEmail(db, SessionEmail(session).value).Some? && body.id.Some?
         && EnsureCatalogBook(db, body.id.value, body).Some?
         && UserBookByKey(db, UserByEmail(db, SessionEmail(session).value).value.id, body.id.value).None?
         ==> o.reply.status == 200 && o.reply.body.Ok? && |o.db.userBooks| == |db.userBooks| + 1
    // a row already there is reported and nothing is added
    ensures session.Some? && !down && SessionEmail(session).Some?
         && UserByEmail(db, SessionEmail(session).value).Some? && body.id.Some?
         && UserBookByKey(db, UserByEmail(db, SessionEmail(session).value).value.id, body.id.value).Some?
         && EnsureCatalogBook(db, body.id.value, body).Some?
         ==> o.reply == Reply(200, Fail(AlreadyCollected)) && o.db.userBooks == db.userBooks
  {
    if session.None? then Outcome(Reply(401, Fail("Unauthorized")), db)
    else if down || SessionEmail(session).None? then
      // the user lookup throws: the store is down, or the email is undefined
      Outcome(Reply(500, Fail("Internal Server Error")), db)
    else match UserByEmail(db, SessionEmail(session).value)
      case None => Outcome(Reply(404, Fail("User not found")), db)
      case Some(user) =>
        if body.id.None? then
          // the book lookup throws on an undefined unique key
          Outcome(Reply(500, Fail("Internal Server Error")), db)
        else
        var id := body.id.value;
        match EnsureCatalogBook(db, id, body)
        case None => Outcome(Reply(500, Fail("Internal Server Error")), db)
        case Some(db1) =>
          if UserBookByKey(db1, user.id, id).Some? then
            Outcome(Reply(200, Fail(AlreadyCollected)), db1)
          else
            var row := UserBook(db1.nextId, user.id, id, DefaultStatus, DefaultProgress);
            Outcome(Reply(200, Ok(())), db1.(userBooks := db1.userBooks + [row], nextId := db1.nextId + 1))
  }

  /** The rows of `rows` whose key is not (userId, bookId), in order. */
  function WithoutKey(rows: seq<UserBook>, userId: nat, bookId: string): (r: seq<UserBook>)
    ensures forall ub :: ub in r <==> ub in rows && !(ub.userId == userId && ub.bookId == bookId)
    ensures |r| <= |rows|
  {
    if |rows| == 0 then []
    else
      var rest := WithoutKey(rows[1..], userId, bookId);
      assert forall x :: x in rows <==> x == rows[0] || x in rows[1..];
      if rows[0].userId == userId && rows[0].bookId == bookId then rest
      else [rows[0]] + rest
  }

  /** The test `deleteMany`'s where clause fails: a key other than (userId, bookId). */
  function OtherKey(userId: nat, bookId: string): (keep: UserBook -> bool)
    ensures forall ub :: keep(ub) <==> !(ub.userId == userId && ub.bookId == bookId)
  {
    (ub: UserBook) => !(ub.userId == userId && ub.bookId == bookId)
  }

  /** The delete is a filter: the surviving rows keep their order and each
      occurs as often as before, while rows with the key are all gone. */
  lemma {:induction false} WithoutKeyIsFilter(rows: seq<UserBook>, userId: nat, bookId: string)
    ensures WithoutKey(rows, userId, bookId) == Filter(rows, OtherKey(userId, bookId))
    ensures IsSubsequence(WithoutKey(rows, userId, bookId), rows)
    ensures forall ub: UserBook ::
      multiset(WithoutKey(rows, userId, bookId))[ub]
      == (if ub.userId == userId && ub.bookId == bookId then 0 else multiset(rows)[ub])
  {
    if |rows| > 0 {
      WithoutKeyIsFilter(rows[1..], userId, bookId);
    }
  }

  /** DELETE: remove the caller's row for `bookId`. */
  function Remove(session: Option<Session>, bookId: Option<string>, db: Db, down: bool): (o: Outcome<UserBook>)
    ensures session.None? ==> o.reply.status == 401 && o.db == db
    ensures session.Some? && !Truthy(bookId) ==> o.reply.status == 400 && o.db == db
    ensures o.reply.status != 200 ==> o.db == db
    ensures o.db.books == db.books && o.db.users == db.users && o.db.reviews == db.reviews
    ensures o.db.quotes == db.quotes && o.db.flashcards == db.flashcards && o.db.nextId == db.nextId
    ensures o.reply.status == 200 <==> o.reply.body.Ok?
    // success: the caller's row existed and is gone; every other row stays
    ensures o.reply.body.Ok? ==>
      && SessionEmail(session).Some? && UserByEmail(db, SessionEmail(session).value).Some?
      && var u := UserByEmail(db, SessionEmail(session).value).value;
      && UserBookByKey(db, u.id, bookId.value) == Some(o.reply.body.value)
      && o.db.userBooks == WithoutKey(db.userBooks, u.id, bookId.value)
    // a missing row surfaces as a server error
    ensures session.Some? && Truthy(bookId) && !down && SessionEmail(session).Some?
         && UserByEmail(db, SessionEmail(session).value).Some?
         && UserBookByKey(db, UserByEmail(db, SessionEmail(session).value).value.id, bookId.value).None?
         ==> o.reply.status == 500
    // the caller's existing row is deleted
    ensures session.Some? && Truthy(bookId) && !down && SessionEmail(session).Some?
         && UserByEmail(db, SessionEmail(session).value).Some?
         && UserBookByKey(db, UserByEmail(db, SessionEmail(session).value).value.id, bookId.value).Some?
         ==> o.reply.status == 200
  {
    if session.None? then Outcome(Reply(401, Fail("Unauthorized")), db)
    else if !Truthy(bookId) then Outcome(Reply(400, Fail("bookId is required")), db)
    else if down || SessionEmail(session).None? then Outcome(Reply(500, Fail("Internal Server Error")), db)
    else match UserByEmail(db, SessionEmail(session).value)
      case None => Outcome(Reply(404, Fail("User not found")), db)
      case Some(user) =>
        match UserBookByKey(db, user.id, bookId.value)
        case None => Outcome(Reply(500, Fail("Internal Server Error")), db)
        case Some(row) =>
          Outcome(Reply(200, Ok(row)), db.(userBooks := WithoutKey(db.userBooks, user.id, bookId.value)))
  }

  /** The body of PATCH. */
  datatype PatchBody = PatchBody(bookId: Option<string>, status: Option<string>, progress: Option<JsonScalar>)

  /** The fields PATCH writes: status when truthy, progress when a number. */
  function Patched(ub: UserBook, status: Option<string>, progress: Option<JsonScalar>): (r: UserBook)
    ensures r.id == ub.id && r.userId == ub.userId && r.bookId == ub.bookId
    ensures r.status == (if Truthy(status) then status.value else ub.status)
    ensures r.progress == (if progress.Some? && progress.value.JNumber? then progress.value.n else ub.progress)
  {
    ub.(status := if Truthy(status) then status.value else ub.status,
        progress := if progress.Some? && progress.value.JNumber? then progress.value.n else ub.progress)
  }

  /** Replace every row with key (userId, bookId) by its patched version. */
  function PatchRows(rows: seq<UserBook>, userId: nat, bookId: string,
                     status: Option<string>, progress: Option<JsonScalar>): (r: seq<UserBook>)
    ensures |r| == |rows|
    ensures forall i :: 0 <= i < |rows| ==>
      r[i] == if rows[i].userId == userId && rows[i].bookId == bookId
              then Patched(rows[i], status, progress) else rows[i]
  {
    if |rows| == 0 then []
    else
      var head := if rows[0].userId == userId && rows[0].bookId == bookId
                  then Patched(rows[0], status, progress) else rows[0];
      [head] + PatchRows(rows[1..], userId, bookId, status, progress)
  }

  /** PATCH: update status and/or progress of the caller's row for `bookId`. */
  function Update(session: Option<Session>, body: PatchBody, db: Db, down: bool): (o: Outcome<UserBook>)
    ensures SessionUserId(session).None? ==> o.reply.status == 401 && o.db == db
    ensures SessionUserId(session).Some? && !Truthy(body.bookId) ==> o.reply.status == 400 && o.db == db
    ensures o.reply.status != 200 ==> o.db == db
    ensures o.db.books == db.books && o.db.users == db.users && o.db.reviews == db.reviews
    ensures o.db.quotes == db.quotes && o.db.flashcards == db.flashcards && o.db.nextId == db.nextId
    ensures o.reply.status == 200 <==> o.reply.body.Ok?
    ensures o.reply.body.Ok? ==>
      && var row := UserBookByKey(db, SessionUserId(session).value, body.bookId.value);
      && row.Some?
      && o.reply.body.value == Patched(row.value, body.status, body.progress)
      && o.db.userBooks == PatchRows(db.userBooks, SessionUserId(session).value, body.bookId.value, body.status, body.progress)
    ensures SessionUserId(session).Some? && Truthy(body.bookId) && !down
         && UserBookByKey(db, SessionUserId(session).value, body.bookId.value).None?
         ==> o.reply.status == 500 && o.db == db
    // the caller's existing row is patched
    ensures SessionUserId(session).Some? && Truthy(body.bookId) && !down
         && UserBookByKey(db, SessionUserId(session).value, body.bookId.value).Some?
         ==> o.reply.status == 200
  {
    match SessionUserId(session)
    case None => Outcome(Reply(401, Fail("Unauthorized")), db)
    case Some(userId) =>
      if !Truthy(body.bookId) then Outcome(Reply(400, Fail("bookId is required")), db)
      else if down then Outcome(Reply(500, Fail("Internal Server Error")), db)
      else
        var bookId := body.bookId.value;
        match UserBookByKey(db, userId, bookId)
        case None => Outcome(Reply(500, Fail("Internal Server Error")), db)
        case Some(row) =>
          Outcome(Reply(200, Ok(Patched(row, body.status, body.progress))),
                  db.(userBooks := PatchRows(db.userBooks, userId, bookId, body.status, body.progress)))
  }

  // ---------------------------------------------------------------------
  // Properties across requests

  /** Adding a book keeps the store invariant: in particular (userId, bookId)
      stays unique and catalog ids and isbns stay unique. */
  lemma AddPreservesValid(session: Option<Session>, body: AddBody, db: Db, down: bool)
    requires Valid(db)
    ensures Valid(Add(session, body, db, down).db)
  {
    var o := Add(session, body, db, down);
    if session.None? || down || SessionEmail(session).None? {
      assert o.db == db;
    } else {
      match UserByEmail(db, SessionEmail(session).value)
      case None =>
        assert o.db == db;
      case Some(u) =>
        if body.id.None? {
          assert o.db == db;
        } else {
          var id := body.id.value;
          match EnsureCatalogBook(db, id, body)
          case None =>
            assert o.db == db;
          case Some(db1) =>
            EnsureCatalogBookPreservesValid(db, id, body);
            if UserBookByKey(db1, u.id, id).None? {
              var row := UserBook(db1.nextId, u.id, id, DefaultStatus, DefaultProgress);
              assert HasUser(db1, u.id);
              ValidWithNewUserBook(db1, row);
              assert o.db == db1.(userBooks := db1.userBooks + [row], nextId := db1.nextId + 1);
            } else {
              assert o.db == db1;
            }
        }
    }
  }

  /** Step 1 of POST keeps the store invariant. */
  lemma EnsureCatalogBookPreservesValid(db: Db, id: string, body: AddBody)
    requires Valid(db)
    requires EnsureCatalogBook(db, id, body).Some?
    ensures Valid(EnsureCatalogBook(db, id, body).value)
    ensures BookById(EnsureCatalogBook(db, id, body).value, id).Some?
  {
    if BookById(db, id).None? {
      ValidWithNewBook(db, NewCatalogBook(id, body.title.value, body));
    }
  }

  /** Adding the same book twice yields one row: the second request answers
      "already in your collection" and changes nothing. */
  lemma AddTwiceAddsOnce(session: Option<Session>, body: AddBody, db: Db)
    requires Valid(db)
    requires Add(session, body, db, false).reply.body.Ok?
    ensures var db1 := Add(session, body, db, false).db;
      && |db1.userBooks| == |db.userBooks| + 1
      && Add(session, body, db1, false) == Outcome(Reply(200, Fail(AlreadyCollected)), db1)
  {
    var db1 := Add(session, body, db, false).db;
    var u := UserByEmail(db, SessionEmail(session).value).value;
    var id := body.id.value;
    var row := UserBook(db.nextId, u.id, id, DefaultStatus, DefaultProgress);
    assert row in db1.userBooks;
    assert db1.users == db.users;
    assert BookById(db1, id).Some? by {
      if BookById(db, id).None? {
        assert db1.books[|db.books|].id == id;
      } else {
        assert BookById(db, id).value in db1.books;
      }
    }
    assert EnsureCatalogBook(db1, id, body) == Some(db1);
  }

  /** Removing keeps the store invariant. */
  lemma RemovePreservesValid(session: Option<Session>, bookId: Option<string>, db: Db, down: bool)
    requires Valid(db)
    ensures Valid(Remove(session, bookId, db, down).db)
  {
    var o := Remove(session, bookId, db, down);
    if o.db != db {
      var u := UserByEmail(db, SessionEmail(session).value).value;
      WithoutKeyKeepsIds(db.userBooks, u.id, bookId.value, db.nextId);
      WithoutKeyKeepsKeys(db.userBooks, u.id, bookId.value);
    }
  }

  /** Ids strictly ascending along the rows and all below `nextId`. */
  predicate AscendingBelow(rows: seq<UserBook>, nextId: nat) {
    && (forall i, j :: 0 <= i < j < |rows| ==> rows[i].id < rows[j].id)
    && (forall i :: 0 <= i < |rows| ==> rows[i].id < nextId)
  }

  lemma IdsIssuedIffAscendingBelow(rows: seq<UserBook>, nextId: nat)
    ensures IdsIssued(UserBookIds(rows), nextId) <==> AscendingBelow(rows, nextId)
  {
    var ids := UserBookIds(rows);
    assert forall i :: 0 <= i < |rows| ==> ids[i] == rows[i].id;
  }

  /** Every row after the first has a larger id and another key than the first. */
  lemma HeadBeforeTail(rows: seq<UserBook>)
    requires |rows| > 0
    ensures (forall i, j :: 0 <= i < j < |rows| ==> rows[i].id < rows[j].id) ==>
      forall x :: x in rows[1..] ==> rows[0].id < x.id
    ensures UserBookKeysUnique(rows) ==>
      forall x :: x in rows[1..] ==> !(rows[0].userId == x.userId && rows[0].bookId == x.bookId)
  {
    forall x | x in rows[1..] ensures x == rows[1 + IndexIn(rows[1..], x)] {
    }
  }

  /** A position of `x` in `xs`. */
  function IndexIn(xs: seq<UserBook>, x: UserBook): (k: nat)
    requires x in xs
    ensures k < |xs| && xs[k] == x
  {
    if xs[0] == x then 0 else 1 + IndexIn(xs[1..], x)
  }

  /** Dropping rows keeps ids ascending and issued. */
  lemma WithoutKeyKeepsIds(rows: seq<UserBook>, userId: nat, bookId: string, nextId: nat)
    requires IdsIssued(UserBookIds(rows), nextId)
    ensures IdsIssued(UserBookIds(WithoutKey(rows, userId, bookId)), nextId)
  {
    IdsIssuedIffAscendingBelow(rows, nextId);
    WithoutKeyAscending(rows, userId, bookId, nextId);
    IdsIssuedIffAscendingBelow(WithoutKey(rows, userId, bookId), nextId);
  }

  lemma {:induction false} WithoutKeyAscending(rows: seq<UserBook>, userId: nat, bookId: string, nextId: nat)
    requires AscendingBelow(rows, nextId)
    ensures AscendingBelow(WithoutKey(rows, userId, bookId), nextId)
  {
    if |rows| > 0 {
      TailAscendingBelow(rows, nextId);
      WithoutKeyAscending(rows[1..], userId, bookId, nextId);
      if !(rows[0].userId == userId && rows[0].bookId == bookId) {
        HeadBeforeTail(rows);
        ConsAscendingBelow(rows[0], WithoutKey(rows[1..], userId, bookId), nextId);
      }
    }
  }

  lemma TailAscendingBelow(rows: seq<UserBook>, nextId: nat)
    requires |rows| > 0 && AscendingBelow(rows, nextId)
    ensures AscendingBelow(rows[1..], nextId)
  {
    var tail := rows[1..];
    forall i, j | 0 <= i < j < |tail| ensures tail[i].id < tail[j].id {
      assert tail[i] == rows[i + 1] && tail[j] == rows[j + 1];
    }
  }

  lemma ConsAscendingBelow(x: UserBook, rest: seq<UserBook>, nextId: nat)
    requires AscendingBelow(rest, nextId) && x.id < nextId
    requires forall y :: y in rest ==> x.id < y.id
    ensures AscendingBelow([x] + rest, nextId)
  {
    var r := [x] + rest;
    forall i, j | 0 <= i < j < |r| ensures r[i].id < r[j].id {
      assert r[j] == rest[j - 1];
      if i > 0 {
        assert r[i] == rest[i - 1];
      }
    }
  }

  /** Dropping rows keeps (userId, bookId) unique. */
  lemma {:induction false} WithoutKeyKeepsKeys(rows: seq<UserBook>, userId: nat, bookId: string)
    requires UserBookKeysUnique(rows)
    ensures UserBookKeysUnique(WithoutKey(rows, userId, bookId))
  {
    if |rows| > 0 {
      TailKeysUnique(rows);
      WithoutKeyKeepsKeys(rows[1..], userId, bookId);
      if !(rows[0].userId == userId && rows[0].bookId == bookId) {
        HeadBeforeTail(rows);
        ConsKeysUnique(rows[0], WithoutKey(rows[1..], userId, bookId));
      }
    }
  }

  lemma TailKeysUnique(rows: seq<UserBook>)
    requires |rows| > 0 && UserBookKeysUnique(rows)
    ensures UserBookKeysUnique(rows[1..])
  {
    var tail := rows[1..];
    forall i, j | 0 <= i < j < |tail|
      ensures !(tail[i].userId == tail[j].userId && tail[i].bookId == tail[j].bookId)
    {
      assert tail[i] == rows[i + 1] && tail[j] == rows[j + 1];
    }
  }

  lemma ConsKeysUnique(x: UserBook, rest: seq<UserBook>)
    requires UserBookKeysUnique(rest)
    requires forall y :: y in rest ==> !(x.userId == y.userId && x.bookId == y.bookId)
    ensures UserBookKeysUnique([x] + rest)
  {
    var r := [x] + rest;
    forall i, j | 0 <= i < j < |r|
      ensures !(r[i].userId == r[j].userId && r[i].bookId == r[j].bookId)
    {
      assert r[j] == rest[j - 1];
      if i > 0 {
        assert r[i] == rest[i - 1];
      }
    }
  }

  /** After a successful removal, removing the same book again finds no row
      and surfaces as a server error. */
  lemma RemoveTwiceFails(session: Option<Session>, bookId: Option<string>, db: Db)
    requires Remove(session, bookId, db, false).reply.body.Ok?
    ensures var db1 := Remove(session, bookId, db, false).db;
      && Remove(session, bookId, db1, false).reply.status == 500
      && Remove(session, bookId, db1, false).db == db1
  {
    var db1 := Remove(session, bookId, db, false).db;
    var u := UserByEmail(db, SessionEmail(session).value).value;
    assert db1.users == db.users;
    assert UserBookByKey(db1, u.id, bookId.value).None?;
  }

  /** Patching keeps the store invariant. */
  lemma UpdatePreservesValid(session: Option<Session>, body: PatchBody, db: Db, down: bool)
    requires Valid(db)
    ensures Valid(Update(session, body, db, down).db)
  {
    var o := Update(session, body, db, down);
    if o.db != db {
      var userId := SessionUserId(session).value;
      var bookId := body.bookId.value;
      PatchRowsKeepsIds(db.userBooks, db.nextId, userId, bookId, body.status, body.progress);
      PatchRowsKeepsKeys(db.userBooks, userId, bookId, body.status, body.progress);
      PatchRowsKeepsReferences(db, userId, bookId, body.status, body.progress);
      ValidWithUserBooks(db, PatchRows(db.userBooks, userId, bookId, body.status, body.progress), db.nextId);
    }
  }

  /** Patching rows changes no id, ... */
  lemma PatchRowsKeepsIds(rows: seq<UserBook>, nextId: nat, userId: nat, bookId: string,
                          status: Option<string>, progress: Option<JsonScalar>)
    requires IdsIssued(UserBookIds(rows), nextId)
    ensures IdsIssued(UserBookIds(PatchRows(rows, userId, bookId, status, progress)), nextId)
  {
    assert UserBookIds(PatchRows(rows, userId, bookId, status, progress)) == UserBookIds(rows);
  }

  /** ... no key, ... */
  lemma PatchRowsKeepsKeys(rows: seq<UserBook>, userId: nat, bookId: string,
                           status: Option<string>, progress: Option<JsonScalar>)
    requires UserBookKeysUnique(rows)
    ensures UserBookKeysUnique(PatchRows(rows, userId, bookId, status, progress))
  {
    var rows' := PatchRows(rows, userId, bookId, status, progress);
    forall i, j | 0 <= i < j < |rows'|
      ensures !(rows'[i].userId == rows'[j].userId && rows'[i].bookId == rows'[j].bookId)
    {
      assert !(rows[i].userId == rows[j].userId && rows[i].bookId == rows[j].bookId);
    }
  }

  /** ... and no foreign key. */
  lemma PatchRowsKeepsReferences(db: Db, userId: nat, bookId: string,
                                 status: Option<string>, progress: Option<JsonScalar>)
    requires forall ub :: ub in db.userBooks ==> HasUser(db, ub.userId) && BookById(db, ub.bookId).Some?
    ensures forall ub :: ub in PatchRows(db.userBooks, userId, bookId, status, progress) ==>
      HasUser(db, ub.userId) && BookById(db, ub.bookId).Some?
  {
    var rows := PatchRows(db.userBooks, userId, bookId, status, progress);
    forall ub | ub in rows
      ensures HasUser(db, ub.userId) && BookById(db, ub.bookId).Some?
    {
      var i :| 0 <= i < |rows| && rows[i] == ub;
      assert db.userBooks[i] in db.userBooks;
    }
  }

  /** A patch that names only the status leaves every progress value as it
      was, and one that names only the progress leaves every status. */
  lemma {:induction false} PatchFieldsIndependent(session: Option<Session>, body: PatchBody, db: Db, down: bool)
    ensures var o := Update(session, body, db, down);
      && |o.db.userBooks| == |db.userBooks|
      && (forall i :: 0 <= i < |db.userBooks| && !(body.progress.Some? && body.progress.value.JNumber?) ==>
            o.db.userBooks[i].progress == db.userBooks[i].progress)
      && (forall i :: 0 <= i < |db.userBooks| && !Truthy(body.status) ==>
            o.db.userBooks[i].status == db.userBooks[i].status)
      && (forall i :: 0 <= i < |db.userBooks| ==>
            o.db.userBooks[i].userId == db.userBooks[i].userId && o.db.userBooks[i].bookId == db.userBooks[i].bookId)
  {
  }
}

=== FILE: user_books_store.dfy ===
/** The client-side list of the user's books (`useUserBooksStore`). */
module UserBooksStore {
  import opened Common
  import opened JsArray

  /** A book as the search results and the collection page hold it. */
  datatype BookData = BookData(
    id: string,
    title: string,
    author: StringOrList,
    publishYear: Option<int>,
    isbn: StringOrList,
    coverUrl: Option<string>,
    subjects: Option<seq<string>>,
    publishers: StringOrList)

  /** `setUserBooks`: the list becomes `books`, whatever it held. */
  function SetUserBooks(state: seq<BookData>, books: seq<BookData>): (state': seq<BookData>)
    ensures state' == books
  {
    books
  }

  /** `addBook`: append, without checking for a book with the same id. */
  function AddBook(state: seq<BookData>, book: BookData): (state': seq<BookData>)
    ensures |state'| == |state| + 1
    ensures state'[..|state|] == state && state'[|state|] == book
  {
    state + [book]
  }

  /** `removeBook`: drop every entry with that id; the rest keep their order. */
  function RemoveBook(state: seq<BookData>, bookId: string): (state': seq<BookData>)
    ensures forall b :: b in state' <==> b in state && b.id != bookId
    ensures IsSubsequence(state', state)
    ensures (forall b :: b in state ==> b.id != bookId) ==> state' == state
    ensures forall b :: multiset(state')[b] == if b.id != bookId then multiset(state)[b] else 0
  {
    Filter(state, (b: BookData) => b.id != bookId)
  }

  /** Removing twice is removing once. */
  lemma RemoveIdempotent(state: seq<BookData>, bookId: string)
    ensures RemoveBook(RemoveBook(state, bookId), bookId) == RemoveBook(state, bookId)
  {
    FilterIdempotent(state, (b: BookData) => b.id != bookId);
  }
}

=== FILE: userbook_api.dfy ===
/** GET `/api/user/books/userbook`: the caller's collection entry for a book. */
module UserbookApi {
  import opened Common
  import opened Store

  function Get(session: Option<Session>, bookId: Option<string>, db: Db, down: bool): (r: Reply<UserBook>)
    ensures SessionUserId(session).None? ==> r.status == 401 && r.body.Fail?
    ensures SessionUserId(session).Some? && !Truthy(bookId) ==> r.status == 400 && r.body.Fail?
    ensures SessionUserId(session).Some? && Truthy(bookId) && down ==> r.status == 500 && r.body.Fail?
    ensures SessionUserId(session).Some? && Truthy(bookId) && !down ==>
      (r.status == 404 <==> forall ub :: ub in db.userBooks ==>
        !(ub.userId == SessionUserId(session).value && ub.bookId == bookId.value))
    // only the caller's own row for that book is ever returned, unchanged
    ensures r.body.Ok? ==>
      && r.status == 200 && r.body.value in db.userBooks
      && r.body.value.userId == SessionUserId(session).value && r.body.value.bookId == bookId.value
  {
    if SessionUserId(session).None? then Reply(401, Fail("Unauthorized"))
    else if !Truthy(bookId) then Reply(400, Fail("bookId is required"))
    else if down then Reply(500, Fail("Internal Server Error"))
    else match UserBookByKey(db, SessionUserId(session).value, bookId.value)
      case None => Reply(404, Fail("UserBook not found"))
      case Some(ub) => Reply(200, Ok(ub))
  }

  /** Under the invariant the row returned is THE row with that key: any row
      of the caller for the book is the one the handler answers with. */
  lemma GetFindsTheRow(session: Option<Session>, db: Db, ub: UserBook)
    requires Valid(db) && ub in db.userBooks
    requires SessionUserId(session) == Some(ub.userId) && ub.bookId != ""
    ensures Get(session, Some(ub.bookId), db, false) == Reply(200, Ok(ub))
  {
    UserBookKeyDetermines(db, ub);
  }
}
